=== FILE: README.md ===
# Assemblies: a Dafny model of the brain, the learning scheduler and the data sets

This project models the deterministic core of the `assemblies` Python
package, a simulator of neural assemblies that learns boolean functions.
It covers four parts:

- **The brain** (`brain.py`). This covers areas and output areas, the
  connectome lookups and their two kinds of dictionaries, and adding and
  removing output areas. It also covers `update_winners` and one round of
  `project`. A round validates the stimulus and area maps, inverts them
  into per-target input lists, and runs the projection engine
  `project_into` once per targeted area. Only after all of those calls does
  it commit every targeted area's new winners together.
- **The learning scheduler** (`LearningArchitecture`). It is a list of
  projection steps, each with a source, a target and a number of
  consecutive runs. It is iterated in cycles under a mutable run
  configuration.
- **The learning model** (`LearningModel`). This covers:
  - encoding an input number as the list of active stimuli;
  - validating input numbers against the domain size;
  - building the parameters of one projection step;
  - the training-mode context manager;
  - partitioning a test set into hits and misses, and computing the
    accuracy.
- **The data sets, masks and training sets**. These are iterators over the
  inputs `0 .. 2^d - 1` of a boolean function. The function is given as a
  callable or as a list of outputs. The shared `__next__` logic checks that
  outputs are boolean and applies noise. The model also covers the
  explicit mask and the random-sampling training set.

## How the model is built

- A Python method mutates its receiver and may raise. In the model it
  returns `Call<S, T>`: the receiver's state after the call, together with
  the value returned or the exception raised (`Outcomes`). This lets a
  contract say both that a call does nothing before raising and that a
  call mutated its receiver and then raised.
- Pure operations return `Result<T>`.
- Python list subscription is modelled by `PyIndex`: negative indices count
  from the end, and anything else outside the list raises `IndexError`.
- Every cursor-driven iterator shares the `Cursor` module. The cursor
  starts at -1, and `StopIteration` comes once the cursor reaches
  `2^d - 1`. The module also has lemmas for what a run of `next` calls
  issues.
- The projection engine `project_into` is a parameter of `Project`. So are
  the iteration order of the Python set of targeted names, the noise
  draws, and the `random.randint` draws.

Where the code's own docstrings promise more than the code does, the model
follows the code:

- `initialize_run` documents `number_of_cycles` as the number of full
  cycles to run (learning/learning_architecture.py:62-66), yet
  `number_of_cycles <= 0` still runs one full cycle.
- The iteration builders document `consecutive_runs` as the number of
  times a step runs (learning/learning_architecture.py:93-98), yet a step
  with `consecutive_runs <= 0` is issued once per cycle. The exception is
  the first step in the first cycle, which is then not issued at all:
  `initialize_run` sets the run counter to -1, and the first `__next__`
  moves straight past that step.
- `_set_training_mode` promises to restore the original mode
  (learning/learning_model.py:176-183), yet it does not restore it when
  its body raises.
- `test_model` promises the percentage of matching runs
  (learning/learning_model.py:55-61), yet an empty test set raises
  `ZeroDivisionError`.
- `ExplicitMask`'s docstring says that indices beyond the given mask
  values default to 0 (learning/data_set/lib/masks/explicit_mask.py:9-12),
  yet `in_training_set` and `in_testing_set` subscript the list directly.
  An index past its end raises `IndexError`, and a negative one reads from
  the end.
- The training-set tests expect `noise_probability=1` to flip every value,
  and 0.5 to flip some (tests/training/test_callable_training_set.py:45-71).
  Yet `TrainingSetBase.__next__` applies no noise
  (training/lib/training_set_base.py:11-16), and the constructors that take
  the probability raise before storing it.
- The `remove_output_area` bug, the `CallableDataSet` mismatch and the
  training-set constructors below are modelled as written, next to
  corrected versions.

## Model

| member | source | states |
|---|---|---|
| Brain.New | brain.py:137-152 | A new brain has no areas, output areas, stimuli or connectomes of either kind. It keeps `p` and starts in the default mode. |
| Brain.NewBaseArea | brain.py:52-61 | A new area has empty plasticity maps, no winners or pending winners, support size 0 and `num_first_winners` -1. |
| Brain.NewOutputArea | brain.py:111-120 | An output area has plasticity 0.05 and support size `OutputArea.n` = 2. Otherwise it is a fresh base area. |
| Brain.UpdateWinners | brain.py:63-69 | The pending winners and pending support size become the current ones. Every other field is unchanged. |
| Brain.UpdateWinnersIdempotent | brain.py:63-69 | Committing twice gives the same area as committing once. |
| Brain.DefaultGet | brain.py:145-148 | Nested `defaultdict` subscription. A stored entry is returned unchanged. A missing one is created with the default and returned. Other outer keys are untouched and no key disappears. |
| Brain.DictGet | brain.py:158 | Plain nested subscription succeeds exactly when both keys are present. Otherwise `KeyError` names the outer key if it is missing, else the inner key. |
| Brain.GetStimulusConnectomes | brain.py:154-158 | For an output area the lookup always succeeds, creates the entry on first use, and changes nothing but the output-stimulus dictionary. For any other area it never mutates and succeeds exactly when the entry exists. |
| Brain.GetAreaConnectomes | brain.py:160-164 | The same dispatch between `output_connectomes` and `connectomes`, decided by the target area. |
| Brain.ConnectomeLookupIdempotent | brain.py:154-164 | Looking up the same connectome twice returns the same weights and leaves the same brain. A first lookup into an output area returns the zero default of the right shape. |
| Brain.AddOutputArea | brain.py:169-177 | Fails with `AssertionError` exactly when a regular area has the name. Otherwise it adds a fresh output area: plasticity 0.05 from every stimulus that has connectomes and from every regular area. No other output area and nothing outside `output_areas` changes. |
| Brain.RemoveOutputAreaAsWritten | brain.py:179-186 | As written: `AssertionError` for an unknown name. Otherwise the area is popped, and the call raises `AttributeError` exactly when some output-connectome dictionary is non-empty. |
| Brain.RemoveAsWrittenFailsAfterLookup | brain.py:179-186 | After any stimulus-connectome lookup into an output area, the written removal raises `AttributeError` with the area already gone. |
| Brain.Purge | brain.py:183-186 | Every inner dictionary loses the key `name`, and the outer keys stay. |
| Brain.RemoveOutputArea | brain.py:179-186 | Corrected: `AssertionError` exactly for an unknown name. Otherwise it removes the area and every connectome into it, and changes nothing else. |
| Brain.AddThenRemove | brain.py:169-186 | Adding an output area under a fresh name and then removing it gives back the original brain. |
| Brain.RemoveThenAdd | brain.py:169-186 | Removing an output area and adding it again gives a fresh output area under that name, with no connectome into it. |
| Brain.RemoveOutputAreaExample | brain.py:179-186 | Concrete case: one lookup into "Output" makes the written removal raise `AttributeError`, while the corrected removal succeeds and leaves no connectome into "Output". |
| Projection.KnownNames | brain.py:212-213 | The names a projection may target are exactly the regular and the output areas. |
| Projection.SourcesIntoNonEmpty | brain.py:211-214 | An area's reference input list is non-empty exactly when some edge targets it. |
| Projection.AddSourceSpec | brain.py:211-214 | Of `Projection.AddSource`: the inner validation loop succeeds exactly when every target is known, and appends the source once per listing to each target. Otherwise it raises the "not in brain.areas" error for an unknown target. |
| Projection.AddSourceChecks | brain.py:211-213 | The inner validation loop succeeds exactly when every target is a known area. Otherwise its error is `UnknownArea` for a listed target that is not known. |
| Projection.AddSourceListAt | brain.py:211-214 | After a successful inner loop, each target's list has gained the source once per time the target is listed, after what it held before. |
| Projection.AddSourceKeys | brain.py:211-214 | After a successful inner loop, the names with a list are the old ones plus the listed targets. |
| Projection.InvertSucceeds | brain.py:208-221 | Of `Projection.Invert`: one validation pass succeeds exactly when every source is a valid source and every target is known. |
| Projection.InvertLists | brain.py:208-221 | A successful pass extends every input list by the reference list: each source, once per time it targets the area, in map order. |
| Projection.InvertKeys | brain.py:208-221 | After a successful pass, an area has an entry exactly when it had one before or some edge targets it. |
| Projection.InvertNamesCulprit | brain.py:208-221 | A failing pass raises an error naming an unknown source, or a target that is neither kind of area. |
| Projection.CollectSpec | brain.py:205-221 | Of `Projection.Collect`: validation succeeds exactly when both maps use known names: stimulus sources are stimuli, area sources are regular areas, targets are areas of either kind. On success `stim_in[a]` and `area_in[a]` are the reference input lists, and the areas to update are exactly the targeted ones. On failure the error names an offending identifier. |
| Projection.TargetedAreKnown | brain.py:223-229 | Every name in `to_update` is a regular or output area, so the lookup there cannot fail. |
| Projection.StoreSpec | brain.py:226-233 | Writing back an area changes exactly that area, as `Lookup` sees it, and keeps every other field of the brain. |
| Projection.StoreLookupAt | brain.py:226-233 | After writing back an area, the written name holds the new area and every other known name holds what it held before. |
| Projection.ComputeKeepsSettled | brain.py:231-233 | The compute loop never changes a committed field of any area or anything outside the areas. Only pending winners, pending support and `num_first_winners` change. |
| Projection.UntouchedUntilItsCall | brain.py:231-233 | An area listed at position `k` is exactly as before the round until its own `project_into` call. |
| Projection.StepLookup | brain.py:231-233 | One `project_into` call gives its own target the engine's result as pending state, and leaves every other area as it was. |
| Projection.UntouchedBefore | brain.py:231-233 | An area that none of the first `k` calls targets is as it was before the round. |
| Projection.PendingKeepsSettledAt | brain.py:231-233 | Writing a pending result into one area keeps the committed state of every area and output area. |
| Projection.EveryCallSeesPreRoundState | brain.py:231-233 | The `k`-th `project_into` call sees a brain whose committed state equals the pre-round brain. It receives its target as before the round, with the target's two input lists. |
| Projection.PendingAfterItsCall | brain.py:231-233 | After the compute loop, each listed area holds the result of its own call as its pending state. |
| Projection.UnlistedUntouched | brain.py:223-233 | The compute loop leaves every area outside `to_update` unchanged. |
| Projection.Commit | brain.py:235-237 | The commit loop applies `update_winners` to exactly the listed areas and changes nothing else. |
| Projection.Project | brain.py:191-237 | `project` raises exactly when validation fails, with the brain unchanged and the validation error. It never adds or removes an area, stimulus or connectome, and never touches `p`, the mode or a shadowed regular area. |
| Projection.ProjectUnfolds | brain.py:191-237 | An accepted round returns normally, and its result is the commit loop applied after the compute loop. |
| Projection.ComputedWithCommittedReads | brain.py:231-233 | Take an engine that reads only committed state. Each area's pending state after the compute loop is then the engine's result on the pre-round brain. |
| Projection.RoundLookup | brain.py:231-237 | Take an engine that reads only committed state, after the compute loop and the commit loop. A listed area holds its own engine result on the pre-round brain, committed; an unlisted area is unchanged. |
| Projection.ProjectIsSimultaneous | brain.py:191-237 | Take an engine that reads only committed state. A targeted area ends the round as its projection computed alone from the pre-round brain, with exactly the stimuli and areas the maps send into it, and then committed. An untargeted area is unchanged. The iteration order does not matter. |
| Projection.StubEngine | brain.py:239-240 | This source's `project_into` only sets `num_first_winners` to 0. |
| Projection.ProjectWithStubEngine | brain.py:191-240 | With this source's engine, a round commits each targeted area's pending winners with `num_first_winners` 0 and leaves the other areas unchanged. |
| LearningArchitecture.GetArea | learning/learning_architecture.py:84-91 | Succeeds exactly for regular areas; otherwise `MissingArea` with the name. |
| LearningArchitecture.GetStimulus | learning/learning_architecture.py:72-82 | Succeeds exactly for stimuli; otherwise `MissingStimulus` with the name. |
| LearningArchitecture.New | learning/learning_architecture.py:22-32 | Succeeds exactly when the intermediate area is a regular area. The result has no steps and no run configured. |
| LearningArchitecture.AddStimulusToAreaIteration | learning/learning_architecture.py:93-103 | Succeeds exactly when the stimulus and the target area exist. The stimulus is checked first. On success exactly one step is appended. |
| LearningArchitecture.AddAreaToAreaIteration | learning/learning_architecture.py:105-115 | Succeeds exactly when both areas exist. The source is checked first. On success exactly one step is appended. |
| LearningArchitecture.InitializeRun | learning/learning_architecture.py:62-70 | Installs cycle 0, step 0, run -1, not activated, with the given number of cycles. The steps are kept. |
| LearningArchitecture.Iter | learning/learning_architecture.py:34-37 | `__iter__` succeeds exactly when a run is configured and has not issued a step yet. |
| LearningArchitecture.Next | learning/learning_architecture.py:39-60 | Only the configuration changes. Without one it raises `ArchitectureRunningNotInitialized`. After a returned step the run is activated. `StopIteration` only happens in a run with a finite number of cycles. |
| LearningArchitecture.NextStays | learning/learning_architecture.py:39-60 | A step with runs left is issued again, with the run counter incremented. |
| LearningArchitecture.NextMoves | learning/learning_architecture.py:39-60 | A finished step that is not the last moves to the next step with the run counter at 0. |
| LearningArchitecture.NextMovesCall | learning/learning_architecture.py:43-47 | When the current step has used its runs and is not the last, `__next__` moves to the next step with the run counter at 0 and issues it. |
| LearningArchitecture.MovedRemaining | learning/learning_architecture.py:43-47 | Moving to the next step consumes exactly the first element of what remains of the schedule. |
| LearningArchitecture.NextWraps | learning/learning_architecture.py:49-58 | After the last step, with cycles left, the run wraps to the first step of the next cycle. |
| LearningArchitecture.NextWrapsCall | learning/learning_architecture.py:49-60 | When the run wraps, `__next__` issues the first step with the cycle counter incremented and the run and step counters at 0. |
| LearningArchitecture.WrappedRemaining | learning/learning_architecture.py:49-58 | Wrapping to the next cycle consumes exactly the first element of what remains of the schedule. |
| LearningArchitecture.NextStops | learning/learning_architecture.py:49-56 | After the last step of the last cycle nothing remains, and `__next__` raises `StopIteration`. |
| LearningArchitecture.NextFollowsRemaining | learning/learning_architecture.py:39-60 | One `__next__` from a valid configuration of a finite run issues the first element of what remains of the schedule, and the rest remains. |
| LearningArchitecture.RunFollowsRemaining | learning/learning_architecture.py:39-60 | Of `LearningArchitecture.Run`: a loop from a valid configuration issues exactly the rest of the schedule, then `StopIteration`. |
| LearningArchitecture.Schedule | learning/learning_architecture.py:39-70 | Of `LearningArchitecture.ForLoop` after `InitializeRun`: a fresh run of `n` cycles issues every step `max(consecutive_runs, 1)` times, in order, over `max(n, 1)` cycles, then `StopIteration`. The very first issue is skipped when the first step's `consecutive_runs <= 0`. |
| LearningArchitecture.ScheduleWithPositiveRuns | learning/learning_architecture.py:39-70 | With every step run at least once and `n >= 1` cycles, the loop issues exactly `n` copies of the cycle. |
| LearningArchitecture.InfiniteRunNeverStops | learning/learning_architecture.py:54-60 | With an infinite number of cycles, `__next__` from a valid configuration always issues a step and stays valid. |
| LearningArchitecture.InfiniteRunIssuesEveryCall | learning/learning_architecture.py:54-60 | Every call of an infinite run issues a step, however many calls are made. |
| LearningArchitecture.NextPosition | learning/learning_architecture.py:39-60 | After a returned step, the run sits on an existing step, which is what was issued. Its run counter is below that step's `consecutive_runs` unless the step was just entered. |
| LearningArchitecture.IterGuards | learning/learning_architecture.py:34-37 | A run can be iterated once: `__iter__` accepts a freshly initialised run and refuses it after its first step. |
| LearningArchitecture.EmptyScheduleFails | learning/learning_architecture.py:39-58 | With no steps, the first `__next__` raises `IndexError` for index 0, with the run counter already at 0. |
| LearningArchitecture.StopDoesNotLatch | learning/learning_architecture.py:49-60 | After `StopIteration` the configuration has already moved into a further cycle. With two or more steps, another `__next__` issues a step again: the first step if its `consecutive_runs >= 2`, else the second. |
| LearningArchitecture.OneStepAfterStop | learning/learning_architecture.py:43-60 | With a single step, `StopIteration` latches exactly when the step's `consecutive_runs <= 1`: each further `__next__` raises it again, counting one more cycle. With `consecutive_runs >= 2` the next call issues the step again. |
| LearningArchitecture.MultipleRunsExample | tests/learning/test_learning_architecture.py:39-62 | With consecutive runs 2, 1, 3, 2 and one cycle, the loop issues exactly the eight steps the test expects, then stops. |
| LearningModel.New | learning/learning_model.py:20-29 | The model keeps the brain, the domain size and the architecture. Its stimulus list is the key order of `brain.stimuli`, holding every stimulus name exactly once. |
| LearningModel.ValidateInputNumber | learning/learning_model.py:167-174 | An input passes exactly when `0 <= x < 2^d`. A negative input hits the `math.log` domain error. A larger one raises `DomainSizeMismatch` with its bit length. |
| LearningModel.PicksPairs | learning/learning_model.py:160-164 | Over whole pairs the encoding loop keeps one stimulus per pair: the first if the pair's digit is 0, the second if it is 1. |
| LearningModel.ActiveStimuli | learning/learning_model.py:144-153 | The promised encoding: for `j < d`, the `j`-th active stimulus is stimulus `2j + b`, where `b` is bit `d-1-j` of the input (most significant first). |
| LearningModel.EncodingPicksActive | learning/learning_model.py:159-164 | Reading the zero-padded numeral `bin(x)[2:].zfill(d)` gives exactly the promised encoding for every `x < 2^d`. |
| LearningModel.ConvertInputToStimuli | learning/learning_model.py:144-165 | `StimuliMismatch` unless the brain has `2d` stimuli; then the input-validation error. On success the result is exactly the promised encoding. The `IndexError` case is a listed stimulus beyond the numeral's length. |
| LearningModel.ActiveStimuliExample | learning/learning_model.py:147-150 | With stimuli A, B, C, D the inputs 0, 1, 2, 3 activate AC, AD, BC, BD. |
| LearningModel.GetProjectionParameters | learning/learning_model.py:126-142 | A stimulus source gives a one-entry stimulus map and an empty area map; an area source the other way round. |
| LearningModel.ProjectionParametersTargetOne | learning/learning_model.py:126-142 | One step's parameters make `project` validate exactly the step's names, and target exactly the step's target. |
| LearningModel.CheckDomainSize | learning/learning_model.py:62-63 | Passes exactly when the set's domain size is the model's; otherwise `DomainSizeMismatch` with both sizes. |
| LearningModel.SetTrainingModeSpec | learning/learning_model.py:176-183 | Of `LearningModel.SetTrainingMode`: the body runs in the requested mode. After a normal return, the original mode is back and everything else is as the body left it. After an exception the mode is not restored. |
| LearningModel.SetTrainingModeRestores | learning/learning_model.py:176-183 | A body that returns without touching the model leaves it exactly as it was. A raising body leaves the requested mode behind. |
| LearningModel.HitsAppend | learning/learning_model.py:65-71 | One more point extends the hits if the model is right on it, and the misses otherwise. |
| LearningModel.HitsMissesPartition | learning/learning_model.py:65-71 | Together, hits and misses hold every input `test_model` scores exactly as often as it occurs (equal multisets). |
| LearningModel.HitsAreCorrect | learning/learning_model.py:65-71 | Every hit is the input of a point on which the model's answer equals the expected output. |
| LearningModel.MissesAreWrong | learning/learning_model.py:65-71 | Every miss is the input of a point on which the model's answer differs from the expected output. |
| LearningModel.ScorePoints | learning/learning_model.py:67-71 | The loop stops exactly at the first point whose run raises, with that exception. When no run raises, the lists are the hits and the misses in point order. |
| LearningModel.TestModel | learning/learning_model.py:55-76 | Over the points the test set issued and the exception that ended its iteration, errors come first, in order: the domain-size error, then the first failing run, then an iteration error other than `StopIteration`, then `ZeroDivisionError` for an empty set. Otherwise the result lists the hits and misses in order, and the accuracy is hits divided by points. |
| Cursor.ListDomainSize | learning/data_set/lib/values_list_data_set.py:21-27 | The domain size of a list is `log2(len)` exactly when the length is a power of two. Otherwise: `DataSetSizeError` for a non-empty list, the `math.log` domain error for an empty one. |
| Cursor.Step | training/lib/callable_training_set.py:19-24 | At `2^d - 1` it raises `StopIteration` with the cursor kept. Otherwise it moves the cursor by one before reading, so a failed read leaves the cursor moved. |
| Cursor.DrainFrom | training/lib/callable_training_set.py:19-24 | Repeated `next` from any cursor issues the readable positions in order. It then raises `StopIteration` at the end, or the first read error. |
| Cursor.EnumeratesDomain | training/lib/callable_training_set.py:19-24 | A fresh iterator over readable positions issues all `2^d` of them in order, then `StopIteration`, with the cursor on `2^d - 1`. |
| Cursor.CursorAfter | training/training_set.py:33-42 | After `k` calls the current input value is `k - 1`: -1 before the first call, `2^d - 1` after the last. |
| Cursor.StopsAtFirstFailure | training/lib/training_set_base.py:11-16 | The first unreadable position ends the run with its error, after the positions before it were issued. |
| Cursor.EnumeratesList | learning/training/lib/values_list_data_set.py:36-41 | A list of `2^d` elements is issued element by element, then `StopIteration`. |
| Bits.Log2Exact | learning/data_set/lib/values_list_data_set.py:21-27 | The exact base-2 logarithm, defined exactly for powers of two. |
| Bits.BitLengthBound | learning/learning_model.py:172-174 | `ceil(log2(x + 1)) <= d` exactly when `x < 2^d`. |
| Bits.PaddedBinaryDigit | learning/learning_model.py:159 | `bin(x)[2:].zfill(d)` has length `d` for `x < 2^d`, and position `j` holds bit `d-1-j`. |
| BasicDataSetBase.New | learning/data_set/lib/basic_types/data_set_base.py:17-20 | The cursor starts at -1 and the noise probability is kept. |
| BasicDataSetBase.ProcessOutputValues | learning/data_set/lib/basic_types/data_set_base.py:37-43 | `DataSetValueError` with the point exactly when its output is not boolean. Otherwise the input is kept, and the output is flipped exactly when the probability is non-zero and the draw is 1. |
| BasicDataSetBase.NoiseFreeIsIdentity | learning/data_set/lib/basic_types/data_set_base.py:37-43 | With noise probability 0, a boolean point passes unchanged. |
| BasicDataSetBase.SetNoiseProbability | learning/data_set/lib/basic_types/data_set_base.py:45-46 | Replaces the probability and nothing else. |
| BasicDataSetBase.Next | learning/data_set/lib/basic_types/data_set_base.py:33-43 | `__next__` keeps `_next`'s state change and exceptions. A non-boolean output raises `DataSetValueError` for the point. A boolean point is returned with its input, and its output is flipped exactly when the probability is non-zero and the noise draw comes out 1. |
| DataSetBase.ProcessOutputValues | learning/data_set/lib/data_set_base.py:34-39 | Succeeds exactly for the outputs 0 and 1, and returns the output XOR the noise bit. Otherwise `DataSetValueError` with the input and the offending value. |
| DataSetBase.GetItem | learning/data_set/lib/data_set_base.py:23-28 | An item outside `0 <= item < 2^d` raises `IndexError` before `_get_item` is called. Otherwise an exception of `_get_item` propagates, and a value it returns is checked and XORed with the noise. |
| DataSetBase.Next | learning/data_set/lib/data_set_base.py:30-39 | Keeps `_next`'s state change and exceptions, and returns only booleans. A value 0 or 1 is always returned, equal to `_next`'s value exactly when the noise bit is 0, so it is that value XOR the noise. Any other value raises `DataSetValueError` with the current input value. |
| CallableDataSet.New | learning/data_set/lib/callable_data_set.py:15-19 | The cursor starts at -1, and the function and domain size are kept. |
| CallableDataSet.NextPoint | learning/data_set/lib/callable_data_set.py:29-34 | `_next` raises `StopIteration` at `2^d - 1` without moving. Otherwise it moves the cursor and issues `(i, f(i))`, or raises the callable's exception with the cursor already moved. |
| CallableDataSet.NextPointEnumerates | learning/data_set/lib/callable_data_set.py:29-34 | For a callable that returns on the whole domain, a fresh set's `_next` issues `(i, f(i))` for every input in order, then `StopIteration`. After `k` calls the cursor is `k - 1`. |
| CallableDataSet.NextPointPropagatesRaise | learning/data_set/lib/callable_data_set.py:29-34 | The first input on which the callable raises ends the run with that exception, after the points before it, with the cursor on that input. |
| CallableDataSet.GetItemPoint | learning/data_set/lib/callable_data_set.py:36-37 | `_get_item(i)` is the point `(i, f(i))`, or the callable's exception. |
| CallableDataSet.NextAsWrittenRejectsEveryPoint | learning/data_set/lib/callable_data_set.py:29-34 | Of `CallableDataSet.NextAsWritten`: as written, every `next` before the end on which the callable returns raises `DataSetValueError` carrying the whole data point, whatever the function. |
| CallableDataSet.NextIsCursorStep | learning/data_set/lib/data_set_base.py:30-39 | Of `CallableDataSet.Next`: one corrected `next` is one cursor step reading the checked, noisy output of `f`. |
| CallableDataSet.NextBeforeEnd | learning/data_set/lib/data_set_base.py:30-39 | Before the end of the domain, one corrected `next` moves the cursor and issues the checked, noisy value of `f` at the new input. A non-boolean value raises instead, and so does an exception of the callable. |
| CallableDataSet.NextIssuesNoisyOutputs | learning/data_set/lib/data_set_base.py:30-39 | For a boolean function the corrected iterator issues `f(i) XOR noise(i)` for every input, and without noise `f(i)` itself, then `StopIteration`. |
| CallableDataSet.NextRejectsNonBoolean | learning/data_set/lib/data_set_base.py:34-36 | The first non-boolean value ends the corrected run with `DataSetValueError` for that input, after the values before it were issued. |
| CallableDataSet.GetItemAsWrittenRejectsEveryItem | learning/data_set/lib/callable_data_set.py:36-37 | Of `CallableDataSet.GetItemAsWritten`: as written, every in-domain item on which the callable returns raises `DataSetValueError` carrying the whole data point. |
| CallableDataSet.GetItem | learning/data_set/lib/data_set_base.py:23-28 | Corrected: `IndexError` outside the domain. Inside it, the callable's exception if it raises, `f(item)` XOR the noise for a boolean value, and `DataSetValueError` otherwise. |
| ValuesListDataSet.GetDomainSize | learning/data_set/lib/values_list_data_set.py:21-27 | Succeeds exactly for a power-of-two length, with `2^d` equal to the length. Otherwise `DataSetSizeError` for a non-empty list, and the `math.log` domain error for an empty one. |
| ValuesListDataSet.New | learning/data_set/lib/values_list_data_set.py:16-19 | Fails exactly when the domain size does. On success the list is kept and the cursor is -1. |
| ValuesListDataSet.NextPoint | learning/data_set/lib/values_list_data_set.py:33-38 | `_next` raises `StopIteration` at the end. Otherwise it moves the cursor and issues `(i, return_values[i])`. |
| ValuesListDataSet.NextPointEnumerates | learning/data_set/lib/values_list_data_set.py:33-38 | A fresh set issues `(i, return_values[i])` for every index, in order, then `StopIteration`. |
| ValuesListDataSet.GetItemPoint | learning/data_set/lib/values_list_data_set.py:40-41 | `_get_item(i)` is `(i, return_values[i])` inside the list. Outside the list Python subscription raises `IndexError`. |
| ExplicitMask.ValidateMaskValue | learning/data_set/lib/masks/explicit_mask.py:16-19 | Passes exactly for 0 and 1; otherwise `MaskValueError` with the index and the value. |
| ExplicitMask.InTrainingSet | learning/data_set/lib/masks/explicit_mask.py:21-28 | True exactly for mask value 1, and false exactly for 0. Any other value raises `MaskValueError`. An index outside the list raises `IndexError`. |
| ExplicitMask.InTestingSet | learning/data_set/lib/masks/explicit_mask.py:30-35 | The negation of `in_training_set`, with the same errors. |
| ExplicitMask.SplitsIndices | learning/data_set/lib/masks/explicit_mask.py:21-35 | Every index with a valid mask value is in exactly one of the two sets. |
| ExplicitMask.Examples | tests/data_set/test_explicit_mask.py:8-29 | The mask `[1, 0, 1, 1]` answers all eight queries as the tests expect. Indices 4 and 5 raise `IndexError`. The value 5 raises `MaskValueError` from both queries. |
| TrainingSet.New | learning/data_set/lib/training_set.py:20-24 | The count left is the given length, and the draw range is `0 .. 2^d - 1`. |
| TrainingSet.FirstDecided | learning/data_set/lib/training_set.py:30-34 | The first draw the mask does not reject. Every draw before it is outside the training set. |
| TrainingSet.Sample | learning/data_set/lib/training_set.py:30-34 | Over the given draws, the sampling loop ends exactly when some draw is in the training set or has an invalid mask value. It stops at the first such draw, every earlier draw being outside the training set, and yields that draw or its mask error. |
| TrainingSet.NextPoint | learning/data_set/lib/training_set.py:26-37 | `StopIteration` when no points are left. Otherwise an issued point has as input the draw the sampling loop stops at, which is in the training set. Its output is the base set's item there, and the count drops by one. A mask error raises with the state unchanged. Without a length, the decrement raises `TypeError` with the state unchanged. An error of the base set's `__getitem__` raises after the count has dropped. |
| TrainingSet.Next | learning/data_set/lib/training_set.py:26-37 | Exceptions of `_next` propagate. A sampled index whose base value is boolean is issued: its input is the index the sampling loop stopped on, its output is the base value, flipped exactly when the probability is non-zero and the noise draw comes out 1, and one is taken from the count. A non-boolean base value raises `DataSetValueError` for the index. |
| TrainingSet.AtMostLength | learning/data_set/lib/training_set.py:20-37 | A set of length `n` issues at most `n` points, whatever the draws, and every one lies in the training set. |
| TrainingSet.ExactlyLength | learning/data_set/lib/training_set.py:14-16 | The length determines how many points are issued: when each of the first `n` calls samples an index and the base data set reads a value there, a set of length `n` issues exactly those `n` points in order, and no point after them, however many calls follow. |
| TrainingDataSetBase.Next | learning/training/lib/data_set_base.py:22-28 | Keeps `_next`'s state change and exceptions. A non-boolean value raises `DataSetValueError` with the current input value. A boolean value is returned XOR the noise bit. |
| TrainingValuesListDataSet.GetDomainSize | learning/training/lib/values_list_data_set.py:20-26 | `log2(len)` exactly for power-of-two lengths. Otherwise `DataSetSizeError` for a non-empty list, the `math.log` domain error for an empty one. |
| TrainingValuesListDataSet.New | learning/training/lib/values_list_data_set.py:14-18 | Fails exactly when the domain size does. On success the cursor is -1. |
| TrainingValuesListDataSet.NextValue | learning/training/lib/values_list_data_set.py:36-41 | `StopIteration` at the end. Otherwise the cursor moves and the list is read there. |
| TrainingValuesListDataSet.NextValueEnumerates | learning/training/lib/values_list_data_set.py:36-41 | A fresh set issues the list itself, in order, then `StopIteration`. After `k` calls the cursor is `k - 1`. |
| TrainingValuesListDataSet.Next | learning/training/lib/data_set_base.py:22-28 | Every issued value is boolean, and the cursor has moved by one. |
| TrainingValuesListDataSet.NextIsCursorStep | learning/training/lib/data_set_base.py:22-28 | One `next` is one cursor step reading the checked, noisy list element. |
| TrainingValuesListDataSet.NextIssuesNoisyOutputs | learning/training/lib/data_set_base.py:22-28 | A list of booleans is issued as `values[i] XOR noise(i)`, and without noise as the list itself, then `StopIteration`. |
| TrainingValuesListDataSet.NextRejectsNonBoolean | learning/training/lib/data_set_base.py:22-28 | The first non-boolean element ends the run with `DataSetValueError` naming its index. |
| TrainingSetBase.Next | training/lib/training_set_base.py:11-16 | A boolean value is returned unchanged; anything else raises `DataSetValueError` with the current input value. The state is `_next`'s. |
| TrainingSetBase.AgreesWithNoiseFreeDataSetBase | training/lib/training_set_base.py:11-16 | The training-set base behaves as the data-set base with a noise draw of 0. |
| ValuesListTrainingSet.GetDomainSize | training/lib/values_list_training_set.py:14-20 | `log(len, 2)` exactly when it is whole. Otherwise `DataSetSizeError` for a non-empty list, the `math.log` domain error for an empty one. |
| ValuesListTrainingSet.Fresh | training/lib/values_list_training_set.py:8-12 | The state after construction: the cursor is -1 and `2^d` is the list's length. |
| ValuesListTrainingSet.NextValue | training/lib/values_list_training_set.py:30-35 | `StopIteration` at the end. Otherwise the cursor moves and the list is read there. |
| ValuesListTrainingSet.NextValueEnumerates | training/lib/values_list_training_set.py:30-35 | The list is issued in order, then `StopIteration`. The cursor after `k` calls is `k - 1` and never passes `2^d - 1`. |
| ValuesListTrainingSet.Next | training/lib/values_list_training_set.py:30-35 | `StopIteration` at the end, with the cursor unchanged. Otherwise the cursor moves, and a boolean element there is issued while any other raises `DataSetValueError` for the new input. Every issued value is boolean and is the list element at the new cursor. |
| ValuesListTrainingSet.NextIsCursorStep | training/lib/training_set_base.py:11-16 | One `__next__` is one cursor step reading the list element, checked to be boolean. |
| ValuesListTrainingSet.NextIssuesList | training/lib/values_list_training_set.py:30-35 | From the state after construction, a list of booleans is issued as it is, in order, followed by `StopIteration`. A non-boolean element is reported as `DataSetValueError` at its index. |
| ValuesListTrainingSet.IssuesBooleanList | training/lib/values_list_training_set.py:30-35 | From the state after construction, `__next__` over a list of booleans issues exactly that list, in order, and ends with `StopIteration`. |
| ValuesListTrainingSet.NewAsWrittenAlwaysRaises | training/lib/values_list_training_set.py:8-9 | The constructor as written raises `TypeError` for every list and probability, so it never yields the state `Fresh` describes. |
| TrainingSetBase.Init | training/lib/training_set_base.py:7 | The `__init__` the subclasses reach is `object.__init__`: it succeeds exactly when no keyword argument is passed, and raises `TypeError` otherwise. |
| CallableTrainingSet.Fresh | training/lib/callable_training_set.py:5-9 | The state after construction: the given domain size and cursor -1. |
| CallableTrainingSet.NewAsWrittenAlwaysRaises | training/lib/callable_training_set.py:5-6 | The constructor as written raises `TypeError` for every callable, size and probability, so it never yields the state `Fresh` describes. |
| CallableTrainingSet.NextValue | training/lib/callable_training_set.py:19-24 | Once exhausted, it raises `StopIteration` without moving, so it keeps raising. Otherwise it issues `f` of the next input, or raises `f`'s exception with the cursor already moved. |
| CallableTrainingSet.NextValueEnumerates | training/lib/callable_training_set.py:19-24 | For a callable that returns on the whole domain, a fresh set issues `f(0) .. f(2^d - 1)`, then `StopIteration`. After `k` calls the cursor is `k - 1`. |
| CallableTrainingSet.Next | training/lib/training_set_base.py:11-16 | Every issued value is boolean and is `f` of the next input. A non-boolean value raises `DataSetValueError` for that input. An exception of `f` propagates with the cursor moved. |
| CallableTrainingSet.NextIsCursorStep | training/lib/training_set_base.py:11-16 | One `next` is one cursor step reading the checked value of `f`. |
| CallableTrainingSet.Examples | tests/training/test_callable_training_set.py:8-18 | `1 - x` over one bit issues 1, 0, then `StopIteration`. `x + 1` issues 1, then `DataSetValueError` for input 1. |

## Left out

- `project_into` is the engine itself: weights, winner selection, plasticity and floating point. It is a parameter of `Projection.Project`. The stub this source defines is modelled as `Projection.StubEngine`. An engine that mutates anything other than its target's pending fields is not modelled: the engine returns only the target's pending state.
- Brain.UpdateWinners: `self.winners = self._new_winners` makes the two fields one list object, while the model copies the value. The model assumes the engine rebinds `_new_winners` to a fresh list rather than extending it in place. An engine that mutated it in place would also change the committed winners in the middle of the next round, which `Projection.ProjectIsSimultaneous` and `Projection.RoundLookup` exclude.
- `add_stimulus` and `add_area` are stubs with empty bodies in this source, so they have no model.
- Randomness is a parameter. The noise of `np.random.binomial` is a bit or a boolean draw per call. The bit is not tied to the set's `noise_probability`: a caller modelling probability 0, for which `np.random.binomial(1, 0)` is always 0, passes noise 0. Only `BasicDataSetBase` reads the probability itself. The draws of `random.randint` in the training set are an explicit list per call.
- TrainingSet.NextPoint: when the supplied draws end before the sampling loop stops, the result is `None`. An unbounded sampling loop is not modelled.
- The floating-point rounding of `math.log` is not modelled: exact integer logarithms and bit lengths stand in. So is the `round(..., 2)` of the accuracy.
- LearningModel.TestModel: states the exact ratio of hits to points, not the value rounded to two decimals. It also takes `run_model` as a pure function of the input: the real call projects into the brain and rebinds the output area, so winners carried over from earlier points may make a repeated input score differently, which the model does not capture. The test set is given as the points it issued followed by the exception that ended its iteration.
- LearningModel.ConvertInputToStimuli: states the element-wise result only when the listed stimuli match the brain's count (`2 * domain_size`). Otherwise it states only the error cases.
- `run_model`, `train_model`'s loop, `_run_unsupervised_projection` and `_run_supervised_projection` drive the engine and the output area. They are not modelled. `test_model` takes the model's answers as a function `run`.
- The `output_area` property is not modelled. It composes `remove_output_area` and `add_output_area`, which are modelled.
- `desired_output`, the output area's `support` lists, and the meaning of the brain modes belong to the engine, so they are not modelled. The mode itself is kept.
- `_get_stimulus` assigns `stimulus.name`. Objects are identified by name throughout the model, so this assignment has no counterpart.
- The iteration order of Python dictionaries and sets is a parameter: edge lists in map order, a duplicate-free listing of `to_update`, and the key order of `brain.stimuli`.
- LearningArchitecture: a fractional `number_of_cycles` is not modelled; the count is an integer or infinite.
- `__iter__` of every data set and training set returns the iterator itself. Iterating is modelled as repeated `next` calls with a fuel bound.
- The constructors of `ValuesListTrainingSet` and `CallableTrainingSet` always raise (see Findings). The rest of the model starts from the state they evidently meant to build (`Fresh`).
- `ValuesListTrainingSet.GetDomainSize`: the source returns the float `log(len, 2)`; the model returns the integer it equals.
- `IndexedDataSet`, `PartialDataSet`, `TestingSet` and the `basic_types` `CallableDataSet` and `ValuesListDataSet` are not part of this model. The training set's base data set is given as its `__getitem__` function.
- The `MaskIndexError` the mask tests expect is not raised by `ExplicitMask`; the model raises `IndexError` from the list subscription, as the code does.

## Findings

| source | as written | input that shows it | evidently intended | confidence | as-written member | corrected member |
|---|---|---|---|---|---|---|
| brain.py:183-186 | The purge loops iterate `dict.items()`, so each `connectome` is a `(key, value)` tuple, and `tuple.pop` raises `AttributeError`. The area has already been removed from `output_areas`. | A brain with output area "Output" on which `get_stimulus_connectomes("s", "Output")` has been called; then `remove_output_area("Output")` | Remove `name` from every inner dictionary (`for connectome in d.values(): connectome.pop(name, None)`), so the removal completes | high; not executed | Brain.RemoveAsWrittenFailsAfterLookup | Brain.AddThenRemove |
| learning/data_set/lib/callable_data_set.py:29-37 | `_next` and `_get_item` return a `DataPointImpl`. `DataSetBase.__next__` and `__getitem__` (learning/data_set/lib/data_set_base.py:30-39) test that value with `not in (0, 1)`, which a data point never passes, so every call on which the function returns raises `DataSetValueError`. | `CallableDataSet(lambda x: 1 - x, 1)` and one `next` | Pass the point's output to the base class, whose `_process_output_values` checks it and returns `output_value ^ noise` (learning/data_set/lib/data_set_base.py:34-39). A competing repair fits the `-> DataPoint` annotations of `__getitem__` and `__next__` (learning/data_set/lib/data_set_base.py:23,30): check the point's output and return a point, as learning/data_set/lib/basic_types/data_set_base.py:33-43 does. The callable data-set tests build the `basic_types` class (learning/data_set/constructors.py:9-13), so they exercise neither repair | high that the code as written always raises; medium for which repair was intended; not executed | CallableDataSet.NextAsWrittenRejectsEveryPoint | CallableDataSet.NextIssuesNoisyOutputs |
| training/lib/values_list_training_set.py:8-9 | `__init__` first calls `super().__init__(noise_probability=noise_probability)`. Neither `TrainingSetBase` nor `TrainingSet` defines `__init__` (training/lib/training_set_base.py:7, training/training_set.py:4), so the call reaches `object.__init__`, which raises `TypeError` for a keyword argument. | `ValuesListTrainingSet([0, 1])` | Build the set: keep the list, its domain size and the cursor -1 (lines 10-12), as `Fresh` does | high; not executed | ValuesListTrainingSet.NewAsWrittenAlwaysRaises | ValuesListTrainingSet.NextIssuesList |
| training/lib/callable_training_set.py:5-6 | The same `super().__init__(noise_probability=noise_probability)` call reaches `object.__init__` and raises `TypeError`. | `CallableTrainingSet(lambda x: x, 1)` | Build the set: keep the callable, the domain size and the cursor -1 (lines 7-9), as `Fresh` does | high; not executed | CallableTrainingSet.NewAsWrittenAlwaysRaises | CallableTrainingSet.NextValueEnumerates |

=== FILE: architecture.dfy ===
/** `LearningArchitecture` (learning/learning_architecture.py): a list of
    projection steps `(source, target, consecutive_runs)` and an iterator
    that expands it into a flat schedule, run step after step for a number
    of cycles.

    The source keeps the stimulus and area objects in its steps; here an
    object is identified by its name in the brain. */
module LearningArchitecture {
  import opened Outcomes
  import Brain

  datatype Source = StimulusSource(name: string) | AreaSource(name: string)

  datatype Iteration = Iteration(source: Source, target: string, consecutiveRuns: int)

  /** `number_of_cycles`: an integer, or `float('inf')`, the default. */
  datatype Cycles = Finite(n: int) | Infinite

  datatype Configuration = Configuration(
    currentCycle: int,
    currentIter: int,
    currentRun: int,
    numberOfCycles: Cycles,
    activated: bool)

  datatype Architecture = Architecture(
    brain: Brain.Brain,
    intermediateArea: string,
    iterations: seq<Iteration>,
    configuration: Option<Configuration>)

  /** What one step of a run yields: the step's source and target. */
  type Emitted = (Source, string)

  /** `_get_area`: only regular areas qualify. */
  function GetArea(b: Brain.Brain, name: string): (r: Result<string>)
    ensures r.Ok? <==> name in b.areas
    ensures r.Ok? ==> r.value == name
    ensures r.Err? ==> r.error == MissingArea(name)
  {
    if name in b.areas then Ok(name) else Err(MissingArea(name))
  }

  /** `_get_stimulus`. */
  function GetStimulus(b: Brain.Brain, name: string): (r: Result<string>)
    ensures r.Ok? <==> name in b.stimuli
    ensures r.Ok? ==> r.value == name
    ensures r.Err? ==> r.error == MissingStimulus(name)
  {
    if name in b.stimuli then Ok(name) else Err(MissingStimulus(name))
  }

  /** `__init__`: the intermediate area must be a regular area; no steps,
      no run configured. */
  function New(b: Brain.Brain, intermediateArea: string): (r: Result<Architecture>)
    ensures r.Ok? <==> intermediateArea in b.areas
    ensures r.Err? ==> r.error == MissingArea(intermediateArea)
    ensures r.Ok? ==> r.value.iterations == [] && r.value.configuration == None
  {
    var area :- GetArea(b, intermediateArea);
    Ok(Architecture(b, area, [], None))
  }

  /** `add_stimulus_to_area_iteration`: the stimulus is looked up first,
      then the target area; on success the step is appended. */
  function AddStimulusToAreaIteration(a: Architecture, stimulus: string, target: string, consecutiveRuns: int): (r: Result<Architecture>)
    ensures r.Ok? <==> stimulus in a.brain.stimuli && target in a.brain.areas
    ensures r.Err? ==> r.error == if stimulus !in a.brain.stimuli then MissingStimulus(stimulus) else MissingArea(target)
    ensures r.Ok? ==> r.value == a.(iterations := a.iterations + [Iteration(StimulusSource(stimulus), target, consecutiveRuns)])
  {
    var source :- GetStimulus(a.brain, stimulus);
    var area :- GetArea(a.brain, target);
    Ok(a.(iterations := a.iterations + [Iteration(StimulusSource(source), area, consecutiveRuns)]))
  }

  /** `add_area_to_area_iteration`: source area first, then target area. */
  function AddAreaToAreaIteration(a: Architecture, source: string, target: string, consecutiveRuns: int): (r: Result<Architecture>)
    ensures r.Ok? <==> source in a.brain.areas && target in a.brain.areas
    ensures r.Err? ==> r.error == if source !in a.brain.areas then MissingArea(source) else MissingArea(target)
    ensures r.Ok? ==> r.value == a.(iterations := a.iterations + [Iteration(AreaSource(source), target, consecutiveRuns)])
  {
    var from :- GetArea(a.brain, source);
    var area :- GetArea(a.brain, target);
    Ok(a.(iterations := a.iterations + [Iteration(AreaSource(from), area, consecutiveRuns)]))
  }

  /** The configuration `initialize_run` installs. */
  function InitialConfiguration(cycles: Cycles): Configuration {
    Configuration(0, 0, -1, cycles, false)
  }

  /** `initialize_run`: a fresh configuration; the steps are kept. */
  function InitializeRun(a: Architecture, cycles: Cycles): (r: Architecture)
    ensures r.configuration.Some?
    ensures var c := r.configuration.value;
      c.currentCycle == 0 && c.currentIter == 0 && c.currentRun == -1 && c.numberOfCycles == cycles && !c.activated
    ensures r.(configuration := a.configuration) == a
  {
    a.(configuration := Some(InitialConfiguration(cycles)))
  }

  /** `__iter__`: refuses an architecture with no run configured, or whose
      run has already issued a step. */
  function Iter(a: Architecture): (r: Result<Architecture>)
    ensures r.Ok? <==> a.configuration.Some? && !a.configuration.value.activated
    ensures r.Ok? ==> r.value == a
    ensures r.Err? ==> r.error == ArchitectureRunningNotInitialized
  {
    match a.configuration
    case None => Err(ArchitectureRunningNotInitialized)
    case Some(c) => if c.activated then Err(ArchitectureRunningNotInitialized) else Ok(a)
  }

  /** The test `current_cycle >= number_of_cycles`; never true for an
      infinite number of cycles. */
  predicate Exceeded(cycle: int, cycles: Cycles) {
    cycles.Finite? && cycle >= cycles.n
  }

  /** The tail of `__next__`: read the current step and mark the run
      activated. */
  function Emit(a: Architecture, c: Configuration): Call<Architecture, Emitted> {
    match PyIndex(a.iterations, c.currentIter)
    case Err(e) => Raised(a.(configuration := Some(c)), e)
    case Ok(step) => Returned(a.(configuration := Some(c.(activated := true))), (step.source, step.target))
  }

  /** `__next__`. The configuration is updated in place, so a call that
      raises leaves its increments behind. */
  function Next(a: Architecture): (r: Call<Architecture, Emitted>)
    ensures a.configuration.None? ==> r == Raised(a, ArchitectureRunningNotInitialized)
    ensures r.state.(configuration := a.configuration) == a
    ensures a.configuration.Some? ==> r.state.configuration.Some?
    ensures r.Returned? ==> r.state.configuration.Some? && r.state.configuration.value.activated
    ensures r.Raised? && r.error == StopIteration ==> a.configuration.Some? && a.configuration.value.numberOfCycles.Finite?
  {
    match a.configuration
    case None => Raised(a, ArchitectureRunningNotInitialized)
    case Some(c) =>
      var run := c.currentRun + 1;
      match PyIndex(a.iterations, c.currentIter)
      case Err(e) => Raised(a.(configuration := Some(c.(currentRun := run))), e)
      case Ok(step) =>
        if run < step.consecutiveRuns then Emit(a, c.(currentRun := run))
        else if c.currentIter + 1 < |a.iterations| then Emit(a, c.(currentRun := 0, currentIter := c.currentIter + 1))
        else
          var wrapped := c.(currentRun := 0, currentIter := 0, currentCycle := c.currentCycle + 1);
          if Exceeded(wrapped.currentCycle, c.numberOfCycles) then Raised(a.(configuration := Some(wrapped)), StopIteration)
          else Emit(a, wrapped)
  }

  /** What a `for` loop over the architecture sees with at most `fuel`
      calls of `__next__`: the emitted steps, the exception that ended the
      loop (None if the fuel ran out first), and the final state. */
  datatype Ran = Ran(values: seq<Emitted>, stop: Option<Exception>, last: Architecture)

  function Run(a: Architecture, fuel: nat): Ran
    decreases fuel
  {
    if fuel == 0 then Ran([], None, a)
    else match Next(a)
      case Raised(s, e) => Ran([], Some(e), s)
      case Returned(s, v) =>
        var rest := Run(s, fuel - 1);
        rest.(values := [v] + rest.values)
  }

  /** `for step in architecture`: `__iter__`, then `__next__` until it raises. */
  function ForLoop(a: Architecture, fuel: nat): Ran {
    match Iter(a)
    case Err(e) => Ran([], Some(e), a)
    case Ok(it) => Run(it, fuel)
  }

  // ---------------------------------------------------------------------
  // The schedule

  function Max(x: int, y: int): int {
    if x < y then y else x
  }

  /** `n` copies of `x`; none for `n <= 0`. */
  function Rep<T>(x: T, n: int): (s: seq<T>)
    ensures |s| == Max(n, 0)
    ensures forall i :: 0 <= i < |s| ==> s[i] == x
    decreases n
  {
    if n <= 0 then [] else [x] + Rep(x, n - 1)
  }

  /** `n` copies of `s` one after the other; none for `n <= 0`. */
  function RepeatSeq<T>(s: seq<T>, n: int): (r: seq<T>)
    ensures |r| == |s| * Max(n, 0)
    decreases n
  {
    if n <= 0 then [] else s + RepeatSeq(s, n - 1)
  }

  function Pair(step: Iteration): Emitted {
    (step.source, step.target)
  }

  /** How often a step is issued when the run moves onto it: its
      `consecutive_runs`, but at least once. */
  function Effective(step: Iteration): int {
    Max(step.consecutiveRuns, 1)
  }

  /** The steps from position `j` on, each repeated as often as it runs. */
  function BlockFrom(its: seq<Iteration>, j: nat): seq<Emitted>
    requires j <= |its|
    decreases |its| - j
  {
    if j == |its| then [] else Rep(Pair(its[j]), Effective(its[j])) + BlockFrom(its, j + 1)
  }

  /** One cycle of the schedule. */
  function Cycle(its: seq<Iteration>): seq<Emitted> {
    BlockFrom(its, 0)
  }

  /** The number of cycles a finite run goes through: a count of zero or
      less still runs the first cycle, since the count is first compared
      when that cycle ends. */
  function CycleCount(n: int): int {
    Max(n, 1)
  }

  /** A configuration a run can be in between two calls. */
  predicate Good(its: seq<Iteration>, c: Configuration) {
    && 0 <= c.currentIter < |its|
    && c.currentRun >= -1
    && 0 <= c.currentCycle
    && (c.numberOfCycles.Finite? ==> c.currentCycle < CycleCount(c.numberOfCycles.n))
  }

  /** What is left of a finite run from configuration `c`: the rest of the
      current step, the rest of the current cycle, the remaining cycles. */
  function Remaining(its: seq<Iteration>, c: Configuration): seq<Emitted>
    requires Good(its, c) && c.numberOfCycles.Finite?
  {
    var ci := c.currentIter;
    Rep(Pair(its[ci]), Max(its[ci].consecutiveRuns - 1 - c.currentRun, 0))
      + BlockFrom(its, ci + 1)
      + RepeatSeq(Cycle(its), CycleCount(c.numberOfCycles.n) - 1 - c.currentCycle)
  }

  /** The property of one `__next__` that the run lemmas chain together. */
  predicate FollowsRemaining(a: Architecture)
    requires a.configuration.Some? && Good(a.iterations, a.configuration.value)
    requires a.configuration.value.numberOfCycles.Finite?
  {
    var c := a.configuration.value; var rem := Remaining(a.iterations, c); var r := Next(a);
    && (|rem| == 0 <==> r.Raised?)
    && (r.Raised? ==> r.error == StopIteration)
    && (r.Returned? ==>
          && r.state.iterations == a.iterations
          && r.state.configuration.Some?
          && r.value == rem[0]
          && r.state.configuration.value.numberOfCycles == c.numberOfCycles
          && Good(a.iterations, r.state.configuration.value)
          && Remaining(a.iterations, r.state.configuration.value) == rem[1..])
  }

  /** A step with runs left: the same step again. */
  lemma NextStays(a: Architecture)
    requires a.configuration.Some? && Good(a.iterations, a.configuration.value)
    requires a.configuration.value.numberOfCycles.Finite?
    requires a.configuration.value.currentRun + 1 < a.iterations[a.configuration.value.currentIter].consecutiveRuns
    ensures FollowsRemaining(a)
  {
    var its := a.iterations;
    var c := a.configuration.value;
    var ci := c.currentIter;
    assert PyIndex(its, ci) == Ok(its[ci]);
    var c' := c.(currentRun := c.currentRun + 1, activated := true);
    assert Next(a) == Returned(a.(configuration := Some(c')), Pair(its[ci]));
    var k := its[ci].consecutiveRuns - 1 - c.currentRun;
    assert Rep(Pair(its[ci]), k) == [Pair(its[ci])] + Rep(Pair(its[ci]), k - 1);
    assert Remaining(its, c) == [Pair(its[ci])] + Remaining(its, c');
  }

  /** A finished step that is not the last: the next step. */
  lemma NextMoves(a: Architecture)
    requires a.configuration.Some? && Good(a.iterations, a.configuration.value)
    requires a.configuration.value.numberOfCycles.Finite?
    requires a.configuration.value.currentRun + 1 >= a.iterations[a.configuration.value.currentIter].consecutiveRuns
    requires a.configuration.value.currentIter + 1 < |a.iterations|
    ensures FollowsRemaining(a)
  {
    var c := a.configuration.value;
    var c' := c.(currentRun := 0, currentIter := c.currentIter + 1, activated := true);
    NextMovesCall(a, c');
    MovedRemaining(a.iterations, c, c');
  }

  /** The call that moves on: the next step of the same cycle. */
  lemma NextMovesCall(a: Architecture, c': Configuration)
    requires a.configuration.Some? && Good(a.iterations, a.configuration.value)
    requires a.configuration.value.currentRun + 1 >= a.iterations[a.configuration.value.currentIter].consecutiveRuns
    requires a.configuration.value.currentIter + 1 < |a.iterations|
    requires c' == a.configuration.value.(currentRun := 0, currentIter := a.configuration.value.currentIter + 1, activated := true)
    ensures Next(a) == Returned(a.(configuration := Some(c')), Pair(a.iterations[c'.currentIter]))
  {
    var its := a.iterations;
    var ci := a.configuration.value.currentIter;
    assert PyIndex(its, ci) == Ok(its[ci]);
    assert PyIndex(its, ci + 1) == Ok(its[ci + 1]);
  }

  /** What remains after a finished step that is not the last is the next
      step followed by what remains from there. */
  lemma MovedRemaining(its: seq<Iteration>, c: Configuration, c': Configuration)
    requires Good(its, c) && c.numberOfCycles.Finite?
    requires c.currentRun + 1 >= its[c.currentIter].consecutiveRuns
    requires c.currentIter + 1 < |its|
    requires c' == c.(currentRun := 0, currentIter := c.currentIter + 1, activated := true)
    ensures Good(its, c')
    ensures Remaining(its, c) == [Pair(its[c'.currentIter])] + Remaining(its, c')
  {
    var j := c'.currentIter;
    var tail := RepeatSeq(Cycle(its), CycleCount(c.numberOfCycles.n) - 1 - c.currentCycle);
    var p := Pair(its[j]);
    var e := Effective(its[j]);
    assert Remaining(its, c) == BlockFrom(its, j) + tail;
    assert BlockFrom(its, j) == [p] + Rep(p, e - 1) + BlockFrom(its, j + 1) by {
      assert Rep(p, e) == [p] + Rep(p, e - 1);
    }
    assert Remaining(its, c') == Rep(p, e - 1) + BlockFrom(its, j + 1) + tail;
  }

  /** The last step finished in the last cycle: `StopIteration`, with
      nothing left of the run. */
  lemma NextStops(a: Architecture)
    requires a.configuration.Some? && Good(a.iterations, a.configuration.value)
    requires a.configuration.value.numberOfCycles.Finite?
    requires a.configuration.value.currentRun + 1 >= a.iterations[a.configuration.value.currentIter].consecutiveRuns
    requires a.configuration.value.currentIter + 1 == |a.iterations|
    requires a.configuration.value.currentCycle + 1 >= CycleCount(a.configuration.value.numberOfCycles.n)
    ensures FollowsRemaining(a)
  {
    var its := a.iterations;
    var c := a.configuration.value;
    var ci := c.currentIter;
    assert PyIndex(its, ci) == Ok(its[ci]);
    assert BlockFrom(its, ci + 1) == [];
    assert Remaining(its, c) == [];
    assert Next(a).Raised? && Next(a).error == StopIteration;
  }

  /** The last step finished before the last cycle: the first step of the
      next cycle. */
  lemma NextWraps(a: Architecture)
    requires a.configuration.Some? && Good(a.iterations, a.configuration.value)
    requires a.configuration.value.numberOfCycles.Finite?
    requires a.configuration.value.currentRun + 1 >= a.iterations[a.configuration.value.currentIter].consecutiveRuns
    requires a.configuration.value.currentIter + 1 == |a.iterations|
    requires a.configuration.value.currentCycle + 1 < CycleCount(a.configuration.value.numberOfCycles.n)
    ensures FollowsRemaining(a)
  {
    var c := a.configuration.value;
    var c' := c.(currentRun := 0, currentIter := 0, currentCycle := c.currentCycle + 1, activated := true);
    NextWrapsCall(a, c');
    WrappedRemaining(a.iterations, c, c');
  }

  /** The call that wraps around: the first step of the next cycle. */
  lemma NextWrapsCall(a: Architecture, c': Configuration)
    requires a.configuration.Some? && Good(a.iterations, a.configuration.value)
    requires a.configuration.value.numberOfCycles.Finite?
    requires a.configuration.value.currentRun + 1 >= a.iterations[a.configuration.value.currentIter].consecutiveRuns
    requires a.configuration.value.currentIter + 1 == |a.iterations|
    requires a.configuration.value.currentCycle + 1 < CycleCount(a.configuration.value.numberOfCycles.n)
    requires c' == a.configuration.value.(currentRun := 0, currentIter := 0, currentCycle := a.configuration.value.currentCycle + 1, activated := true)
    ensures Next(a) == Returned(a.(configuration := Some(c')), Pair(a.iterations[0]))
  {
    var its := a.iterations;
    assert PyIndex(its, a.configuration.value.currentIter) == Ok(its[|its| - 1]);
    assert PyIndex(its, 0) == Ok(its[0]);
  }

  /** What remains after the last step of a cycle that is not the last is
      the first step of the next cycle followed by what remains from
      there. */
  lemma WrappedRemaining(its: seq<Iteration>, c: Configuration, c': Configuration)
    requires Good(its, c) && c.numberOfCycles.Finite?
    requires c.currentRun + 1 >= its[c.currentIter].consecutiveRuns
    requires c.currentIter + 1 == |its|
    requires c.currentCycle + 1 < CycleCount(c.numberOfCycles.n)
    requires c' == c.(currentRun := 0, currentIter := 0, currentCycle := c.currentCycle + 1, activated := true)
    ensures Good(its, c')
    ensures Remaining(its, c) == [Pair(its[0])] + Remaining(its, c')
  {
    var p := Pair(its[0]);
    var tail' := RepeatSeq(Cycle(its), CycleCount(c.numberOfCycles.n) - 1 - c'.currentCycle);
    RemainingAtCycleEnd(its, c);
    RemainingAtCycleStart(its, c');
    CycleHead(its);
    assert Cycle(its) + tail' == [p] + (Rep(p, Effective(its[0]) - 1) + BlockFrom(its, 1) + tail');
  }

  /** After the last step of a cycle with cycles left, whole cycles remain. */
  lemma RemainingAtCycleEnd(its: seq<Iteration>, c: Configuration)
    requires Good(its, c) && c.numberOfCycles.Finite?
    requires c.currentRun + 1 >= its[c.currentIter].consecutiveRuns
    requires c.currentIter + 1 == |its|
    requires c.currentCycle + 1 < CycleCount(c.numberOfCycles.n)
    ensures Remaining(its, c) == Cycle(its) + RepeatSeq(Cycle(its), CycleCount(c.numberOfCycles.n) - 1 - (c.currentCycle + 1))
  {
    var m := CycleCount(c.numberOfCycles.n) - 1 - c.currentCycle;
    assert BlockFrom(its, c.currentIter + 1) == [];
    assert RepeatSeq(Cycle(its), m) == Cycle(its) + RepeatSeq(Cycle(its), m - 1);
  }

  /** At the start of a cycle, the first step's remaining runs, the other
      steps and the later cycles remain. */
  lemma RemainingAtCycleStart(its: seq<Iteration>, c: Configuration)
    requires Good(its, c) && c.numberOfCycles.Finite?
    requires c.currentRun == 0 && c.currentIter == 0
    ensures Remaining(its, c) ==
      Rep(Pair(its[0]), Effective(its[0]) - 1) + BlockFrom(its, 1) + RepeatSeq(Cycle(its), CycleCount(c.numberOfCycles.n) - 1 - c.currentCycle)
  {
    assert Max(its[0].consecutiveRuns - 1 - 0, 0) == Effective(its[0]) - 1;
  }

  /** A cycle starts with the first step, issued as often as it runs. */
  lemma CycleHead(its: seq<Iteration>)
    requires |its| > 0
    ensures Cycle(its) == [Pair(its[0])] + Rep(Pair(its[0]), Effective(its[0]) - 1) + BlockFrom(its, 1)
  {
    var p := Pair(its[0]);
    assert Rep(p, Effective(its[0])) == [p] + Rep(p, Effective(its[0]) - 1);
  }

  /** One `__next__` from a good configuration of a finite run issues the
      first element of what remains and leaves a good configuration with
      the rest remaining, or raises `StopIteration` when nothing remains. */
  lemma NextFollowsRemaining(a: Architecture)
    requires a.configuration.Some? && Good(a.iterations, a.configuration.value)
    requires a.configuration.value.numberOfCycles.Finite?
    ensures FollowsRemaining(a)
  {
    var c := a.configuration.value;
    if c.currentRun + 1 < a.iterations[c.currentIter].consecutiveRuns {
      NextStays(a);
    } else if c.currentIter + 1 < |a.iterations| {
      NextMoves(a);
    } else if c.currentCycle + 1 < CycleCount(c.numberOfCycles.n) {
      NextWraps(a);
    } else {
      NextStops(a);
    }
  }

  /** From a good configuration of a finite run, the loop issues exactly
      what remains and then stops with `StopIteration`. */
  lemma {:induction false} RunFollowsRemaining(a: Architecture, fuel: nat)
    requires a.configuration.Some? && Good(a.iterations, a.configuration.value)
    requires a.configuration.value.numberOfCycles.Finite?
    requires fuel > |Remaining(a.iterations, a.configuration.value)|
    ensures Run(a, fuel).values == Remaining(a.iterations, a.configuration.value)
    ensures Run(a, fuel).stop == Some(StopIteration)
    decreases fuel
  {
    NextFollowsRemaining(a);
    match Next(a)
    case Raised(s, e) =>
    case Returned(s, v) =>
      RunFollowsRemaining(s, fuel - 1);
  }

  /** The schedule of a fresh run of `n` cycles over a non-empty list of
      steps: every step issued `consecutive_runs` times (at least once),
      in order, the whole cycle repeated `n` times (at least once), and
      then `StopIteration`. Only the very first issue of the first step
      differs: with `consecutive_runs <= 0` it is skipped. */
  lemma Schedule(a: Architecture, n: int)
    requires |a.iterations| > 0
    ensures var its := a.iterations;
      var s := (if its[0].consecutiveRuns >= 1 then Cycle(its) else Cycle(its)[1..]) + RepeatSeq(Cycle(its), CycleCount(n) - 1);
      && ForLoop(InitializeRun(a, Finite(n)), |s| + 1).values == s
      && ForLoop(InitializeRun(a, Finite(n)), |s| + 1).stop == Some(StopIteration)
  {
    var its := a.iterations;
    var init := InitializeRun(a, Finite(n));
    var c := init.configuration.value;
    var p := Pair(its[0]);
    var e := Effective(its[0]);
    assert Cycle(its) == Rep(p, e) + BlockFrom(its, 1);
    var rest := BlockFrom(its, 1) + RepeatSeq(Cycle(its), CycleCount(n) - 1);
    if its[0].consecutiveRuns >= 1 {
      assert Remaining(its, c) == Rep(p, e) + rest;
    } else {
      assert Rep(p, e) == [p];
      assert Cycle(its)[1..] == BlockFrom(its, 1);
      assert Remaining(its, c) == [] + rest;
    }
    RunFollowsRemaining(init, |Remaining(its, c)| + 1);
  }

  /** When every step runs at least once per turn, a fresh run of `n >= 1`
      cycles issues exactly `n` copies of the cycle. */
  lemma ScheduleWithPositiveRuns(a: Architecture, n: int)
    requires |a.iterations| > 0 && n >= 1
    requires forall j :: 0 <= j < |a.iterations| ==> a.iterations[j].consecutiveRuns >= 1
    ensures var s := RepeatSeq(Cycle(a.iterations), n);
      && ForLoop(InitializeRun(a, Finite(n)), |s| + 1).values == s
      && ForLoop(InitializeRun(a, Finite(n)), |s| + 1).stop == Some(StopIteration)
  {
    Schedule(a, n);
  }

  /** With an infinite number of cycles a good configuration never stops:
      `__next__` issues a step and stays good. */
  lemma InfiniteRunNeverStops(a: Architecture)
    requires a.configuration.Some? && Good(a.iterations, a.configuration.value)
    requires a.configuration.value.numberOfCycles.Infinite?
    ensures Next(a).Returned?
    ensures Good(a.iterations, Next(a).state.configuration.value)
    ensures Next(a).state.configuration.value.numberOfCycles == Infinite
  {
    var its := a.iterations;
    var c := a.configuration.value;
    assert PyIndex(its, c.currentIter) == Ok(its[c.currentIter]);
    assert PyIndex(its, c.currentIter + 1) == if c.currentIter + 1 < |its| then Ok(its[c.currentIter + 1]) else Err(ListIndexError(c.currentIter + 1));
    assert PyIndex(its, 0) == Ok(its[0]);
  }

  /** Every call of an infinite run's loop issues a step. */
  lemma {:induction false} InfiniteRunIssuesEveryCall(a: Architecture, fuel: nat)
    requires a.configuration.Some? && Good(a.iterations, a.configuration.value)
    requires a.configuration.value.numberOfCycles.Infinite?
    ensures |Run(a, fuel).values| == fuel && Run(a, fuel).stop == None
    decreases fuel
  {
    if fuel > 0 {
      InfiniteRunNeverStops(a);
      RunIssuesFirst(a, fuel);
      InfiniteRunIssuesEveryCall(Next(a).state, fuel - 1);
    }
  }

  /** A loop whose first call returns continues from the state that call left. */
  lemma RunIssuesFirst(a: Architecture, fuel: nat)
    requires fuel > 0 && Next(a).Returned?
    ensures Run(a, fuel) == Run(Next(a).state, fuel - 1).(values := [Next(a).value] + Run(Next(a).state, fuel - 1).values)
  {
  }

  /** After a successful `__next__` from a good configuration, the run sits
      on an existing step, and its run counter is below that step's
      `consecutive_runs` unless the step was just entered. */
  lemma NextPosition(a: Architecture)
    requires a.configuration.Some? && Good(a.iterations, a.configuration.value)
    requires Next(a).Returned?
    ensures var c := Next(a).state.configuration.value; var its := a.iterations;
      0 <= c.currentIter < |its| && (c.currentRun < its[c.currentIter].consecutiveRuns || c.currentRun == 0)
      && Next(a).value == Pair(its[c.currentIter])
  {
    var its := a.iterations;
    var c := a.configuration.value;
    assert PyIndex(its, c.currentIter) == Ok(its[c.currentIter]);
    assert PyIndex(its, c.currentIter + 1) == if c.currentIter + 1 < |its| then Ok(its[c.currentIter + 1]) else Err(ListIndexError(c.currentIter + 1));
    assert PyIndex(its, 0) == Ok(its[0]);
  }

  /** A run can only be iterated once: `__iter__` accepts a freshly
      initialised run and refuses it as soon as `__next__` has issued a
      step, until `initialize_run` is called again. */
  lemma IterGuards(a: Architecture, cycles: Cycles)
    ensures a.configuration.None? ==> Iter(a) == Err(ArchitectureRunningNotInitialized)
    ensures Iter(InitializeRun(a, cycles)) == Ok(InitializeRun(a, cycles))
    ensures Next(InitializeRun(a, cycles)).Returned? ==> Iter(Next(InitializeRun(a, cycles)).state) == Err(ArchitectureRunningNotInitialized)
  {
  }

  /** With no steps, the first `__next__` raises `IndexError` with the run
      counter already incremented. */
  lemma EmptyScheduleFails(a: Architecture, cycles: Cycles)
    requires a.iterations == []
    ensures Next(InitializeRun(a, cycles)) ==
      Raised(a.(configuration := Some(InitialConfiguration(cycles).(currentRun := 0))), ListIndexError(0))
  {
  }

  /** `StopIteration` does not latch: the configuration has already
      wrapped onto the first step of a further cycle, counted as issued
      once, so with two or more steps a further `__next__` issues the
      first step again if it runs more than once, the second otherwise. */
  lemma StopDoesNotLatch(a: Architecture, n: int)
    requires |a.iterations| >= 2 && n >= 1
    requires a.configuration == Some(Configuration(n - 1, |a.iterations| - 1, a.iterations[|a.iterations| - 1].consecutiveRuns - 1, Finite(n), true))
    ensures Next(a).Raised? && Next(a).error == StopIteration
    ensures Next(a).state.configuration == Some(Configuration(n, 0, 0, Finite(n), true))
    ensures Next(Next(a).state).Returned?
    ensures Next(Next(a).state).value == Pair(if a.iterations[0].consecutiveRuns >= 2 then a.iterations[0] else a.iterations[1])
  {
    var its := a.iterations;
    assert PyIndex(its, |its| - 1) == Ok(its[|its| - 1]);
    assert PyIndex(its, 0) == Ok(its[0]);
    assert PyIndex(its, 1) == Ok(its[1]);
  }

  /** With a single step, whether `StopIteration` latches depends on the
      step's `consecutive_runs`: at most 1 and every further `__next__`
      raises `StopIteration` again, one more cycle counted each time; 2 or
      more and the next call issues the step again. */
  lemma OneStepAfterStop(a: Architecture, n: int)
    requires |a.iterations| == 1 && n >= 1
    requires a.configuration == Some(Configuration(n, 0, 0, Finite(n), true))
    ensures a.iterations[0].consecutiveRuns <= 1 ==>
      && Next(a).Raised? && Next(a).error == StopIteration
      && Next(a).state.configuration == Some(Configuration(n + 1, 0, 0, Finite(n), true))
    ensures a.iterations[0].consecutiveRuns >= 2 ==>
      Next(a).Returned? && Next(a).value == Pair(a.iterations[0])
  {
    assert PyIndex(a.iterations, 0) == Ok(a.iterations[0]);
  }

  // ---------------------------------------------------------------------
  // The schedules of the architecture tests

  function Steps(sources: seq<Source>, targets: seq<string>, runs: seq<int>): (its: seq<Iteration>)
    requires |sources| == |targets| == |runs|
    ensures |its| == |runs|
    ensures forall j :: 0 <= j < |its| ==> its[j] == Iteration(sources[j], targets[j], runs[j])
  {
    seq(|runs|, j requires 0 <= j < |runs| => Iteration(sources[j], targets[j], runs[j]))
  }

  /** The test with `consecutive_runs` 2, 1, 3, 2 and one cycle. */
  lemma MultipleRunsExample(a: Architecture)
    requires a.iterations == Steps(
      [StimulusSource("stim0"), StimulusSource("stim1"), AreaSource("area0"), AreaSource("area1")],
      ["area0", "area1", "area2", "area2"], [2, 1, 3, 2])
    ensures var s0 := (StimulusSource("stim0"), "area0");
      var s1 := (StimulusSource("stim1"), "area1");
      var a0 := (AreaSource("area0"), "area2");
      var a1 := (AreaSource("area1"), "area2");
      var s := [s0, s0, s1, a0, a0, a0, a1, a1];
      ForLoop(InitializeRun(a, Finite(1)), |s| + 1) == Ran(s, Some(StopIteration), ForLoop(InitializeRun(a, Finite(1)), |s| + 1).last)
  {
    var its := a.iterations;
    Schedule(a, 1);
    assert Rep(Pair(its[3]), 2) == [Pair(its[3]), Pair(its[3])];
    assert Rep(Pair(its[2]), 3) == [Pair(its[2]), Pair(its[2]), Pair(its[2])];
    assert Rep(Pair(its[1]), 1) == [Pair(its[1])];
    assert Rep(Pair(its[0]), 2) == [Pair(its[0]), Pair(its[0])];
    assert BlockFrom(its, 4) == [];
    assert BlockFrom(its, 3) == [Pair(its[3]), Pair(its[3])];
    assert BlockFrom(its, 2) == [Pair(its[2]), Pair(its[2]), Pair(its[2]), Pair(its[3]), Pair(its[3])];
    assert BlockFrom(its, 1) == [Pair(its[1])] + BlockFrom(its, 2);
    assert Cycle(its) == [Pair(its[0]), Pair(its[0])] + BlockFrom(its, 1);
  }
}

=== FILE: basic_data_set_base.dfy ===
/** `DataSetBase` of learning/data_set/lib/basic_types: the shared part of
    the data sets whose `_next` issues whole data points. It checks that a
    point's output is boolean and, with the configured probability, flips it. */
module BasicDataSetBase {
  import opened Outcomes
  import opened DataPoints
  import opened Bits
  import Cursor

  /** The state the base class keeps: the noise probability and the cursor. */
  datatype Base = Base(noiseProbability: real, value: int)

  function New(noiseProbability: real): (b: Base)
    ensures b.value == Cursor.Start
    ensures b.noiseProbability == noiseProbability
  {
    Base(noiseProbability, Cursor.Start)
  }

  /** `_process_output_values`. `draw` is the outcome of
      `np.random.binomial(1, p)`, which the source only samples when the
      probability is non-zero. */
  function ProcessOutputValues(b: Base, p: DataPoint, draw: bool): (r: Result<DataPoint>)
    ensures r.Err? <==> !IsBool(p.output)
    ensures r.Err? ==> r.error == DataSetValueError(p.input, IntValue(p.output))
    ensures r.Ok? ==> r.value.input == p.input && IsBool(r.value.output)
    ensures r.Ok? ==> (r.value.output != p.output <==> b.noiseProbability != 0.0 && draw)
  {
    if !IsBool(p.output) then Err(DataSetValueError(p.input, IntValue(p.output)))
    else if b.noiseProbability != 0.0 && draw then Ok(DataPoint(p.input, Xor(p.output, 1)))
    else Ok(p)
  }

  /** With noise probability 0 a boolean point passes through unchanged,
      whatever the random source would have drawn. */
  lemma NoiseFreeIsIdentity(b: Base, p: DataPoint, draw: bool)
    requires b.noiseProbability == 0.0
    requires IsBool(p.output)
    ensures ProcessOutputValues(b, p, draw) == Ok(p)
  {
  }

  /** `set_noise_probability` replaces the probability and nothing else. */
  function SetNoiseProbability(b: Base, noiseProbability: real): (b': Base)
    ensures b'.noiseProbability == noiseProbability
    ensures b'.(noiseProbability := b.noiseProbability) == b
  {
    b.(noiseProbability := noiseProbability)
  }

  /** `__next__` of a subclass whose `_next` is `next` and whose base state
      is read by `base`: the point `_next` issued, checked and possibly
      flipped; an exception of `_next` propagates unchanged. */
  function Next<S>(s: S, next: S -> Call<S, DataPoint>, base: S -> Base, draw: bool): (r: Call<S, DataPoint>)
    ensures next(s).Raised? ==> r == Raised(next(s).state, next(s).error)
    ensures r.state == next(s).state
    ensures r.Returned? ==> next(s).Returned? && IsBool(r.value.output) && r.value.input == next(s).value.input
    ensures next(s).Returned? && !IsBool(next(s).value.output) ==>
      r == Raised(next(s).state, DataSetValueError(next(s).value.input, IntValue(next(s).value.output)))
    ensures next(s).Returned? && IsBool(next(s).value.output) ==>
      && r.Returned? && r.value.input == next(s).value.input
      && (r.value.output != next(s).value.output <==> base(next(s).state).noiseProbability != 0.0 && draw)
  {
    match next(s)
    case Raised(s', e) => Raised(s', e)
    case Returned(s', p) =>
      match ProcessOutputValues(base(s'), p, draw)
      case Ok(q) => Returned(s', q)
      case Err(e) => Raised(s', e)
  }
}

=== FILE: bits.dfy ===
/** Integer arithmetic behind the source's uses of `2 ** d`, `math.log(x, 2)`,
    `bin(x)` and `^`. All of it is exact: the floating-point rounding of
    `math.log` is not modelled. */
module Bits {
  import opened Outcomes

  function Pow2(n: nat): (r: nat)
    ensures r >= 1
  {
    if n == 0 then 1 else 2 * Pow2(n - 1)
  }

  lemma {:induction false} Pow2Monotonic(m: nat, n: nat)
    requires m <= n
    ensures Pow2(m) <= Pow2(n)
  {
    if m < n {
      Pow2Monotonic(m, n - 1);
    }
  }

  lemma {:induction false} Pow2Injective(m: nat, n: nat)
    requires Pow2(m) == Pow2(n)
    ensures m == n
  {
    if m > 0 && n > 0 {
      Pow2Injective(m - 1, n - 1);
    }
  }

  predicate IsBool(x: int) {
    x == 0 || x == 1
  }

  /** One draw of `np.random.binomial(1, p)`. */
  type Bit = b: int | 0 <= b <= 1

  /** Python's `^` on two values of {0, 1}. */
  function Xor(a: int, b: int): (r: int)
    requires IsBool(a) && IsBool(b)
    ensures IsBool(r)
    ensures r == a <==> b == 0
  {
    if a == b then 0 else 1
  }

  /** Number of binary digits of `x`; for `x >= 0` this is the exact value of
      `math.ceil(math.log(x + 1, 2))`. */
  function BitLength(x: nat): nat
  {
    if x == 0 then 0 else 1 + BitLength(x / 2)
  }

  /** `x` needs at most `d` binary digits exactly when it is below `2^d`. */
  lemma {:induction false} BitLengthBound(x: nat, d: nat)
    ensures BitLength(x) <= d <==> x < Pow2(d)
  {
    if x == 0 {
    } else if d == 0 {
    } else {
      BitLengthBound(x / 2, d - 1);
    }
  }

  ghost predicate IsPowerOfTwo(n: int) {
    exists d: nat :: Pow2(d) == n
  }

  /** The exact base-2 logarithm: `Some(d)` when `n == 2^d`, `None` when `n`
      is not a power of two. */
  function Log2Exact(n: nat): (r: Option<nat>)
    ensures r.Some? ==> Pow2(r.value) == n
    ensures r.None? ==> forall d: nat :: Pow2(d) != n
    decreases n
  {
    if n == 0 then None
    else if n == 1 then Some(0)
    else if n % 2 == 1 then
      OddIsNoPower(n);
      None
    else
      match Log2Exact(n / 2)
      case Some(d) => Some(d + 1)
      case None =>
        HalfIsNoPower(n);
        None
  }

  lemma OddIsNoPower(n: nat)
    requires n > 1 && n % 2 == 1
    ensures forall d: nat :: Pow2(d) != n
  {
    forall d: nat ensures Pow2(d) != n {
      if d > 0 {
        assert Pow2(d) == 2 * Pow2(d - 1);
      }
    }
  }

  lemma HalfIsNoPower(n: nat)
    requires n > 1 && n % 2 == 0
    requires forall d: nat :: Pow2(d) != n / 2
    ensures forall d: nat :: Pow2(d) != n
  {
    forall d: nat ensures Pow2(d) != n {
      if d > 0 {
        assert Pow2(d - 1) != n / 2;
      }
    }
  }

  /** Bit `k` of `x`, counting from the least significant bit: the value of
      `(x // 2**k) % 2`. */
  function BitAt(x: nat, k: nat): (r: nat)
    ensures r <= 1
  {
    if k == 0 then x % 2 else BitAt(x / 2, k - 1)
  }

  lemma {:induction false} BitsAboveLength(x: nat, k: nat)
    requires BitLength(x) <= k
    ensures BitAt(x, k) == 0
  {
    if k > 0 {
      BitsAboveLength(x / 2, k - 1);
    }
  }

  function DigitChar(b: nat): char
    requires b <= 1
  {
    if b == 0 then '0' else '1'
  }

  /** `bin(x)[2:]`: the binary numeral of `x` without prefix, "0" for zero. */
  function Binary(x: nat): (s: string)
    ensures |s| >= 1
  {
    if x < 2 then [DigitChar(x)] else Binary(x / 2) + [DigitChar(x % 2)]
  }

  lemma {:induction false} BinaryLength(x: nat)
    ensures x == 0 ==> |Binary(x)| == 1
    ensures x > 0 ==> |Binary(x)| == BitLength(x)
  {
    if x >= 2 {
      BinaryLength(x / 2);
    }
  }

  /** Reading `bin(x)[2:]` from the right gives the bits of `x`, least
      significant first. */
  lemma {:induction false} BinaryDigits(x: nat, i: nat)
    requires i < |Binary(x)|
    ensures Binary(x)[|Binary(x)| - 1 - i] == DigitChar(BitAt(x, i))
  {
    if x >= 2 && i > 0 {
      BinaryDigits(x / 2, i - 1);
    }
  }

  /** `s.zfill(w)` for a string of digits: left-padded with '0' up to width `w`. */
  function ZFill(s: string, w: int): (r: string)
    ensures |r| == if |s| < w then w else |s|
  {
    if |s| < w then seq(w - |s|, _ => '0') + s else s
  }

  /** The MSB-first, zero-padded numeral `bin(x)[2:].zfill(d)` holds bit
      `d - 1 - j` of `x` at position `j`, for every `x < 2^d`. */
  lemma PaddedBinaryDigit(x: nat, d: nat, j: nat)
    requires x < Pow2(d)
    requires j < d
    ensures |ZFill(Binary(x), d)| == d
    ensures ZFill(Binary(x), d)[j] == DigitChar(BitAt(x, d - 1 - j))
  {
    var b := Binary(x);
    var i := d - 1 - j;
    BinaryLength(x);
    BitLengthBound(x, d);
    if i < |b| {
      BinaryDigits(x, i);
    } else {
      BitsAboveLength(x, i);
    }
  }
}

=== FILE: brain.dfy ===
/** The state of a simulated brain (brain.py): its areas, output areas,
    stimuli and connectomes, with the output-area lifecycle and the lookup
    of a connectome by the kind of its target area. Connectome weights are
    kept as opaque values: the model never computes with them. */
module Brain {
  import opened Outcomes

  /** The brain's operating mode; its meaning lives in the projection engine. */
  datatype BrainMode = Default | Training | Testing

  datatype Stimulus = Stimulus(k: int)

  /** The class-level parameters every output area shares. */
  const OutputN: int := 2
  const OutputK: int := 1
  const OutputBeta: real := 0.05

  /** A regular `Area` carries its own size, winner count and plasticity;
      an `OutputArea` uses the shared constants above. */
  datatype Kind = Regular(n: int, k: int, beta: real) | Output

  /** `BaseArea` and its two subclasses. The `new*` fields and
      `numFirstWinners` are the pending result of a projection round; the
      other fields are the committed state. */
  datatype Area = Area(
    name: string,
    kind: Kind,
    stimulusBeta: map<string, real>,
    areaBeta: map<string, real>,
    supportSize: int,
    winners: seq<int>,
    newSupportSize: int,
    newWinners: seq<int>,
    numFirstWinners: int)

  /** The plasticity parameter of an area. */
  function Beta(a: Area): real {
    match a.kind
    case Regular(_, _, beta) => beta
    case Output => OutputBeta
  }

  /** A synaptic-weight array: per neuron for a stimulus, per neuron pair
      for an area. */
  datatype Weights = Vector(row: seq<real>) | Matrix(rows: seq<seq<real>>)

  type Connectomes = map<string, map<string, Weights>>

  datatype Brain = Brain(
    areas: map<string, Area>,
    outputAreas: map<string, Area>,
    stimuli: map<string, Stimulus>,
    stimuliConnectomes: Connectomes,
    connectomes: Connectomes,
    outputStimuliConnectomes: Connectomes,
    outputConnectomes: Connectomes,
    p: real,
    mode: BrainMode)

  /** `Brain.__init__`: no areas, stimuli or connectomes, default mode. */
  function New(p: real): (b: Brain)
    ensures b.areas == map[] && b.outputAreas == map[] && b.stimuli == map[]
    ensures b.stimuliConnectomes == map[] && b.connectomes == map[]
    ensures b.outputStimuliConnectomes == map[] && b.outputConnectomes == map[]
    ensures b.p == p && b.mode == Default
  {
    Brain(map[], map[], map[], map[], map[], map[], map[], p, Default)
  }

  /** `BaseArea.__init__`: no betas, no support, no winners, and no
      projection yet (`num_first_winners == -1`). */
  function NewBaseArea(name: string, kind: Kind): (a: Area)
    ensures a.name == name && a.kind == kind
    ensures a.stimulusBeta == map[] && a.areaBeta == map[]
    ensures a.supportSize == 0 && a.winners == [] && a.newSupportSize == 0 && a.newWinners == []
    ensures a.numFirstWinners == -1
  {
    Area(name, kind, map[], map[], 0, [], 0, [], -1)
  }

  /** `OutputArea.__init__`: a base area whose support is its `OutputN`
      neurons from the start. */
  function NewOutputArea(name: string): (a: Area)
    ensures a.name == name && a.kind == Output && Beta(a) == OutputBeta
    ensures a.supportSize == OutputN && a.winners == []
    ensures a.stimulusBeta == map[] && a.areaBeta == map[]
    ensures a.newSupportSize == 0 && a.newWinners == [] && a.numFirstWinners == -1
  {
    NewBaseArea(name, Output).(supportSize := OutputN)
  }

  /** `update_winners`: the pending winners and support size become the
      committed ones; nothing else changes. */
  function UpdateWinners(a: Area): (r: Area)
    ensures r.winners == a.newWinners && r.supportSize == a.newSupportSize
    ensures r.(winners := a.winners, supportSize := a.supportSize) == a
  {
    a.(winners := a.newWinners, supportSize := a.newSupportSize)
  }

  /** Committing twice is committing once: the pending fields are not
      consumed. */
  lemma UpdateWinnersIdempotent(a: Area)
    ensures UpdateWinners(UpdateWinners(a)) == UpdateWinners(a)
  {
  }

  /** `defaultdict` subscription `m[outer][inner]` of the output-area
      connectomes: a missing key is inserted with the default value, so the
      access never fails. */
  function DefaultGet(m: Connectomes, outer: string, inner: string, default: Weights): (r: (Connectomes, Weights))
    ensures outer in r.0 && inner in r.0[outer] && r.0[outer][inner] == r.1
    ensures outer in m && inner in m[outer] ==> r == (m, m[outer][inner])
    ensures !(outer in m && inner in m[outer]) ==> r.1 == default
    ensures forall k :: k in m ==> k in r.0
    ensures forall k :: k in r.0 && k != outer ==> k in m && r.0[k] == m[k]
  {
    var row := if outer in m then m[outer] else map[];
    if inner in row then (m, row[inner])
    else (m[outer := row[inner := default]], default)
  }

  /** Plain dict subscription `m[outer][inner]`: `KeyError` naming the
      first missing key. */
  function DictGet(m: Connectomes, outer: string, inner: string): (r: Result<Weights>)
    ensures r.Ok? <==> outer in m && inner in m[outer]
    ensures r.Ok? ==> r.value == m[outer][inner]
    ensures outer !in m ==> r == Err(KeyError(outer))
    ensures outer in m && inner !in m[outer] ==> r == Err(KeyError(inner))
  {
    if outer !in m then Err(KeyError(outer))
    else if inner !in m[outer] then Err(KeyError(inner))
    else Ok(m[outer][inner])
  }

  /** The initial weights of a stimulus into an output area: one 0 per
      output neuron. */
  const OutputStimulusDefault: Weights := Vector([0.0, 0.0])

  /** The initial weights of an area into an output area: an
      `OutputN x OutputN` matrix of zeros. */
  const OutputAreaDefault: Weights := Matrix([[0.0, 0.0], [0.0, 0.0]])

  /** `get_stimulus_connectomes`: for an output area the (created on first
      use) entry of the output-stimulus connectomes, otherwise the entry of
      the stimulus connectomes, which raises `KeyError` when missing and
      never changes the brain. */
  function GetStimulusConnectomes(b: Brain, stimulus: string, area: string): (r: Call<Brain, Weights>)
    ensures area in b.outputAreas ==> r.Returned? && r.state == b.(outputStimuliConnectomes := r.state.outputStimuliConnectomes)
    ensures area in b.outputAreas ==>
      stimulus in r.state.outputStimuliConnectomes && area in r.state.outputStimuliConnectomes[stimulus] && r.state.outputStimuliConnectomes[stimulus][area] == r.value
    ensures area !in b.outputAreas ==> r.state == b
    ensures area !in b.outputAreas ==>
      (r.Returned? <==> stimulus in b.stimuliConnectomes && area in b.stimuliConnectomes[stimulus])
    ensures area !in b.outputAreas && r.Returned? ==> r.value == b.stimuliConnectomes[stimulus][area]
  {
    if area in b.outputAreas then
      var got := DefaultGet(b.outputStimuliConnectomes, stimulus, area, OutputStimulusDefault);
      Returned(b.(outputStimuliConnectomes := got.0), got.1)
    else
      match DictGet(b.stimuliConnectomes, stimulus, area)
      case Ok(w) => Returned(b, w)
      case Err(e) => Raised(b, e)
  }

  /** `get_area_connectomes`: the same dispatch on the kind of the target
      area, over the area connectomes. */
  function GetAreaConnectomes(b: Brain, from: string, to: string): (r: Call<Brain, Weights>)
    ensures to in b.outputAreas ==> r.Returned? && r.state == b.(outputConnectomes := r.state.outputConnectomes)
    ensures to in b.outputAreas ==>
      from in r.state.outputConnectomes && to in r.state.outputConnectomes[from] && r.state.outputConnectomes[from][to] == r.value
    ensures to !in b.outputAreas ==> r.state == b
    ensures to !in b.outputAreas ==> (r.Returned? <==> from in b.connectomes && to in b.connectomes[from])
    ensures to !in b.outputAreas && r.Returned? ==> r.value == b.connectomes[from][to]
  {
    if to in b.outputAreas then
      var got := DefaultGet(b.outputConnectomes, from, to, OutputAreaDefault);
      Returned(b.(outputConnectomes := got.0), got.1)
    else
      match DictGet(b.connectomes, from, to)
      case Ok(w) => Returned(b, w)
      case Err(e) => Raised(b, e)
  }

  /** Asking twice for the same connectome returns the same weights and
      leaves the brain as the first call left it; a first call for an
      output area returns the zero default. */
  lemma ConnectomeLookupIdempotent(b: Brain, source: string, area: string)
    ensures var r := GetStimulusConnectomes(b, source, area);
      GetStimulusConnectomes(r.state, source, area) == r
    ensures var r := GetAreaConnectomes(b, source, area);
      GetAreaConnectomes(r.state, source, area) == r
    ensures area in b.outputAreas && !(source in b.outputStimuliConnectomes && area in b.outputStimuliConnectomes[source]) ==>
      GetStimulusConnectomes(b, source, area).value == OutputStimulusDefault
    ensures area in b.outputAreas && !(source in b.outputConnectomes && area in b.outputConnectomes[source]) ==>
      GetAreaConnectomes(b, source, area).value == OutputAreaDefault
  {
  }

  /** The output area `add_output_area` creates: plasticity `OutputBeta`
      towards every stimulus with a connectome entry and every regular area. */
  function InitialOutputArea(b: Brain, name: string): Area {
    NewOutputArea(name).(
      stimulusBeta := map s | s in b.stimuliConnectomes :: OutputBeta,
      areaBeta := map a | a in b.areas :: OutputBeta)
  }

  /** `add_output_area`: `AssertionError` when a regular area has the name;
      otherwise the name is bound to a fresh output area (replacing any
      output area of that name) and nothing else changes. */
  function AddOutputArea(b: Brain, name: string): (r: Result<Brain>)
    ensures r.Err? <==> name in b.areas
    ensures r.Err? ==> r.error == AssertionError
    ensures r.Ok? ==> r.value.outputAreas.Keys == b.outputAreas.Keys + {name}
    ensures r.Ok? ==> forall n :: n in b.outputAreas && n != name ==> r.value.outputAreas[n] == b.outputAreas[n]
    ensures r.Ok? ==> var a := r.value.outputAreas[name];
      && a.name == name && a.kind == Output && a.supportSize == OutputN && a.winners == []
      && a.stimulusBeta.Keys == b.stimuliConnectomes.Keys && a.areaBeta.Keys == b.areas.Keys
      && (forall s :: s in a.stimulusBeta ==> a.stimulusBeta[s] == OutputBeta)
      && (forall s :: s in a.areaBeta ==> a.areaBeta[s] == OutputBeta)
    ensures r.Ok? ==> r.value.(outputAreas := b.outputAreas) == b
  {
    if name in b.areas then Err(AssertionError)
    else Ok(b.(outputAreas := b.outputAreas[name := InitialOutputArea(b, name)]))
  }

  /** Whether any output-connectome dictionary holds an entry at all. */
  predicate HasOutputConnectomes(b: Brain) {
    |b.outputStimuliConnectomes| > 0 || |b.outputConnectomes| > 0
  }

  /** `remove_output_area` as written: after the area is removed, the purge
      loops iterate `dict.items()` and call `pop` on each `(key, value)`
      tuple, which raises `AttributeError` as soon as either dictionary has
      an entry. */
  function RemoveOutputAreaAsWritten(b: Brain, name: string): (r: Call<Brain, ()>)
    ensures name !in b.outputAreas <==> r == Raised(b, AssertionError)
    ensures name in b.outputAreas ==> r.state == b.(outputAreas := b.outputAreas - {name})
    ensures name in b.outputAreas ==> (r.Returned? <==> !HasOutputConnectomes(b))
    ensures r.Raised? && name in b.outputAreas ==> r.error == AttributeError
  {
    if name !in b.outputAreas then Raised(b, AssertionError)
    else
      var b' := b.(outputAreas := b.outputAreas - {name});
      if HasOutputConnectomes(b) then Raised(b', AttributeError) else Returned(b', ())
  }

  /** Once any connectome into an output area was looked up, removing an
      output area as written fails, with the area already gone. */
  lemma RemoveAsWrittenFailsAfterLookup(b: Brain, stimulus: string, name: string)
    requires name in b.outputAreas
    ensures var b' := GetStimulusConnectomes(b, stimulus, name).state;
      RemoveOutputAreaAsWritten(b', name) == Raised(b'.(outputAreas := b.outputAreas - {name}), AttributeError)
  {
  }

  /** Every inner dictionary without the key `name`. */
  function Purge(m: Connectomes, name: string): (r: Connectomes)
    ensures r.Keys == m.Keys
    ensures forall k :: k in m ==> r[k] == m[k] - {name}
  {
    map k | k in m :: m[k] - {name}
  }

  /** `remove_output_area` with the purge loops over the inner
      dictionaries, as the `connectome.pop(name, None)` calls intend:
      `AssertionError` for an unknown name; otherwise the area and every
      connectome into it are gone and nothing else changes. */
  function RemoveOutputArea(b: Brain, name: string): (r: Call<Brain, ()>)
    ensures name !in b.outputAreas <==> r == Raised(b, AssertionError)
    ensures name in b.outputAreas ==> r.Returned?
    ensures r.Returned? ==> r.state.outputAreas == b.outputAreas - {name}
    ensures r.Returned? ==> r.state.outputStimuliConnectomes == Purge(b.outputStimuliConnectomes, name)
    ensures r.Returned? ==> r.state.outputConnectomes == Purge(b.outputConnectomes, name)
    ensures r.Returned? ==> r.state.(outputAreas := b.outputAreas,
                                    outputStimuliConnectomes := b.outputStimuliConnectomes,
                                    outputConnectomes := b.outputConnectomes) == b
  {
    if name !in b.outputAreas then Raised(b, AssertionError)
    else Returned(b.(outputAreas := b.outputAreas - {name},
                     outputStimuliConnectomes := Purge(b.outputStimuliConnectomes, name),
                     outputConnectomes := Purge(b.outputConnectomes, name)), ())
  }

  /** No connectome into the area `name` exists. */
  predicate NoConnectomesInto(b: Brain, name: string) {
    && (forall k :: k in b.outputStimuliConnectomes ==> name !in b.outputStimuliConnectomes[k])
    && (forall k :: k in b.outputConnectomes ==> name !in b.outputConnectomes[k])
  }

  /** Adding an output area and removing it again restores the brain, as
      long as the name was free and no connectome into it existed. */
  lemma {:induction false} AddThenRemove(b: Brain, name: string)
    requires name !in b.areas && name !in b.outputAreas
    requires NoConnectomesInto(b, name)
    ensures AddOutputArea(b, name).Ok?
    ensures RemoveOutputArea(AddOutputArea(b, name).value, name) == Returned(b, ())
  {
    var b' := AddOutputArea(b, name).value;
    assert b'.outputAreas - {name} == b.outputAreas;
    forall k | k in b.outputStimuliConnectomes ensures b.outputStimuliConnectomes[k] - {name} == b.outputStimuliConnectomes[k] {
      assert name !in b.outputStimuliConnectomes[k];
    }
    forall k | k in b.outputConnectomes ensures b.outputConnectomes[k] - {name} == b.outputConnectomes[k] {
      assert name !in b.outputConnectomes[k];
    }
    assert Purge(b.outputStimuliConnectomes, name) == b.outputStimuliConnectomes;
    assert Purge(b.outputConnectomes, name) == b.outputConnectomes;
  }

  /** Removing an output area and adding it back gives a fresh output area
      under that name, with connectomes into it gone. */
  lemma {:induction false} RemoveThenAdd(b: Brain, name: string)
    requires name in b.outputAreas && name !in b.areas
    ensures var r := RemoveOutputArea(b, name);
      && r.Returned?
      && AddOutputArea(r.state, name).Ok?
      && AddOutputArea(r.state, name).value.outputAreas == b.outputAreas[name := InitialOutputArea(b, name)]
      && NoConnectomesInto(AddOutputArea(r.state, name).value, name)
  {
    var r := RemoveOutputArea(b, name);
    assert (b.outputAreas - {name})[name := InitialOutputArea(b, name)] == b.outputAreas[name := InitialOutputArea(b, name)];
  }

  /** The brain used in the `remove_output_area` examples: one output area
      "Output", no regular area, no stimulus. */
  function OneOutputArea(): (b: Brain)
    ensures "Output" in b.outputAreas && !HasOutputConnectomes(b)
  {
    AddOutputArea(New(0.01), "Output").value
  }

  /** A concrete run: after one stimulus-connectome lookup into "Output",
      removing "Output" as written raises `AttributeError`, while the
      corrected removal succeeds and leaves no connectome into it. */
  lemma RemoveOutputAreaExample()
    ensures var b := GetStimulusConnectomes(OneOutputArea(), "s", "Output").state;
      && RemoveOutputAreaAsWritten(b, "Output").Raised?
      && RemoveOutputAreaAsWritten(b, "Output").error == AttributeError
      && RemoveOutputArea(b, "Output").Returned?
      && NoConnectomesInto(RemoveOutputArea(b, "Output").state, "Output")
  {
  }
}

=== FILE: callable_data_set.dfy ===
/** `CallableDataSet` of learning/data_set/lib: the data set of a boolean
    function given as a callable over the inputs `0 .. 2^domain_size - 1`.
    The callable is the user's Python function, so a call of it may raise:
    `fn(i)` is `Ok(v)` when it returns `v` and `Err(e)` when it raises `e`. */
module CallableDataSet {
  import opened Outcomes
  import opened DataPoints
  import opened Bits
  import Cursor
  import DataSetBase

  datatype CallableDataSet = CallableDataSet(fn: int -> Result<int>, domainSize: int, noiseProbability: real, value: int)

  function New(fn: int -> Result<int>, domainSize: int, noiseProbability: real): (s: CallableDataSet)
    ensures CurrentInputValue(s) == -1
    ensures s.domainSize == domainSize && s.fn == fn
  {
    CallableDataSet(fn, domainSize, noiseProbability, Cursor.Start)
  }

  function CurrentInputValue(s: CallableDataSet): int {
    s.value
  }

  /** The point the callable defines at input `i`, or the exception the
      callable raised for it. */
  function PointAt(f: int -> Result<int>): int -> Result<DataPoint> {
    i => match f(i)
      case Ok(v) => Ok(DataPoint(i, v))
      case Err(e) => Err(e)
  }

  /** A cursor step applied to the data set's cursor. */
  function Moved<V>(s: CallableDataSet, c: Call<int, V>): Call<CallableDataSet, V> {
    match c
    case Returned(v, x) => Returned(s.(value := v), x)
    case Raised(v, e) => Raised(s.(value := v), e)
  }

  /** `_next`: once the cursor is on `2^d - 1` it raises `StopIteration`
      and stays there; otherwise it moves the cursor by one and issues the
      point of the new input, or passes on the callable's exception with
      the cursor already moved. */
  function NextPoint(s: CallableDataSet): (r: Call<CallableDataSet, DataPoint>)
    ensures Cursor.AtEnd(s.value, s.domainSize) ==> r == Raised(s, StopIteration)
    ensures !Cursor.AtEnd(s.value, s.domainSize) ==> r.state == s.(value := s.value + 1)
    ensures !Cursor.AtEnd(s.value, s.domainSize) && s.fn(s.value + 1).Ok? ==>
      r.Returned? && r.value.input == CurrentInputValue(r.state) && r.value.output == s.fn(r.value.input).value
    ensures !Cursor.AtEnd(s.value, s.domainSize) && s.fn(s.value + 1).Err? ==>
      r == Raised(s.(value := s.value + 1), s.fn(s.value + 1).error)
  {
    Moved(s, Cursor.Step(s.value, s.domainSize, PointAt(s.fn)))
  }

  /** A fresh data set over a callable that returns on the whole domain
      issues the points `(i, f(i))` for `i = 0 .. 2^d - 1` in order and then
      raises `StopIteration` with the cursor on `2^d - 1`; after `k <= 2^d`
      calls the cursor is `k - 1`. */
  lemma NextPointEnumerates(f: int -> Result<int>, d: nat, k: nat)
    requires forall i :: 0 <= i < Pow2(d) ==> f(i).Ok?
    requires k <= Pow2(d)
    ensures var run := Cursor.Drain(Cursor.Start, d, PointAt(f), Pow2(d) + 1);
      && |run.values| == Pow2(d)
      && (forall i :: 0 <= i < Pow2(d) ==> run.values[i] == DataPoint(i, f(i).value))
      && run.stop == Some(StopIteration)
      && run.cursor == Pow2(d) - 1
    ensures Cursor.Drain(Cursor.Start, d, PointAt(f), k).cursor == k - 1
  {
    Cursor.EnumeratesDomain(d, PointAt(f));
    Cursor.CursorAfter(d, PointAt(f), k);
  }

  /** The first input on which the callable raises ends the run with that
      exception, after the points before it, and the cursor stays on it. */
  lemma NextPointPropagatesRaise(f: int -> Result<int>, d: nat, j: int)
    requires 0 <= j < Pow2(d)
    requires forall i :: 0 <= i < j ==> f(i).Ok?
    requires f(j).Err?
    ensures var run := Cursor.Drain(Cursor.Start, d, PointAt(f), Pow2(d) + 1);
      && |run.values| == j
      && (forall i :: 0 <= i < j ==> run.values[i] == DataPoint(i, f(i).value))
      && run.stop == Some(f(j).error)
      && run.cursor == j
  {
    Cursor.StopsAtFirstFailure(d, PointAt(f), j);
  }

  /** `_get_item`: the point of input `item`, or the callable's exception,
      with the cursor untouched. */
  function GetItemPoint(s: CallableDataSet, item: int): (r: Result<DataPoint>)
    ensures r.Ok? <==> s.fn(item).Ok?
    ensures r.Ok? ==> r.value.input == item && r.value.output == s.fn(item).value
    ensures r.Err? ==> r.error == s.fn(item).error
  {
    PointAt(s.fn)(item)
  }

  /** `__next__` as written: the base class receives the whole data point
      where it expects an output number. */
  function NextAsWritten(s: CallableDataSet, noise: Bit): Call<CallableDataSet, int> {
    DataSetBase.Next(s, (t: CallableDataSet) => AsPointValue(NextPoint(t)), CurrentInputValue, noise)
  }

  function AsPointValue(c: Call<CallableDataSet, DataPoint>): Call<CallableDataSet, Value> {
    match c
    case Returned(t, p) => Returned(t, PointValue(p))
    case Raised(t, e) => Raised(t, e)
  }

  /** As written, every `next` before the end on which the callable returns
      raises `DataSetValueError`: a data-point object is never in `(0, 1)`,
      whatever the function. */
  lemma NextAsWrittenRejectsEveryPoint(s: CallableDataSet, noise: Bit)
    requires !Cursor.AtEnd(s.value, s.domainSize)
    requires s.fn(s.value + 1).Ok?
    ensures NextAsWritten(s, noise) ==
      Raised(s.(value := s.value + 1),
             DataSetValueError(s.value + 1, PointValue(DataPoint(s.value + 1, s.fn(s.value + 1).value))))
  {
    var i := s.value + 1;
    var v := PointValue(DataPoint(i, s.fn(i).value));
    assert AsPointValue(NextPoint(s)) == Returned(s.(value := i), v);
    assert DataSetBase.ProcessOutputValues(i, v, noise) == Err(DataSetValueError(i, v));
  }

  /** `__next__` with the point's output handed to the base class, which is
      what its `_process_output_values` checks and XORs with the noise. */
  function Next(s: CallableDataSet, noise: Bit): Call<CallableDataSet, int> {
    DataSetBase.Next(s, (t: CallableDataSet) => AsOutputValue(NextPoint(t)), CurrentInputValue, noise)
  }

  function AsOutputValue(c: Call<CallableDataSet, DataPoint>): Call<CallableDataSet, Value> {
    match c
    case Returned(t, p) => Returned(t, IntValue(p.output))
    case Raised(t, e) => Raised(t, e)
  }

  /** What one `next` reads at input `i` when the noise drawn for it is
      `noiseAt(i)`: the callable's exception, or its checked, noisy value. */
  function OutputAt(f: int -> Result<int>, noiseAt: int -> Bit): int -> Result<int> {
    i => match f(i)
      case Ok(v) => DataSetBase.ProcessOutputValues(i, IntValue(v), noiseAt(i))
      case Err(e) => Err(e)
  }

  /** One corrected `next` is one cursor step reading `f` at the new input,
      checked and XORed with that call's noise bit. */
  lemma NextIsCursorStep(s: CallableDataSet, noiseAt: int -> Bit)
    ensures Next(s, noiseAt(s.value + 1)) == Moved(s, Cursor.Step(s.value, s.domainSize, OutputAt(s.fn, noiseAt)))
  {
    if !Cursor.AtEnd(s.value, s.domainSize) {
      NextBeforeEnd(s, noiseAt(s.value + 1));
      var i := s.value + 1;
      if s.fn(i).Ok? {
        assert OutputAt(s.fn, noiseAt)(i) == DataSetBase.ProcessOutputValues(i, IntValue(s.fn(i).value), noiseAt(i));
      } else {
        assert OutputAt(s.fn, noiseAt)(i) == Err(s.fn(i).error);
      }
    }
  }

  /** Before the end, one `next` moves the cursor and then passes on the
      callable's exception, or checks and XORs its value at the new input. */
  lemma NextBeforeEnd(s: CallableDataSet, noise: Bit)
    requires !Cursor.AtEnd(s.value, s.domainSize)
    ensures var i := s.value + 1;
      s.fn(i).Err? ==> Next(s, noise) == Raised(s.(value := i), s.fn(i).error)
    ensures var i := s.value + 1;
      s.fn(i).Ok? ==>
      Next(s, noise) ==
        match DataSetBase.ProcessOutputValues(i, IntValue(s.fn(i).value), noise)
        case Ok(o) => Returned(s.(value := i), o)
        case Err(e) => Raised(s.(value := i), e)
  {
    var i := s.value + 1;
    if s.fn(i).Ok? {
      assert AsOutputValue(NextPoint(s)) == Returned(s.(value := i), IntValue(s.fn(i).value));
    } else {
      assert AsOutputValue(NextPoint(s)) == Raised(s.(value := i), s.fn(i).error);
    }
  }

  /** For a boolean function, the corrected iterator issues
      `f(i) XOR noise(i)` for `i = 0 .. 2^d - 1` in order and then stops;
      without noise it issues the function's values themselves. */
  lemma NextIssuesNoisyOutputs(f: int -> Result<int>, d: nat, noiseAt: int -> Bit)
    requires forall i :: 0 <= i < Pow2(d) ==> f(i).Ok? && IsBool(f(i).value)
    ensures var run := Cursor.Drain(Cursor.Start, d, OutputAt(f, noiseAt), Pow2(d) + 1);
      && |run.values| == Pow2(d)
      && (forall i :: 0 <= i < Pow2(d) ==> run.values[i] == Xor(f(i).value, noiseAt(i)))
      && (forall i :: 0 <= i < Pow2(d) && noiseAt(i) == 0 ==> run.values[i] == f(i).value)
      && run.stop == Some(StopIteration)
  {
    Cursor.EnumeratesDomain(d, OutputAt(f, noiseAt));
  }

  /** A non-boolean value stops the corrected iterator with
      `DataSetValueError` naming its input, after the boolean values before it. */
  lemma NextRejectsNonBoolean(f: int -> Result<int>, d: nat, noiseAt: int -> Bit, j: int)
    requires 0 <= j < Pow2(d)
    requires forall i :: 0 <= i < j ==> f(i).Ok? && IsBool(f(i).value)
    requires f(j).Ok? && !IsBool(f(j).value)
    ensures var run := Cursor.Drain(Cursor.Start, d, OutputAt(f, noiseAt), Pow2(d) + 1);
      && |run.values| == j
      && run.stop == Some(DataSetValueError(j, IntValue(f(j).value)))
      && run.cursor == j
  {
    Cursor.StopsAtFirstFailure(d, OutputAt(f, noiseAt), j);
  }

  /** `__getitem__` as written: `_get_item` hands the base class a data point. */
  function GetItemAsWritten(s: CallableDataSet, item: int, noise: Bit): Result<int> {
    DataSetBase.GetItem(item, s.domainSize, (i: int) => AsPointItem(GetItemPoint(s, i)), noise)
  }

  function AsPointItem(r: Result<DataPoint>): Result<Value> {
    match r
    case Ok(p) => Ok(PointValue(p))
    case Err(e) => Err(e)
  }

  /** As written, every in-domain item on which the callable returns raises
      `DataSetValueError`. */
  lemma GetItemAsWrittenRejectsEveryItem(s: CallableDataSet, item: int, noise: Bit)
    requires DataSetBase.InDomain(item, s.domainSize)
    requires s.fn(item).Ok?
    ensures GetItemAsWritten(s, item, noise) == Err(DataSetValueError(item, PointValue(DataPoint(item, s.fn(item).value))))
  {
    assert AsPointItem(GetItemPoint(s, item)) == Ok(PointValue(DataPoint(item, s.fn(item).value)));
  }

  function AsOutputItem(r: Result<DataPoint>): Result<Value> {
    match r
    case Ok(p) => Ok(IntValue(p.output))
    case Err(e) => Err(e)
  }

  /** `__getitem__` with the point's output handed to the base class: the
      noisy output of an in-domain item, `IndexError` outside the domain,
      and the callable's own exception passed on. */
  function GetItem(s: CallableDataSet, item: int, noise: Bit): (r: Result<int>)
    ensures !DataSetBase.InDomain(item, s.domainSize) ==> r == Err(ItemOutOfRange(item))
    ensures DataSetBase.InDomain(item, s.domainSize) && s.fn(item).Err? ==> r == Err(s.fn(item).error)
    ensures DataSetBase.InDomain(item, s.domainSize) && s.fn(item).Ok? && IsBool(s.fn(item).value) ==>
      r == Ok(Xor(s.fn(item).value, noise))
    ensures DataSetBase.InDomain(item, s.domainSize) && s.fn(item).Ok? && !IsBool(s.fn(item).value) ==>
      r == Err(DataSetValueError(item, IntValue(s.fn(item).value)))
  {
    DataSetBase.GetItem(item, s.domainSize, (i: int) => AsOutputItem(GetItemPoint(s, i)), noise)
  }
}

=== FILE: callable_training_set.dfy ===
/** `CallableTrainingSet` of training/lib: the training set of a boolean
    function given as a callable over `0 .. 2^domain_size - 1`. The
    constructor is modelled as written by `NewAsWritten`, which always
    raises; a training set is otherwise taken as built by `Fresh`, with its
    cursor at -1. The
    callable may raise: `fn(i)` is `Ok(v)` when it returns `v` and `Err(e)`
    when it raises `e`. */
module CallableTrainingSet {
  import opened Outcomes
  import opened DataPoints
  import opened Bits
  import Cursor
  import TrainingSetBase

  datatype CallableTrainingSet = CallableTrainingSet(fn: int -> Result<int>, domainSize: int, value: int)

  /** The state right after construction. */
  function Fresh(fn: int -> Result<int>, domainSize: int): (s: CallableTrainingSet)
    ensures DomainSize(s) == domainSize && CurrentInputValue(s) == -1
  {
    CallableTrainingSet(fn, domainSize, Cursor.Start)
  }

  /** `__init__` as written: `super().__init__(noise_probability=...)`
      comes first and raises, so nothing after it runs. */
  function NewAsWritten(fn: int -> Result<int>, domainSize: int, noiseProbability: real): Result<CallableTrainingSet> {
    match TrainingSetBase.Init(["noise_probability"])
    case Some(e) => Err(e)
    case None => Ok(Fresh(fn, domainSize))
  }

  /** No callable, size or probability lets the constructor complete;
      `Fresh` is the state it evidently meant to build. */
  lemma NewAsWrittenAlwaysRaises(fn: int -> Result<int>, domainSize: int, noiseProbability: real)
    ensures NewAsWritten(fn, domainSize, noiseProbability) == Err(TypeError)
    ensures NewAsWritten(fn, domainSize, noiseProbability) != Ok(Fresh(fn, domainSize))
  {
  }

  function DomainSize(s: CallableTrainingSet): int {
    s.domainSize
  }

  function CurrentInputValue(s: CallableTrainingSet): int {
    s.value
  }

  function Moved<V>(s: CallableTrainingSet, c: Call<int, V>): Call<CallableTrainingSet, V> {
    match c
    case Returned(v, x) => Returned(s.(value := v), x)
    case Raised(v, e) => Raised(s.(value := v), e)
  }

  /** `_next`: once exhausted it raises `StopIteration` and leaves the
      cursor where it is, so it keeps raising; otherwise it moves the
      cursor and issues `f` of the new input, or passes on the exception
      `f` raised with the cursor already moved. */
  function NextValue(s: CallableTrainingSet): (r: Call<CallableTrainingSet, int>)
    ensures Cursor.AtEnd(s.value, s.domainSize) ==> r == Raised(s, StopIteration)
    ensures !Cursor.AtEnd(s.value, s.domainSize) && s.fn(s.value + 1).Ok? ==>
      r == Returned(s.(value := s.value + 1), s.fn(s.value + 1).value)
    ensures !Cursor.AtEnd(s.value, s.domainSize) && s.fn(s.value + 1).Err? ==>
      r == Raised(s.(value := s.value + 1), s.fn(s.value + 1).error)
  {
    Moved(s, Cursor.Step(s.value, s.domainSize, s.fn))
  }

  /** A fresh training set over a callable that returns on the whole
      domain issues `f(0), ..., f(2^d - 1)` from `_next` and then raises
      `StopIteration`; after `k <= 2^d` calls the cursor is `k - 1`. */
  lemma NextValueEnumerates(f: int -> Result<int>, d: nat, k: nat)
    requires forall i :: 0 <= i < Pow2(d) ==> f(i).Ok?
    requires k <= Pow2(d)
    ensures var run := Cursor.Drain(Cursor.Start, d, f, Pow2(d) + 1);
      && |run.values| == Pow2(d)
      && (forall i :: 0 <= i < Pow2(d) ==> run.values[i] == f(i).value)
      && run.stop == Some(StopIteration)
      && run.cursor == Pow2(d) - 1
    ensures Cursor.Drain(Cursor.Start, d, f, k).cursor == k - 1
  {
    Cursor.EnumeratesDomain(d, f);
    Cursor.CursorAfter(d, f, k);
  }

  /** `__next__`: `f` of the next input, if boolean. */
  function Next(s: CallableTrainingSet): (r: Call<CallableTrainingSet, int>)
    ensures r.Returned? ==> IsBool(r.value) && s.fn(s.value + 1) == Ok(r.value)
    ensures r.Raised? && !Cursor.AtEnd(s.value, s.domainSize) && s.fn(s.value + 1).Ok? ==>
      r.error == DataSetValueError(s.value + 1, IntValue(s.fn(s.value + 1).value))
    ensures !Cursor.AtEnd(s.value, s.domainSize) && s.fn(s.value + 1).Err? ==>
      r == Raised(s.(value := s.value + 1), s.fn(s.value + 1).error)
  {
    TrainingSetBase.Next(s, NextValue, CurrentInputValue)
  }

  /** The checked value `__next__` reads at input `i`. */
  function CheckedAt(f: int -> Result<int>): int -> Result<int> {
    i => match f(i)
      case Ok(v) => if IsBool(v) then Ok(v) else Err(DataSetValueError(i, IntValue(v)))
      case Err(e) => Err(e)
  }

  /** One `__next__` is one cursor step reading the checked value. */
  lemma NextIsCursorStep(s: CallableTrainingSet)
    ensures Next(s) == Moved(s, Cursor.Step(s.value, s.domainSize, CheckedAt(s.fn)))
  {
  }

  function Complement(x: int): Result<int> { Ok(1 - x) }

  function Successor(x: int): Result<int> { Ok(x + 1) }

  /** `f(x) = 1 - x` over one bit issues 1, 0 and then keeps raising
      `StopIteration`; `f(x) = x + 1` issues 1 and then raises
      `DataSetValueError` for input 1. */
  lemma Examples()
    ensures var s0 := Fresh(Complement, 1);
      && Next(s0) == Returned(s0.(value := 0), 1)
      && Next(s0.(value := 0)) == Returned(s0.(value := 1), 0)
      && Next(s0.(value := 1)) == Raised(s0.(value := 1), StopIteration)
    ensures var s0 := Fresh(Successor, 1);
      && Next(s0) == Returned(s0.(value := 0), 1)
      && Next(s0.(value := 0)) == Raised(s0.(value := 1), DataSetValueError(1, IntValue(2)))
  {
    assert Pow2(1) == 2;
  }
}

=== FILE: cursor.dfy ===
/** The enumeration shared by every boolean-function data set and training
    set: an integer cursor `_value` that starts at -1, and a `_next` that
    raises `StopIteration` once the cursor equals `2 ** domain_size - 1` and
    otherwise increments the cursor and reads the element at the new
    position. Each concrete iterator supplies how an element is read. */
module Cursor {
  import opened Outcomes
  import opened Bits

  /** `_get_domain_size` of the values-list data sets: `log(len, 2)` when it
      is a whole number, `DataSetSizeError` when the length is not a power of
      two, and the `ValueError` of `math.log(0, 2)` for an empty list. */
  function ListDomainSize(length: nat): (r: Result<nat>)
    ensures r.Ok? <==> length > 0 && IsPowerOfTwo(length)
    ensures r.Ok? ==> Pow2(r.value) == length
    ensures length == 0 ==> r == Err(MathDomainError)
    ensures length > 0 && r.Err? ==> r.error == DataSetSizeError(length)
  {
    if length == 0 then Err(MathDomainError)
    else match Log2Exact(length)
      case Some(d) =>
        assert Pow2(d) == length;
        Ok(d)
      case None => Err(DataSetSizeError(length))
  }

  /** The initial cursor value, before any element was issued. */
  const Start: int := -1

  /** The end test `self._value == 2 ** self._domain_size - 1`. For a
      negative domain size `2 ** d - 1` is a fraction in (-1, 0) that no
      integer cursor equals, so such an iterator never ends. */
  predicate AtEnd(value: int, domainSize: int) {
    domainSize >= 0 && value == Pow2(domainSize) - 1
  }

  /** One `_next`: at the end it raises `StopIteration` and leaves the cursor
      where it is; otherwise it moves the cursor first and then reads, so a
      failing read leaves the cursor moved. */
  function Step<V>(value: int, domainSize: int, at: int -> Result<V>): (r: Call<int, V>)
    ensures AtEnd(value, domainSize) ==> r == Raised(value, StopIteration)
    ensures !AtEnd(value, domainSize) ==> r.state == value + 1
    ensures domainSize < 0 ==> r.state == value + 1
  {
    if AtEnd(value, domainSize) then Raised(value, StopIteration)
    else match at(value + 1)
      case Ok(v) => Returned(value + 1, v)
      case Err(e) => Raised(value + 1, e)
  }

  /** What a client sees when calling `next` up to `fuel` times: the values
      returned, the exception that ended the run (None if the fuel ran out
      first), and the cursor afterwards. */
  datatype Drained<V> = Drained(values: seq<V>, stop: Option<Exception>, cursor: int)

  function Drain<V>(value: int, domainSize: int, at: int -> Result<V>, fuel: nat): Drained<V>
    decreases fuel
  {
    if fuel == 0 then Drained([], None, value)
    else match Step(value, domainSize, at)
      case Raised(c, e) => Drained([], Some(e), c)
      case Returned(c, v) =>
        var rest := Drain(c, domainSize, at, fuel - 1);
        rest.(values := [v] + rest.values)
  }

  /** The elements at positions `lo .. hi - 1`, every one of them readable. */
  function Reads<V>(at: int -> Result<V>, lo: int, hi: int): (s: seq<V>)
    requires forall i :: lo <= i < hi ==> at(i).Ok?
    ensures |s| == if lo < hi then hi - lo else 0
    ensures forall k :: 0 <= k < |s| ==> s[k] == at(lo + k).value
    decreases hi - lo
  {
    if lo >= hi then [] else [at(lo).value] + Reads(at, lo + 1, hi)
  }

  /** From cursor `value`, with every position up to (not including) `stop`
      readable and `stop` either the end of the domain or an unreadable
      position, `next` returns the elements in position order and then
      raises: `StopIteration` at the end, the read error otherwise. A run cut
      short by the fuel has returned exactly `fuel` elements and the cursor
      has moved by `fuel`. */
  lemma {:induction false} DrainFrom<V>(value: int, d: nat, at: int -> Result<V>, fuel: nat, stop: int)
    requires -1 <= value < stop <= Pow2(d)
    requires forall i :: value < i < stop ==> at(i).Ok?
    requires stop < Pow2(d) ==> at(stop).Err?
    ensures fuel >= stop - value ==>
      Drain(value, d, at, fuel) ==
        Drained(Reads(at, value + 1, stop),
                Some(if stop == Pow2(d) then StopIteration else at(stop).error),
                if stop == Pow2(d) then Pow2(d) - 1 else stop)
    ensures fuel < stop - value ==>
      Drain(value, d, at, fuel) == Drained(Reads(at, value + 1, value + 1 + fuel), None, value + fuel)
    decreases fuel
  {
    if fuel == 0 {
    } else if value == stop - 1 {
    } else {
      DrainFrom(value + 1, d, at, fuel - 1, stop);
    }
  }

  /** A fresh cursor over a domain of `2^d` readable elements issues all of
      them in order, `2^d` in all, and then raises `StopIteration` with the
      cursor on the last position. */
  lemma EnumeratesDomain<V>(d: nat, at: int -> Result<V>)
    requires forall i :: 0 <= i < Pow2(d) ==> at(i).Ok?
    ensures Drain(Start, d, at, Pow2(d) + 1) == Drained(Reads(at, 0, Pow2(d)), Some(StopIteration), Pow2(d) - 1)
    ensures |Drain(Start, d, at, Pow2(d) + 1).values| == Pow2(d)
  {
    DrainFrom(Start, d, at, Pow2(d) + 1, Pow2(d));
  }

  /** After `k` successful calls on a fresh cursor (`k <= 2^d`) the cursor
      is `k - 1` and the elements at positions `0 .. k - 1` were issued. */
  lemma CursorAfter<V>(d: nat, at: int -> Result<V>, k: nat)
    requires k <= Pow2(d)
    requires forall i :: 0 <= i < k ==> at(i).Ok?
    ensures Drain(Start, d, at, k) == Drained(Reads(at, 0, k), None, k - 1)
  {
    var stop := FirstFailure(at, k, Pow2(d));
    DrainFrom(Start, d, at, k, stop);
  }

  /** The first unreadable position in `lo .. hi - 1`, or `hi` if there is none. */
  function FirstFailure<V>(at: int -> Result<V>, lo: int, hi: int): (j: int)
    requires lo <= hi
    ensures lo <= j <= hi
    ensures forall i :: lo <= i < j ==> at(i).Ok?
    ensures j < hi ==> at(j).Err?
    decreases hi - lo
  {
    if lo == hi then hi else if at(lo).Err? then lo else FirstFailure(at, lo + 1, hi)
  }

  /** A fresh cursor issues the readable prefix of the domain in order and
      then raises the first read error, with the cursor on the failing
      position. */
  lemma StopsAtFirstFailure<V>(d: nat, at: int -> Result<V>, j: int)
    requires 0 <= j < Pow2(d)
    requires forall i :: 0 <= i < j ==> at(i).Ok?
    requires at(j).Err?
    ensures Drain(Start, d, at, Pow2(d) + 1) == Drained(Reads(at, 0, j), Some(at(j).error), j)
  {
    DrainFrom(Start, d, at, Pow2(d) + 1, j);
  }

  /** Reading a list with Python subscription. */
  function ListAt<T>(values: seq<T>): int -> Result<T> {
    i => PyIndex(values, i)
  }

  /** A fresh cursor over a list of `2^d` elements issues the list itself,
      element by element, and then raises `StopIteration`. */
  lemma EnumeratesList<T>(values: seq<T>, d: nat)
    requires Pow2(d) == |values|
    ensures Drain(Start, d, ListAt(values), |values| + 1) == Drained(values, Some(StopIteration), |values| - 1)
  {
    EnumeratesDomain(d, ListAt(values));
    assert Reads(ListAt(values), 0, |values|) == values;
  }
}

=== FILE: data_points.dfy ===
/** The data points issued by the boolean-function data sets. */
module DataPoints {

  /** `DataPointImpl`: an input number and the function's output for it. */
  datatype DataPoint = DataPoint(input: int, output: int)

  /** A Python value handed to the output checks: a number, or a data-point
      object (which never compares equal to 0 or 1). */
  datatype Value = IntValue(i: int) | PointValue(point: DataPoint)
}

=== FILE: data_set_base.dfy ===
/** `DataSetBase` of learning/data_set/lib: the shared part of the data sets
    whose `_next` and `_get_item` hand back an output value. It checks that
    the value is boolean and XORs it with one noise bit. */
module DataSetBase {
  import opened Outcomes
  import opened DataPoints
  import opened Bits

  /** `0 <= item < 2 ** domain_size` as Python evaluates it: for a negative
      domain size the bound is a fraction in (0, 1), so only 0 is inside. */
  predicate InDomain(item: int, domainSize: int) {
    if domainSize >= 0 then 0 <= item < Pow2(domainSize) else item == 0
  }

  /** `_process_output_values(input_value, output_value)`. `noise` is the
      outcome of `np.random.binomial(1, p)`. Only the numbers 0 and 1 pass
      the `in (0, 1)` test; a data-point object never does. */
  function ProcessOutputValues(inputValue: int, output: Value, noise: Bit): (r: Result<int>)
    ensures r.Ok? <==> output == IntValue(0) || output == IntValue(1)
    ensures r.Err? ==> r.error == DataSetValueError(inputValue, output)
    ensures r.Ok? ==> IsBool(r.value) && (r.value == output.i <==> noise == 0)
  {
    if !(output == IntValue(0) || output == IntValue(1)) then Err(DataSetValueError(inputValue, output))
    else Ok(Xor(output.i, noise))
  }

  /** `__getitem__` of a subclass whose `_get_item` is `getItem`: an item
      outside the domain raises `IndexError` before anything is read, and
      an exception of `_get_item` itself propagates unchecked. */
  function GetItem(item: int, domainSize: int, getItem: int -> Result<Value>, noise: Bit): (r: Result<int>)
    ensures !InDomain(item, domainSize) ==> r == Err(ItemOutOfRange(item))
    ensures InDomain(item, domainSize) && getItem(item).Err? ==> r == Err(getItem(item).error)
    ensures InDomain(item, domainSize) && getItem(item).Ok? ==> r == ProcessOutputValues(item, getItem(item).value, noise)
  {
    if !InDomain(item, domainSize) then Err(ItemOutOfRange(item))
    else match getItem(item)
      case Ok(v) => ProcessOutputValues(item, v, noise)
      case Err(e) => Err(e)
  }

  /** `__next__` of a subclass whose `_next` is `next` and whose
      `current_input_value` is `current`: any error names the input the
      cursor stands on after `_next`. */
  function Next<S>(s: S, next: S -> Call<S, Value>, current: S -> int, noise: Bit): (r: Call<S, int>)
    ensures next(s).Raised? ==> r == Raised(next(s).state, next(s).error)
    ensures r.state == next(s).state
    ensures r.Returned? ==> IsBool(r.value)
    ensures r.Raised? && next(s).Returned? ==> r.error == DataSetValueError(current(next(s).state), next(s).value)
    ensures next(s).Returned? && noise == 0 && r.Returned? ==> next(s).value == IntValue(r.value)
    ensures next(s).Returned? && (next(s).value == IntValue(0) || next(s).value == IntValue(1)) ==>
      r.Returned? && (r.value == next(s).value.i <==> noise == 0)
  {
    match next(s)
    case Raised(s', e) => Raised(s', e)
    case Returned(s', v) =>
      match ProcessOutputValues(current(s'), v, noise)
      case Ok(o) => Returned(s', o)
      case Err(e) => Raised(s', e)
  }
}

=== FILE: explicit_mask.dfy ===
/** `ExplicitMask` of learning/data_set/lib/masks: splits the inputs of a
    data set into a training part (mask value 1) and a testing part (mask
    value 0) by an explicit list of mask values. */
module ExplicitMask {
  import opened Outcomes
  import opened Bits

  datatype ExplicitMask = ExplicitMask(maskValues: seq<int>)

  /** `_validate_mask_value`: `MaskValueError` unless the value is 0 or 1. */
  function ValidateMaskValue(index: int, maskValue: int): (r: Option<Exception>)
    ensures r.None? <==> IsBool(maskValue)
    ensures r.Some? ==> r.value == MaskValueError(index, maskValue)
  {
    if IsBool(maskValue) then None else Some(MaskValueError(index, maskValue))
  }

  /** `in_training_set`: the mask value at `index`, read with Python
      subscription and validated. */
  function InTrainingSet(m: ExplicitMask, index: int): (r: Result<bool>)
    ensures 0 <= index < |m.maskValues| ==>
      && (r == Ok(true) <==> m.maskValues[index] == 1)
      && (r == Ok(false) <==> m.maskValues[index] == 0)
      && (r.Err? <==> !IsBool(m.maskValues[index]))
      && (r.Err? ==> r.error == MaskValueError(index, m.maskValues[index]))
    ensures (index < -|m.maskValues| || |m.maskValues| <= index) ==> r == Err(ListIndexError(index))
  {
    var maskValue :- PyIndex(m.maskValues, index);
    match ValidateMaskValue(index, maskValue)
    case Some(e) => Err(e)
    case None => Ok(maskValue == 1)
  }

  /** `in_testing_set`: the negation of `in_training_set`, with the same
      errors. */
  function InTestingSet(m: ExplicitMask, index: int): (r: Result<bool>)
    ensures r.Ok? <==> InTrainingSet(m, index).Ok?
    ensures r.Ok? ==> r.value == !InTrainingSet(m, index).value
    ensures r.Err? ==> r.error == InTrainingSet(m, index).error
  {
    var inTraining :- InTrainingSet(m, index);
    Ok(!inTraining)
  }

  /** For every index inside a mask of valid values, exactly one of the two
      sets holds it: the training set when the value is 1, the testing set
      when it is 0. */
  lemma SplitsIndices(m: ExplicitMask, index: int)
    requires 0 <= index < |m.maskValues|
    requires IsBool(m.maskValues[index])
    ensures InTrainingSet(m, index).Ok? && InTestingSet(m, index).Ok?
    ensures InTrainingSet(m, index).value != InTestingSet(m, index).value
    ensures InTestingSet(m, index) == Ok(m.maskValues[index] == 0)
  {
  }

  /** The mask `[1, 0, 1, 1]`: indices 0, 2, 3 train and 1 tests; the
      out-of-range indices 4 and 5 raise `IndexError`, and the value 5 raises
      `MaskValueError` from both queries. */
  lemma Examples()
    ensures var m := ExplicitMask([1, 0, 1, 1]);
      && InTrainingSet(m, 0) == Ok(true) && InTestingSet(m, 1) == Ok(true)
      && InTrainingSet(m, 2) == Ok(true) && InTrainingSet(m, 3) == Ok(true)
      && InTestingSet(m, 0) == Ok(false) && InTrainingSet(m, 1) == Ok(false)
      && InTestingSet(m, 2) == Ok(false) && InTestingSet(m, 3) == Ok(false)
      && InTestingSet(m, 4) == Err(ListIndexError(4))
      && InTestingSet(m, 5) == Err(ListIndexError(5))
    ensures var m := ExplicitMask([1, 0, 5, 1]);
      && InTrainingSet(m, 2) == Err(MaskValueError(2, 5))
      && InTestingSet(m, 2) == Err(MaskValueError(2, 5))
  {
  }
}

=== FILE: learning_model.dfy ===
/** The deterministic parts of `LearningModel` (learning/learning_model.py):
    the encoding of an input number as the set of active stimuli, the
    domain checks, the parameters handed to `Brain.project` for one step
    of the architecture, the temporary brain mode, and the split of a test
    set into hits and misses. */
module LearningModel {
  import opened Outcomes
  import opened Bits
  import opened DataPoints
  import Brain
  import Projection
  import LearningArchitecture

  /** `stimuli` is the list of stimulus names taken from the brain when
      the model was built; it fixes which stimulus stands for which bit. */
  datatype LearningModel = LearningModel(
    brain: Brain.Brain,
    stimuli: seq<string>,
    domainSize: int,
    architecture: LearningArchitecture.Architecture)

  /** `__init__`. `keys` is the iteration order of `brain.stimuli`, which
      Python keeps as insertion order. */
  function New(brain: Brain.Brain, domainSize: int, architecture: LearningArchitecture.Architecture, keys: seq<string>): (m: LearningModel)
    requires Projection.Lists(keys, brain.stimuli.Keys)
    ensures m.brain == brain && m.domainSize == domainSize && m.architecture == architecture
    ensures m.stimuli == keys
    ensures |m.stimuli| == |brain.stimuli|
    ensures forall n :: n in brain.stimuli <==> n in m.stimuli
    ensures forall i, j :: 0 <= i < j < |m.stimuli| ==> m.stimuli[i] != m.stimuli[j]
  {
    ListedSize(keys, brain.stimuli.Keys);
    LearningModel(brain, keys, domainSize, architecture)
  }

  /** A duplicate-free listing of a set is as long as the set is large. */
  lemma {:induction false} ListedSize(keys: seq<string>, names: set<string>)
    requires Projection.Lists(keys, names)
    ensures |keys| == |names|
    decreases |keys|
  {
    if |keys| > 0 {
      var last := keys[|keys| - 1];
      var init := keys[..|keys| - 1];
      assert Projection.Lists(init, names - {last}) by {
        forall n | n in names - {last} ensures n in init {
          var i :| 0 <= i < |keys| && keys[i] == n;
        }
        forall i | 0 <= i < |init| ensures init[i] in names - {last} {
          assert keys[i] != keys[|keys| - 1];
        }
      }
      ListedSize(init, names - {last});
    }
  }

  /** `_validate_input_number`: `math.log(x + 1, 2)` fails for `x < 0`,
      and an input needing more than `domain_size` binary digits is out
      of the model's domain. */
  function ValidateInputNumber(domainSize: int, x: int): (r: Option<Exception>)
    ensures r.None? <==> 0 <= x && 0 <= domainSize && x < Pow2(domainSize)
    ensures x < 0 ==> r == Some(MathDomainError)
    ensures 0 <= x && r.Some? ==> r == Some(DomainSizeMismatch(domainSize, BitLength(x)))
  {
    if x < 0 then Some(MathDomainError)
    else if domainSize < 0 then Some(DomainSizeMismatch(domainSize, BitLength(x)))
    else
      BitLengthBound(x, domainSize);
      if BitLength(x) > domainSize then Some(DomainSizeMismatch(domainSize, BitLength(x))) else None
  }

  /** `int(c)` for a character of a binary numeral. */
  function DigitValue(c: char): int {
    if c == '1' then 1 else 0
  }

  lemma DigitValueOfDigitChar(b: nat)
    requires b <= 1
    ensures DigitValue(DigitChar(b)) == b
  {
  }

  /** The stimuli the encoding loop has kept after its first `n` rounds:
      stimulus `i` is kept when `i % 2` is the digit at position `i // 2`. */
  function Picks(stimuli: seq<string>, bits: string, n: nat): seq<string>
    requires n <= |stimuli| && n <= 2 * |bits|
  {
    if n == 0 then []
    else
      var i := n - 1;
      Picks(stimuli, bits, i) + (if i % 2 == DigitValue(bits[i / 2]) then [stimuli[i]] else [])
  }

  /** Over whole pairs the loop keeps exactly one stimulus of each pair:
      the even one for a 0 digit, the odd one for a 1 digit. */
  lemma {:induction false} PicksPairs(stimuli: seq<string>, bits: string, k: nat)
    requires 2 * k <= |stimuli| && k <= |bits|
    ensures |Picks(stimuli, bits, 2 * k)| == k
    ensures forall j :: 0 <= j < k ==> Picks(stimuli, bits, 2 * k)[j] == stimuli[2 * j + DigitValue(bits[j])]
  {
    if k > 0 {
      PicksPairs(stimuli, bits, k - 1);
      var d := DigitValue(bits[k - 1]);
      assert Picks(stimuli, bits, 2 * k) == Picks(stimuli, bits, 2 * k - 2) + [stimuli[2 * (k - 1) + d]];
    }
  }

  /** The active stimuli the encoding promises: one per pair, the pair's
      second stimulus exactly when the corresponding bit of `x`, most
      significant first, is 1. */
  function ActiveStimuli(stimuli: seq<string>, x: nat, d: nat): (r: seq<string>)
    requires |stimuli| == 2 * d
    ensures |r| == d
    ensures forall j :: 0 <= j < d ==> r[j] == stimuli[2 * j + BitAt(x, d - 1 - j)]
  {
    seq(d, j requires 0 <= j < d => stimuli[2 * j + BitAt(x, d - 1 - j)])
  }

  /** The numeral `bin(x)[2:].zfill(domain_size)` the loop reads. */
  function Numeral(x: nat, d: int): string {
    ZFill(Binary(x), d)
  }

  /** Reading the whole zero-padded numeral picks the promised stimuli. */
  lemma EncodingPicksActive(stimuli: seq<string>, x: nat, d: nat)
    requires |stimuli| == 2 * d && x < Pow2(d)
    ensures 2 * d <= 2 * |Numeral(x, d)|
    ensures Picks(stimuli, Numeral(x, d), 2 * d) == ActiveStimuli(stimuli, x, d)
  {
    var bits := Numeral(x, d);
    BinaryLength(x);
    BitLengthBound(x, d);
    PicksPairs(stimuli, bits, d);
    forall j | 0 <= j < d
      ensures Picks(stimuli, bits, 2 * d)[j] == stimuli[2 * j + BitAt(x, d - 1 - j)]
    {
      PaddedBinaryDigit(x, d, j);
      DigitValueOfDigitChar(BitAt(x, d - 1 - j));
    }
  }

  /** `_convert_input_to_stimuli`. The stimulus count is checked against
      the brain first, then the input; the loop then walks the stored
      stimulus list and fails with `IndexError` if that list outlasts the
      numeral. */
  method ConvertInputToStimuli(m: LearningModel, x: int) returns (r: Result<seq<string>>)
    ensures |m.brain.stimuli| != 2 * m.domainSize ==> r == Err(StimuliMismatch(2 * m.domainSize, |m.brain.stimuli|))
    ensures |m.brain.stimuli| == 2 * m.domainSize && ValidateInputNumber(m.domainSize, x).Some? ==>
      r == Err(ValidateInputNumber(m.domainSize, x).value)
    ensures r.Ok? <==>
      && |m.brain.stimuli| == 2 * m.domainSize
      && ValidateInputNumber(m.domainSize, x).None?
      && |m.stimuli| <= 2 * |Numeral(x, m.domainSize)|
    ensures r.Err? && |m.brain.stimuli| == 2 * m.domainSize && ValidateInputNumber(m.domainSize, x).None? ==>
      r.error == ListIndexError(|Numeral(x, m.domainSize)|)
    ensures r.Ok? && |m.stimuli| == 2 * m.domainSize ==> r.value == ActiveStimuli(m.stimuli, x, m.domainSize)
  {
    var d := m.domainSize;
    if |m.brain.stimuli| != 2 * d {
      return Err(StimuliMismatch(2 * d, |m.brain.stimuli|));
    }
    var invalid := ValidateInputNumber(d, x);
    if invalid.Some? {
      return Err(invalid.value);
    }
    var bits := Numeral(x, d);
    var active: seq<string> := [];
    var i := 0;
    while i < |m.stimuli|
      invariant 0 <= i <= |m.stimuli| && i <= 2 * |bits|
      invariant active == Picks(m.stimuli, bits, i)
    {
      if i / 2 >= |bits| {
        return Err(ListIndexError(i / 2));
      }
      if i % 2 == DigitValue(bits[i / 2]) {
        active := active + [m.stimuli[i]];
      }
      i := i + 1;
    }
    if |m.stimuli| == 2 * d {
      EncodingPicksActive(m.stimuli, x, d);
    }
    return Ok(active);
  }

  /** The encoding of the model tests: with stimuli A, B, C, D, the inputs
      0, 1, 2, 3 activate A C, A D, B C and B D. */
  lemma ActiveStimuliExample()
    ensures ActiveStimuli(["A", "B", "C", "D"], 0, 2) == ["A", "C"]
    ensures ActiveStimuli(["A", "B", "C", "D"], 1, 2) == ["A", "D"]
    ensures ActiveStimuli(["A", "B", "C", "D"], 2, 2) == ["B", "C"]
    ensures ActiveStimuli(["A", "B", "C", "D"], 3, 2) == ["B", "D"]
  {
    assert BitAt(2, 1) == BitAt(1, 0) == 1;
    assert BitAt(3, 1) == BitAt(1, 0);
  }

  /** `_get_projection_parameters`: a one-edge map from the step's source
      to its target, on the stimulus side or on the area side. */
  function GetProjectionParameters(source: LearningArchitecture.Source, target: string): (r: (seq<Projection.Edge>, seq<Projection.Edge>))
    ensures source.StimulusSource? ==> r == ([Projection.Edge(source.name, [target])], [])
    ensures source.AreaSource? ==> r == ([], [Projection.Edge(source.name, [target])])
  {
    match source
    case StimulusSource(name) => ([Projection.Edge(name, [target])], [])
    case AreaSource(name) => ([], [Projection.Edge(name, [target])])
  }

  /** The parameters of one step make `project` validate exactly the step's
      source (as a stimulus or as a regular area) and target, and target
      that one area, fed by that one source. */
  lemma ProjectionParametersTargetOne(b: Brain.Brain, source: LearningArchitecture.Source, target: string)
    ensures var (s, a) := GetProjectionParameters(source, target);
      var r := Projection.Collect(b, s, a);
      && (r.Ok? <==>
            (if source.StimulusSource? then source.name in b.stimuli else source.name in b.areas) && Projection.Known(b, target))
      && (r.Ok? ==> Projection.Targeted(r.value) == {target} && Projection.Lists([target], Projection.Targeted(r.value)))
      && (r.Ok? && source.StimulusSource? ==> Projection.Get(r.value.0, target) == [source.name] && Projection.Get(r.value.1, target) == [])
      && (r.Ok? && source.AreaSource? ==> Projection.Get(r.value.0, target) == [] && Projection.Get(r.value.1, target) == [source.name])
  {
    var (s, a) := GetProjectionParameters(source, target);
    Projection.CollectSpec(b, s, a);
    var e := Projection.Edge(source.name, [target]);
    assert Projection.SourcesInto([e], target) == [source.name];
    forall n ensures Projection.Targets([e], n) <==> n == target {
      if n == target {
        assert [e][0].targets[0] == n;
      }
    }
    assert Projection.EdgesKnown([e], b.stimuli.Keys, Projection.KnownNames(b)) <==> source.name in b.stimuli && Projection.Known(b, target);
    assert Projection.EdgesKnown([e], b.areas.Keys, Projection.KnownNames(b)) <==> source.name in b.areas && Projection.Known(b, target);
  }

  /** The domain checks of `train_model` and `test_model`. */
  function CheckDomainSize(m: LearningModel, setDomainSize: int): (r: Option<Exception>)
    ensures r.None? <==> setDomainSize == m.domainSize
    ensures r.Some? ==> r.value == DomainSizeMismatch(m.domainSize, setDomainSize)
  {
    if setDomainSize != m.domainSize then Some(DomainSizeMismatch(m.domainSize, setDomainSize)) else None
  }

  /** `with self._set_training_mode(mode): body`. The original mode is put
      back only when the body returns: the context manager has no
      `try`/`finally`, so an exception leaves the temporary mode set. */
  function SetTrainingMode<T>(m: LearningModel, mode: Brain.BrainMode, body: LearningModel -> Call<LearningModel, T>): (r: Call<LearningModel, T>)
  {
    var inner := body(m.(brain := m.brain.(mode := mode)));
    match inner
    case Returned(s, v) => Returned(s.(brain := s.brain.(mode := m.brain.mode)), v)
    case Raised(s, e) => Raised(s, e)
  }

  /** The body runs in the requested mode; after a normal return the
      original mode is back and everything else is as the body left it;
      after an exception the state is exactly as the body left it. */
  lemma SetTrainingModeSpec<T>(m: LearningModel, mode: Brain.BrainMode, body: LearningModel -> Call<LearningModel, T>)
    ensures var inner := body(m.(brain := m.brain.(mode := mode)));
      var r := SetTrainingMode(m, mode, body);
      && (r.Returned? <==> inner.Returned?)
      && (r.Returned? ==>
            && r.value == inner.value && r.state.brain.mode == m.brain.mode
            && r.state.(brain := r.state.brain.(mode := inner.state.brain.mode)) == inner.state)
      && (r.Raised? ==> r == inner)
  {
  }

  /** A body that returns without touching the model leaves it exactly as
      it was, mode included; one that raises without touching the model
      leaves the brain in the temporary mode. */
  lemma SetTrainingModeRestores<T>(m: LearningModel, mode: Brain.BrainMode, v: T, e: Exception)
    ensures SetTrainingMode(m, mode, (s: LearningModel) => Returned(s, v)) == Returned(m, v)
    ensures SetTrainingMode(m, mode, (s: LearningModel) => Call<LearningModel, T>.Raised(s, e)).state.brain.mode == mode
  {
  }

  /** The outcome of `test_model`. `accuracy` is the exact ratio; the
      source rounds it to two decimals. */
  datatype TestResults = TestResults(accuracy: real, truePositive: seq<int>, falseNegative: seq<int>)

  /** The inputs of the points on which `run` agrees with the output, in
      order. */
  function Hits(points: seq<DataPoint>, run: int -> Result<int>): seq<int>
    requires forall k :: 0 <= k < |points| ==> run(points[k].input).Ok?
  {
    if |points| == 0 then []
    else (if run(points[0].input).value == points[0].output then [points[0].input] else []) + Hits(points[1..], run)
  }

  /** The inputs of the points on which `run` disagrees, in order. */
  function Misses(points: seq<DataPoint>, run: int -> Result<int>): seq<int>
    requires forall k :: 0 <= k < |points| ==> run(points[k].input).Ok?
  {
    if |points| == 0 then []
    else (if run(points[0].input).value != points[0].output then [points[0].input] else []) + Misses(points[1..], run)
  }

  function Inputs(points: seq<DataPoint>): (r: seq<int>)
    ensures |r| == |points|
    ensures forall k :: 0 <= k < |points| ==> r[k] == points[k].input
  {
    if |points| == 0 then [] else [points[0].input] + Inputs(points[1..])
  }

  lemma {:induction false} HitsAppend(points: seq<DataPoint>, p: DataPoint, run: int -> Result<int>)
    requires forall k :: 0 <= k < |points| ==> run(points[k].input).Ok?
    requires run(p.input).Ok?
    ensures Hits(points + [p], run) == Hits(points, run) + (if run(p.input).value == p.output then [p.input] else [])
    ensures Misses(points + [p], run) == Misses(points, run) + (if run(p.input).value != p.output then [p.input] else [])
    decreases |points|
  {
    if |points| > 0 {
      assert (points + [p])[1..] == points[1..] + [p];
      HitsAppend(points[1..], p, run);
    } else {
      assert (points + [p])[1..] == [];
    }
  }

  /** Every input lands in exactly one of the two lists: together they
      hold the inputs, each as often as it occurs. */
  lemma {:induction false} HitsMissesPartition(points: seq<DataPoint>, run: int -> Result<int>)
    requires forall k :: 0 <= k < |points| ==> run(points[k].input).Ok?
    ensures |Hits(points, run)| + |Misses(points, run)| == |points|
    ensures multiset(Hits(points, run)) + multiset(Misses(points, run)) == multiset(Inputs(points))
    decreases |points|
  {
    if |points| > 0 {
      HitsMissesPartition(points[1..], run);
      assert Inputs(points) == [points[0].input] + Inputs(points[1..]);
    }
  }

  /** A listed hit is the input of a point on which the model was right. */
  lemma {:induction false} HitsAreCorrect(points: seq<DataPoint>, run: int -> Result<int>, x: int)
    requires forall k :: 0 <= k < |points| ==> run(points[k].input).Ok?
    requires x in Hits(points, run)
    ensures exists k :: 0 <= k < |points| && points[k].input == x && run(x).value == points[k].output
    decreases |points|
  {
    if x !in Hits(points[1..], run) {
      assert points[0].input == x && run(x).value == points[0].output;
    } else {
      HitsAreCorrect(points[1..], run, x);
      var k :| 0 <= k < |points[1..]| && points[1..][k].input == x && run(x).value == points[1..][k].output;
      assert points[k + 1] == points[1..][k];
    }
  }

  /** A listed miss is the input of a point on which the model was wrong. */
  lemma {:induction false} MissesAreWrong(points: seq<DataPoint>, run: int -> Result<int>, x: int)
    requires forall k :: 0 <= k < |points| ==> run(points[k].input).Ok?
    requires x in Misses(points, run)
    ensures exists k :: 0 <= k < |points| && points[k].input == x && run(x).value != points[k].output
    decreases |points|
  {
    if x !in Misses(points[1..], run) {
      assert points[0].input == x && run(x).value != points[0].output;
    } else {
      MissesAreWrong(points[1..], run, x);
      var k :| 0 <= k < |points[1..]| && points[1..][k].input == x && run(x).value != points[1..][k].output;
      assert points[k + 1] == points[1..][k];
    }
  }

  /** The first point on which `run` fails, `|points|` if there is none. */
  function FirstRunFailure(points: seq<DataPoint>, run: int -> Result<int>): (k: nat)
    ensures k <= |points|
    ensures forall i :: 0 <= i < k ==> run(points[i].input).Ok?
    ensures k < |points| ==> run(points[k].input).Err?
  {
    if |points| == 0 then 0
    else if run(points[0].input).Err? then 0
    else 1 + FirstRunFailure(points[1..], run)
  }

  /** Every run before position `i` succeeds and the one at `i` (if any)
      fails, so `i` is the first failure. */
  lemma {:induction false} FirstRunFailureAt(points: seq<DataPoint>, run: int -> Result<int>, i: nat)
    requires i <= |points|
    requires forall k :: 0 <= k < i ==> run(points[k].input).Ok?
    requires i < |points| ==> run(points[i].input).Err?
    ensures FirstRunFailure(points, run) == i
    decreases |points|
  {
    if i > 0 {
      FirstRunFailureAt(points[1..], run, i - 1);
    }
  }

  /** The loop of `test_model`: runs the model on each point in order,
      appending its input to the hits or the misses, until a run raises. */
  method ScorePoints(points: seq<DataPoint>, run: int -> Result<int>) returns (failure: Option<Exception>, truePositive: seq<int>, falseNegative: seq<int>)
    ensures failure.None? <==> FirstRunFailure(points, run) == |points|
    ensures failure.Some? ==> failure.value == run(points[FirstRunFailure(points, run)].input).error
    ensures failure.None? ==> truePositive == Hits(points, run) && falseNegative == Misses(points, run)
  {
    truePositive := [];
    falseNegative := [];
    var i := 0;
    while i < |points|
      invariant 0 <= i <= |points|
      invariant forall k :: 0 <= k < i ==> run(points[k].input).Ok?
      invariant truePositive == Hits(points[..i], run)
      invariant falseNegative == Misses(points[..i], run)
    {
      var p := points[i];
      var result := run(p.input);
      if result.Err? {
        FirstRunFailureAt(points, run, i);
        return Some(result.error), truePositive, falseNegative;
      }
      assert points[..i + 1] == points[..i] + [p];
      HitsAppend(points[..i], p, run);
      if result.value == p.output {
        truePositive := truePositive + [p.input];
      } else {
        falseNegative := falseNegative + [p.input];
      }
      i := i + 1;
    }
    assert points[..i] == points;
    FirstRunFailureAt(points, run, i);
    failure := None;
  }

  /** `test_model` over the points the test set issues, with `run` standing
      for `run_model` and `ended` the exception the test set's `__next__`
      raised after issuing `points`. A wrong domain size fails first; a
      failing `run_model` call ends the loop with its exception; once every
      point ran, an `ended` other than `StopIteration` propagates out of the
      `for` loop; an empty set makes the accuracy a division by zero. */
  method TestModel(m: LearningModel, setDomainSize: int, points: seq<DataPoint>, ended: Exception, run: int -> Result<int>) returns (r: Result<TestResults>)
    ensures CheckDomainSize(m, setDomainSize).Some? ==> r == Err(CheckDomainSize(m, setDomainSize).value)
    ensures CheckDomainSize(m, setDomainSize).None? && FirstRunFailure(points, run) < |points| ==>
      r == Err(run(points[FirstRunFailure(points, run)].input).error)
    ensures CheckDomainSize(m, setDomainSize).None? && FirstRunFailure(points, run) == |points| && ended != StopIteration ==>
      r == Err(ended)
    ensures CheckDomainSize(m, setDomainSize).None? && FirstRunFailure(points, run) == |points| && ended == StopIteration && |points| == 0 ==>
      r == Err(ZeroDivisionError)
    ensures r.Ok? <==>
      CheckDomainSize(m, setDomainSize).None? && FirstRunFailure(points, run) == |points| && ended == StopIteration && |points| > 0
    ensures r.Ok? ==>
      && r.value.truePositive == Hits(points, run)
      && r.value.falseNegative == Misses(points, run)
      && r.value.accuracy == |Hits(points, run)| as real / |points| as real
  {
    var mismatch := CheckDomainSize(m, setDomainSize);
    if mismatch.Some? {
      return Err(mismatch.value);
    }
    var failure, truePositive, falseNegative := ScorePoints(points, run);
    if failure.Some? {
      return Err(failure.value);
    }
    if ended != StopIteration {
      return Err(ended);
    }
    HitsMissesPartition(points, run);
    var total := |truePositive| + |falseNegative|;
    if total == 0 {
      return Err(ZeroDivisionError);
    }
    return Ok(TestResults(|truePositive| as real / total as real, truePositive, falseNegative));
  }
}

=== FILE: outcomes.dfy ===
/** Failure-carrying datatypes shared by the whole model.

    Python signals failure by raising an exception, and most of the modelled
    operations mutate their receiver before they raise or return. A pure
    operation is modelled with `Result`; a mutating one with `Call`, which
    pairs the receiver's state after the call with what the call returned
    or raised. */
module Outcomes {
  import opened DataPoints

  datatype Option<+T> = None | Some(value: T)

  /** The Python exceptions the modelled code can raise. */
  datatype Exception =
    | StopIteration
      /** `IndexError` raised by subscribing a list with an index outside it. */
    | ListIndexError(index: int)
      /** `IndexError` raised by `DataSetBase.__getitem__` for an item outside the domain. */
    | ItemOutOfRange(item: int)
      /** `IndexError(name + " not in brain.stimuli")` raised by `Brain.project`. */
    | UnknownStimulus(name: string)
      /** `IndexError(name + " not in brain.areas")` raised by `Brain.project`. */
    | UnknownArea(name: string)
    | KeyError(key: string)
    | AssertionError
    | AttributeError
      /** `ValueError: math domain error` raised by `math.log` of a non-positive number. */
    | MathDomainError
    | TypeError
    | ZeroDivisionError
    | DataSetValueError(input: int, output: Value)
    | DataSetSizeError(length: int)
    | MaskValueError(index: int, value: int)
    | MissingStimulus(name: string)
    | MissingArea(name: string)
    | ArchitectureRunningNotInitialized
    | DomainSizeMismatch(expected: int, actual: int)
    | StimuliMismatch(expected: int, actual: int)

  datatype Result<+T> = Ok(value: T) | Err(error: Exception) {
    predicate IsFailure() {
      Err?
    }

    function PropagateFailure<U>(): Result<U>
      requires Err?
    {
      Err(error)
    }

    function Extract(): T
      requires Ok?
    {
      value
    }
  }

  /** The state of a mutable receiver after a call, with the value the call
      returned or the exception it raised. */
  datatype Call<+S, +T> = Returned(state: S, value: T) | Raised(state: S, error: Exception)

  /** Python's `seq[i]` on a list: a negative index counts from the end,
      anything else outside the list raises `IndexError`. */
  function PyIndex<T>(s: seq<T>, i: int): (r: Result<T>)
    ensures 0 <= i < |s| ==> r == Ok(s[i])
    ensures -|s| <= i < 0 ==> r == Ok(s[|s| + i])
    ensures r.Err? <==> (i < -|s| || |s| <= i)
    ensures r.Err? ==> r.error == ListIndexError(i)
  {
    if 0 <= i < |s| then Ok(s[i])
    else if -|s| <= i < 0 then Ok(s[|s| + i])
    else Err(ListIndexError(i))
  }
}

=== FILE: projection.dfy ===
/** `Brain.project` (brain.py): one simultaneous round of projections. The
    stimulus and area maps are validated and inverted into per-target input
    lists, the projection engine `project_into` runs once for each targeted
    area, and only then are all new winners committed together.

    The engine is a parameter: it receives the brain as it stands, the
    target area and the target's input lists, and yields the target's
    pending winners, pending support size and `num_first_winners`. The
    order in which Python iterates the set of targeted names is a
    parameter too. */
module Projection {
  import opened Outcomes
  import opened Brain

  /** One entry of `stim_to_area` or `area_to_area`: a source name and the
      list of areas it projects into. A map is given as its entries in
      iteration order. */
  datatype Edge = Edge(source: string, targets: seq<string>)

  /** Per-target input lists: `stim_in` or `area_in`. */
  type InputLists = map<string, seq<string>>

  /** The names a projection may target: regular and output areas. */
  predicate Known(b: Brain, name: string) {
    name in b.areas || name in b.outputAreas
  }

  function KnownNames(b: Brain): (r: set<string>)
    ensures forall n :: n in r <==> Known(b, n)
  {
    b.areas.Keys + b.outputAreas.Keys
  }

  /** `defaultdict(lambda: [])` subscription. */
  function Get(m: InputLists, name: string): seq<string> {
    if name in m then m[name] else []
  }

  function Count(s: seq<string>, x: string): (n: nat)
    ensures n <= |s|
    ensures n > 0 <==> x in s
  {
    if |s| == 0 then 0 else (if s[0] == x then 1 else 0) + Count(s[1..], x)
  }

  function Repeat(x: string, n: nat): (s: seq<string>)
    ensures |s| == n
    ensures forall i :: 0 <= i < n ==> s[i] == x
  {
    if n == 0 then [] else [x] + Repeat(x, n - 1)
  }

  /** Reference definition of an input list: the source of every edge,
      once for each time the edge lists `target`, in edge order. */
  function SourcesInto(edges: seq<Edge>, target: string): seq<string> {
    if |edges| == 0 then []
    else Repeat(edges[0].source, Count(edges[0].targets, target)) + SourcesInto(edges[1..], target)
  }

  /** A name some edge lists as a target. */
  predicate Targets(edges: seq<Edge>, name: string) {
    exists i :: 0 <= i < |edges| && name in edges[i].targets
  }

  lemma {:induction false} SourcesIntoNonEmpty(edges: seq<Edge>, name: string)
    ensures |SourcesInto(edges, name)| > 0 <==> Targets(edges, name)
  {
    if |edges| > 0 {
      SourcesIntoNonEmpty(edges[1..], name);
      if Targets(edges[1..], name) {
        var i :| 0 <= i < |edges[1..]| && name in edges[1..][i].targets;
        assert name in edges[i + 1].targets;
      }
      if Targets(edges, name) && name !in edges[0].targets {
        var i :| 0 <= i < |edges| && name in edges[i].targets;
        assert name in edges[1..][i - 1].targets;
      }
    }
  }

  function SourceNames(edges: seq<Edge>): set<string> {
    if |edges| == 0 then {} else {edges[0].source} + SourceNames(edges[1..])
  }

  /** Every source is in `sources` and every target in `known`. */
  predicate EdgesKnown(edges: seq<Edge>, sources: set<string>, known: set<string>) {
    && (forall i :: 0 <= i < |edges| ==> edges[i].source in sources)
    && (forall i, j :: 0 <= i < |edges| && 0 <= j < |edges[i].targets| ==> edges[i].targets[j] in known)
  }

  /** Which map an edge list comes from: it decides the error an unknown
      source raises. */
  datatype Side = StimulusSide | AreaSide

  function UnknownSource(side: Side, name: string): Exception {
    match side
    case StimulusSide => UnknownStimulus(name)
    case AreaSide => UnknownArea(name)
  }

  /** An error that names an offending identifier of `edges`: a source
      outside `sources`, or a target outside `known`. */
  predicate NamesCulprit(edges: seq<Edge>, side: Side, sources: set<string>, known: set<string>, e: Exception) {
    match e
    case UnknownStimulus(x) => side == StimulusSide && x in SourceNames(edges) && x !in sources
    case UnknownArea(x) =>
      || (side == AreaSide && x in SourceNames(edges) && x !in sources)
      || (|SourcesInto(edges, x)| > 0 && x !in known)
    case _ => false
  }

  /** The inner loop: append `source` to the input list of each target, in
      order, failing at the first target that is not a known area. */
  function AddSource(source: string, targets: seq<string>, known: set<string>, acc: InputLists): (r: Result<InputLists>)
    decreases |targets|
  {
    if |targets| == 0 then Ok(acc)
    else if targets[0] !in known then Err(UnknownArea(targets[0]))
    else AddSource(source, targets[1..], known, acc[targets[0] := Get(acc, targets[0]) + [source]])
  }

  /** The inner loop succeeds exactly when every target is known, and
      otherwise names an unknown target. */
  lemma {:induction false} AddSourceChecks(source: string, targets: seq<string>, known: set<string>, acc: InputLists)
    ensures var r := AddSource(source, targets, known, acc);
      && (r.Ok? <==> forall j :: 0 <= j < |targets| ==> targets[j] in known)
      && (r.Err? ==> r.error.UnknownArea? && r.error.name in targets && r.error.name !in known)
    decreases |targets|
  {
    if |targets| > 0 && targets[0] in known {
      var rest := targets[1..];
      AddSourceChecks(source, rest, known, acc[targets[0] := Get(acc, targets[0]) + [source]]);
      assert forall j :: 1 <= j < |targets| ==> targets[j] == rest[j - 1];
    }
  }

  /** On success, the list of target `a` has gained `source` once per
      occurrence of `a` among the targets. */
  lemma {:induction false} AddSourceListAt(source: string, targets: seq<string>, known: set<string>, acc: InputLists, a: string)
    requires AddSource(source, targets, known, acc).Ok?
    ensures Get(AddSource(source, targets, known, acc).value, a) == Get(acc, a) + Repeat(source, Count(targets, a))
    decreases |targets|
  {
    if |targets| > 0 {
      var t := targets[0];
      var rest := targets[1..];
      var acc' := acc[t := Get(acc, t) + [source]];
      AddSourceListAt(source, rest, known, acc', a);
      if t == a {
        assert Repeat(source, Count(targets, a)) == [source] + Repeat(source, Count(rest, a));
        assert Get(acc', a) == Get(acc, a) + [source];
      } else {
        assert Get(acc', a) == Get(acc, a);
      }
    }
  }

  /** On success, the targets with a list are the old ones and the new. */
  lemma {:induction false} AddSourceKeys(source: string, targets: seq<string>, known: set<string>, acc: InputLists, a: string)
    requires AddSource(source, targets, known, acc).Ok?
    ensures a in AddSource(source, targets, known, acc).value <==> a in acc || a in targets
    decreases |targets|
  {
    if |targets| > 0 {
      var t := targets[0];
      var rest := targets[1..];
      AddSourceKeys(source, rest, known, acc[t := Get(acc, t) + [source]], a);
      assert targets == [t] + rest;
    }
  }

  /** The inner loop succeeds exactly when every target is known; it then
      appends `source` once per occurrence of each target, and otherwise
      names a listed target that is not known. */
  lemma AddSourceSpec(source: string, targets: seq<string>, known: set<string>, acc: InputLists)
    ensures var r := AddSource(source, targets, known, acc);
      && (r.Ok? <==> forall j :: 0 <= j < |targets| ==> targets[j] in known)
      && (r.Ok? ==> forall a :: Get(r.value, a) == Get(acc, a) + Repeat(source, Count(targets, a)))
      && (r.Ok? ==> forall a :: a in r.value <==> a in acc || a in targets)
      && (r.Err? ==> r.error.UnknownArea? && r.error.name in targets && r.error.name !in known)
  {
    AddSourceChecks(source, targets, known, acc);
    if AddSource(source, targets, known, acc).Ok? {
      forall a ensures Get(AddSource(source, targets, known, acc).value, a) == Get(acc, a) + Repeat(source, Count(targets, a)) {
        AddSourceListAt(source, targets, known, acc, a);
      }
      forall a ensures a in AddSource(source, targets, known, acc).value <==> a in acc || a in targets {
        AddSourceKeys(source, targets, known, acc, a);
      }
    }
  }


  /** The outer loop of one validation pass: each source must be in
      `sources`, then its targets are appended as above. */
  function Invert(edges: seq<Edge>, side: Side, sources: set<string>, known: set<string>, acc: InputLists): (r: Result<InputLists>)
    decreases |edges|
  {
    if |edges| == 0 then Ok(acc)
    else if edges[0].source !in sources then Err(UnknownSource(side, edges[0].source))
    else
      var acc' :- AddSource(edges[0].source, edges[0].targets, known, acc);
      Invert(edges[1..], side, sources, known, acc')
  }

  lemma EdgesKnownCons(edges: seq<Edge>, sources: set<string>, known: set<string>)
    requires |edges| > 0
    ensures EdgesKnown(edges, sources, known) <==>
      && edges[0].source in sources
      && (forall j :: 0 <= j < |edges[0].targets| ==> edges[0].targets[j] in known)
      && EdgesKnown(edges[1..], sources, known)
  {
    if EdgesKnown(edges[1..], sources, known) {
      forall i, j | 0 <= i < |edges| && 0 <= j < |edges[i].targets| && i > 0 ensures edges[i].targets[j] in known {
        assert edges[i] == edges[1..][i - 1];
      }
      forall i | 0 <= i < |edges| && i > 0 ensures edges[i].source in sources {
        assert edges[i] == edges[1..][i - 1];
      }
    }
    if EdgesKnown(edges, sources, known) {
      forall i | 0 <= i < |edges[1..]| ensures edges[1..][i].source in sources {
        assert edges[1..][i] == edges[i + 1];
      }
      forall i, j | 0 <= i < |edges[1..]| && 0 <= j < |edges[1..][i].targets|
        ensures edges[1..][i].targets[j] in known
      {
        assert edges[1..][i] == edges[i + 1];
      }
    }
  }

  /** One pass succeeds exactly when every name is known. */
  lemma {:induction false} InvertSucceeds(edges: seq<Edge>, side: Side, sources: set<string>, known: set<string>, acc: InputLists)
    ensures Invert(edges, side, sources, known, acc).Ok? <==> EdgesKnown(edges, sources, known)
    decreases |edges|
  {
    if |edges| > 0 {
      EdgesKnownCons(edges, sources, known);
      AddSourceSpec(edges[0].source, edges[0].targets, known, acc);
      var step := AddSource(edges[0].source, edges[0].targets, known, acc);
      if edges[0].source in sources && step.Ok? {
        InvertSucceeds(edges[1..], side, sources, known, step.value);
      }
    }
  }

  /** A successful pass yields, for every area, the reference input list
      appended to what `acc` held. */
  lemma {:induction false} InvertLists(edges: seq<Edge>, side: Side, sources: set<string>, known: set<string>, acc: InputLists)
    requires Invert(edges, side, sources, known, acc).Ok?
    ensures forall a :: Get(Invert(edges, side, sources, known, acc).value, a) == Get(acc, a) + SourcesInto(edges, a)
    decreases |edges|
  {
    if |edges| > 0 {
      var e0 := edges[0];
      AddSourceSpec(e0.source, e0.targets, known, acc);
      var step := AddSource(e0.source, e0.targets, known, acc).value;
      assert Invert(edges, side, sources, known, acc) == Invert(edges[1..], side, sources, known, step);
      InvertLists(edges[1..], side, sources, known, step);
      forall a ensures Get(Invert(edges, side, sources, known, acc).value, a) == Get(acc, a) + SourcesInto(edges, a) {
        assert SourcesInto(edges, a) == Repeat(e0.source, Count(e0.targets, a)) + SourcesInto(edges[1..], a);
        assert Get(step, a) == Get(acc, a) + Repeat(e0.source, Count(e0.targets, a));
      }
    }
  }

  /** After a successful pass an area has an entry exactly when `acc` had
      one or some edge targets it. */
  lemma {:induction false} InvertKeys(edges: seq<Edge>, side: Side, sources: set<string>, known: set<string>, acc: InputLists)
    requires Invert(edges, side, sources, known, acc).Ok?
    ensures forall a :: a in Invert(edges, side, sources, known, acc).value <==> a in acc || |SourcesInto(edges, a)| > 0
    decreases |edges|
  {
    if |edges| > 0 {
      var e0 := edges[0];
      AddSourceSpec(e0.source, e0.targets, known, acc);
      var step := AddSource(e0.source, e0.targets, known, acc).value;
      assert Invert(edges, side, sources, known, acc) == Invert(edges[1..], side, sources, known, step);
      InvertKeys(edges[1..], side, sources, known, step);
      forall a ensures |SourcesInto(edges, a)| > 0 <==> a in e0.targets || |SourcesInto(edges[1..], a)| > 0 {
        assert SourcesInto(edges, a) == Repeat(e0.source, Count(e0.targets, a)) + SourcesInto(edges[1..], a);
      }
    }
  }

  /** A failing pass names an offending identifier. */
  lemma {:induction false} InvertNamesCulprit(edges: seq<Edge>, side: Side, sources: set<string>, known: set<string>, acc: InputLists)
    requires Invert(edges, side, sources, known, acc).Err?
    ensures NamesCulprit(edges, side, sources, known, Invert(edges, side, sources, known, acc).error)
    decreases |edges|
  {
    var e0 := edges[0];
    if e0.source !in sources {
      assert e0.source in SourceNames(edges);
    } else {
      AddSourceSpec(e0.source, e0.targets, known, acc);
      var step := AddSource(e0.source, e0.targets, known, acc);
      if step.Err? {
        assert Count(e0.targets, step.error.name) > 0;
      } else {
        InvertNamesCulprit(edges[1..], side, sources, known, step.value);
        assert SourceNames(edges[1..]) <= SourceNames(edges);
      }
    }
  }

  /** The validation and inversion loops of `project`: `stim_to_area`
      first, then `area_to_area`, each against the brain's names. */
  function Collect(b: Brain, stimToArea: seq<Edge>, areaToArea: seq<Edge>): Result<(InputLists, InputLists)> {
    var stimIn :- Invert(stimToArea, StimulusSide, b.stimuli.Keys, KnownNames(b), map[]);
    var areaIn :- Invert(areaToArea, AreaSide, b.areas.Keys, KnownNames(b), map[]);
    Ok((stimIn, areaIn))
  }

  /** `to_update`'s names: every area that receives some input. */
  function Targeted(inputs: (InputLists, InputLists)): set<string> {
    inputs.0.Keys + inputs.1.Keys
  }

  /** Validation fails exactly when a stimulus source is not a stimulus,
      an area source is not a regular area (an output area is never a
      source), or a target is neither kind of area, and the error names
      such an identifier. On success `stim_in[a]` and `area_in[a]` are the
      reference input lists, and the targeted names are exactly the names
      some edge targets. */
  lemma CollectSpec(b: Brain, stimToArea: seq<Edge>, areaToArea: seq<Edge>)
    ensures var r := Collect(b, stimToArea, areaToArea);
      r.Ok? <==> EdgesKnown(stimToArea, b.stimuli.Keys, KnownNames(b)) && EdgesKnown(areaToArea, b.areas.Keys, KnownNames(b))
    ensures var r := Collect(b, stimToArea, areaToArea);
      r.Ok? ==> forall a :: Get(r.value.0, a) == SourcesInto(stimToArea, a) && Get(r.value.1, a) == SourcesInto(areaToArea, a)
    ensures var r := Collect(b, stimToArea, areaToArea);
      r.Ok? ==> forall a :: a in Targeted(r.value) <==> Targets(stimToArea, a) || Targets(areaToArea, a)
    ensures var r := Collect(b, stimToArea, areaToArea);
      r.Err? ==>
        || NamesCulprit(stimToArea, StimulusSide, b.stimuli.Keys, KnownNames(b), r.error)
        || NamesCulprit(areaToArea, AreaSide, b.areas.Keys, KnownNames(b), r.error)
  {
    var known := KnownNames(b);
    var stim := Invert(stimToArea, StimulusSide, b.stimuli.Keys, known, map[]);
    InvertSucceeds(stimToArea, StimulusSide, b.stimuli.Keys, known, map[]);
    if stim.Err? {
      InvertNamesCulprit(stimToArea, StimulusSide, b.stimuli.Keys, known, map[]);
    } else {
      InvertLists(stimToArea, StimulusSide, b.stimuli.Keys, known, map[]);
      InvertKeys(stimToArea, StimulusSide, b.stimuli.Keys, known, map[]);
      var area := Invert(areaToArea, AreaSide, b.areas.Keys, known, map[]);
      InvertSucceeds(areaToArea, AreaSide, b.areas.Keys, known, map[]);
      if area.Err? {
        InvertNamesCulprit(areaToArea, AreaSide, b.areas.Keys, known, map[]);
      } else {
        InvertLists(areaToArea, AreaSide, b.areas.Keys, known, map[]);
        InvertKeys(areaToArea, AreaSide, b.areas.Keys, known, map[]);
        forall a ensures a in Targeted((stim.value, area.value)) <==> Targets(stimToArea, a) || Targets(areaToArea, a) {
          SourcesIntoNonEmpty(stimToArea, a);
          SourcesIntoNonEmpty(areaToArea, a);
        }
      }
    }
  }

  /** A name a known edge list targets is known. */
  lemma TargetsAreKnown(edges: seq<Edge>, sources: set<string>, known: set<string>, a: string)
    requires EdgesKnown(edges, sources, known) && Targets(edges, a)
    ensures a in known
  {
    var i :| 0 <= i < |edges| && a in edges[i].targets;
    var j :| 0 <= j < |edges[i].targets| && edges[i].targets[j] == a;
  }

  /** `order` lists each name of `names` exactly once. */
  predicate Lists(order: seq<string>, names: set<string>) {
    && (forall i, j :: 0 <= i < j < |order| ==> order[i] != order[j])
    && (forall n :: n in names ==> n in order)
    && (forall i :: 0 <= i < |order| ==> order[i] in names)
  }

  predicate AllKnown(b: Brain, order: seq<string>) {
    forall i :: 0 <= i < |order| ==> Known(b, order[i])
  }

  /** A successful validation targets only known names. */
  lemma TargetedAreKnown(b: Brain, stimToArea: seq<Edge>, areaToArea: seq<Edge>, order: seq<string>)
    requires Collect(b, stimToArea, areaToArea).Ok?
    requires Lists(order, Targeted(Collect(b, stimToArea, areaToArea).value))
    ensures AllKnown(b, order)
  {
    CollectSpec(b, stimToArea, areaToArea);
    forall i | 0 <= i < |order| ensures Known(b, order[i]) {
      if Targets(stimToArea, order[i]) {
        TargetsAreKnown(stimToArea, b.stimuli.Keys, KnownNames(b), order[i]);
      } else {
        TargetsAreKnown(areaToArea, b.areas.Keys, KnownNames(b), order[i]);
      }
    }
  }

  /** The object `to_update` holds for a name: the output area when there
      is one, the regular area otherwise. */
  function Lookup(b: Brain, name: string): Area
    requires Known(b, name)
  {
    if name in b.outputAreas then b.outputAreas[name] else b.areas[name]
  }

  /** Same names, same everything outside the areas, and regular areas
      that an output area of the same name hides from `project` unchanged. */
  predicate SameFrame(r: Brain, b: Brain) {
    && r.areas.Keys == b.areas.Keys && r.outputAreas.Keys == b.outputAreas.Keys
    && r.stimuli == b.stimuli && r.p == b.p && r.mode == b.mode
    && r.stimuliConnectomes == b.stimuliConnectomes && r.connectomes == b.connectomes
    && r.outputStimuliConnectomes == b.outputStimuliConnectomes && r.outputConnectomes == b.outputConnectomes
    && (forall n :: n in b.areas && n in b.outputAreas ==> r.areas[n] == b.areas[n])
  }

  /** Writing back the object `Lookup` returned. */
  function Store(b: Brain, name: string, a: Area): (r: Brain)
    requires Known(b, name)
    ensures r.areas.Keys == b.areas.Keys && r.outputAreas.Keys == b.outputAreas.Keys
  {
    if name in b.outputAreas then b.(outputAreas := b.outputAreas[name := a])
    else b.(areas := b.areas[name := a])
  }

  /** Writing back changes the stored area and nothing else. */
  lemma StoreSpec(b: Brain, name: string, a: Area)
    requires Known(b, name)
    ensures SameFrame(Store(b, name, a), b)
    ensures forall n :: Known(b, n) ==> Lookup(Store(b, name, a), n) == if n == name then a else Lookup(b, n)
  {
    StoreFrame(b, name, a);
    forall n | Known(b, n) {
      StoreLookupAt(b, name, a, n);
    }
  }

  /** Writing back leaves the frame alone. */
  lemma StoreFrame(b: Brain, name: string, a: Area)
    requires Known(b, name)
    ensures SameFrame(Store(b, name, a), b)
  {
  }

  /** Writing back, seen from one name. */
  lemma StoreLookupAt(b: Brain, name: string, a: Area, n: string)
    requires Known(b, name) && Known(b, n)
    ensures Lookup(Store(b, name, a), n) == if n == name then a else Lookup(b, n)
  {
    if name in b.outputAreas {
      assert Store(b, name, a).outputAreas == b.outputAreas[name := a];
    } else {
      assert Store(b, name, a).areas == b.areas[name := a];
    }
  }

  /** What `project_into` yields for one area. */
  datatype Pending = Pending(newWinners: seq<int>, newSupportSize: int, numFirstWinners: int)

  type Engine = (Brain, Area, seq<string>, seq<string>) -> Pending

  /** The area with the engine's result as its pending state. */
  function Pend(a: Area, p: Pending): Area {
    a.(newWinners := p.newWinners, newSupportSize := p.newSupportSize, numFirstWinners := p.numFirstWinners)
  }

  /** An area's committed state: the pending fields blanked out. */
  function SettledArea(a: Area): Area {
    a.(newWinners := [], newSupportSize := 0, numFirstWinners := -1)
  }

  /** Two brains that agree on everything but the areas' pending fields. */
  predicate SameSettled(r: Brain, b: Brain) {
    && SameFrame(r, b)
    && (forall n :: n in b.areas ==> SettledArea(r.areas[n]) == SettledArea(b.areas[n]))
    && (forall n :: n in b.outputAreas ==> SettledArea(r.outputAreas[n]) == SettledArea(b.outputAreas[n]))
  }

  /** The first `k` calls of the compute loop: each writes the engine's
      result into its area's pending fields. */
  function Computed(b: Brain, order: seq<string>, k: nat, inputs: (InputLists, InputLists), engine: Engine): (r: Brain)
    requires AllKnown(b, order) && k <= |order|
    ensures r.areas.Keys == b.areas.Keys && r.outputAreas.Keys == b.outputAreas.Keys
    decreases k, 0
  {
    if k == 0 then b
    else
      var c := Computed(b, order, k - 1, inputs, engine);
      var name := order[k - 1];
      assert Known(c, name);
      Store(c, name, Pend(Lookup(c, name), CallAt(b, order, k - 1, inputs, engine)))
  }

  /** The `k`-th call of `project_into`: the brain as the first `k` calls
      left it, the target's area and the target's two input lists. */
  function CallAt(b: Brain, order: seq<string>, k: nat, inputs: (InputLists, InputLists), engine: Engine): Pending
    requires AllKnown(b, order) && k < |order|
    decreases k, 1
  {
    var c := Computed(b, order, k, inputs, engine);
    assert Known(c, order[k]);
    engine(c, Lookup(c, order[k]), Get(inputs.0, order[k]), Get(inputs.1, order[k]))
  }

  /** Writing a pending state into an area leaves the committed state alone. */
  lemma StorePendingKeepsSettled(c: Brain, name: string, p: Pending)
    requires Known(c, name)
    ensures SameSettled(Store(c, name, Pend(Lookup(c, name), p)), c)
  {
    var a := Lookup(c, name);
    StoreSpec(c, name, Pend(a, p));
    PendingKeepsSettledAreas(c, name, p);
  }

  /** The settled part of every area survives a pending write. */
  lemma PendingKeepsSettledAreas(c: Brain, name: string, p: Pending)
    requires Known(c, name)
    ensures var r := Store(c, name, Pend(Lookup(c, name), p));
      && (forall n :: n in c.areas ==> SettledArea(r.areas[n]) == SettledArea(c.areas[n]))
      && (forall n :: n in c.outputAreas ==> SettledArea(r.outputAreas[n]) == SettledArea(c.outputAreas[n]))
  {
    forall n {
      PendingKeepsSettledAt(c, name, p, n);
    }
  }

  /** The same, for the area or output area named `n`. */
  lemma PendingKeepsSettledAt(c: Brain, name: string, p: Pending, n: string)
    requires Known(c, name)
    ensures var r := Store(c, name, Pend(Lookup(c, name), p));
      && (n in c.areas ==> n in r.areas && SettledArea(r.areas[n]) == SettledArea(c.areas[n]))
      && (n in c.outputAreas ==> n in r.outputAreas && SettledArea(r.outputAreas[n]) == SettledArea(c.outputAreas[n]))
  {
    var a := Pend(Lookup(c, name), p);
    assert SettledArea(a) == SettledArea(Lookup(c, name));
    var r := Store(c, name, a);
    if name in c.outputAreas {
      assert r.areas == c.areas && r.outputAreas == c.outputAreas[name := a];
    } else {
      assert r.areas == c.areas[name := a] && r.outputAreas == c.outputAreas;
    }
  }

  /** One more pending write keeps a brain's committed state equal to `b`'s. */
  lemma PendingStepKeepsSettled(b: Brain, c: Brain, r: Brain, name: string, p: Pending)
    requires Known(c, name) && SameSettled(c, b)
    requires r == Store(c, name, Pend(Lookup(c, name), p))
    ensures SameSettled(r, b)
  {
    StorePendingKeepsSettled(c, name, p);
  }

  /** One step of the compute loop, unfolded. */
  lemma ComputedStep(b: Brain, order: seq<string>, k': nat, inputs: (InputLists, InputLists), engine: Engine)
    requires AllKnown(b, order) && k' < |order|
    ensures var c := Computed(b, order, k', inputs, engine);
      Known(c, order[k']) &&
      Computed(b, order, k' + 1, inputs, engine) == Store(c, order[k'], Pend(Lookup(c, order[k']), CallAt(b, order, k', inputs, engine)))
  {
  }

  /** The compute loop never changes an area's committed state, nor
      anything outside the areas. */
  lemma {:induction false} ComputeKeepsSettled(b: Brain, order: seq<string>, k: nat, inputs: (InputLists, InputLists), engine: Engine)
    requires AllKnown(b, order) && k <= |order|
    ensures SameSettled(Computed(b, order, k, inputs, engine), b)
  {
    if k > 0 {
      var k' := k - 1;
      ComputeKeepsSettled(b, order, k', inputs, engine);
      ComputedStep(b, order, k', inputs, engine);
      PendingStepKeepsSettled(b, Computed(b, order, k', inputs, engine), Computed(b, order, k, inputs, engine),
                              order[k'], CallAt(b, order, k', inputs, engine));
    }
  }

  /** What one write-back does to the lookups, for a brain `r` given by name. */
  lemma StoreLookups(c: Brain, r: Brain, name: string, a: Area)
    requires Known(c, name) && r == Store(c, name, a)
    ensures Lookup(r, name) == a
    ensures forall n :: Known(c, n) && n != name ==> Lookup(r, n) == Lookup(c, n)
  {
    StoreSpec(c, name, a);
  }

  /** A listed area is untouched by the calls before its own. */
  lemma {:induction false} UntouchedUntilItsCall(b: Brain, order: seq<string>, k: nat, inputs: (InputLists, InputLists), engine: Engine)
    requires AllKnown(b, order) && k <= |order|
    requires forall i, j :: 0 <= i < j < |order| ==> order[i] != order[j]
    ensures forall j :: k <= j < |order| ==> Lookup(Computed(b, order, k, inputs, engine), order[j]) == Lookup(b, order[j])
  {
    if k > 0 {
      var k' := k - 1;
      UntouchedUntilItsCall(b, order, k', inputs, engine);
      ComputedStep(b, order, k', inputs, engine);
      var c := Computed(b, order, k', inputs, engine);
      var r := Computed(b, order, k, inputs, engine);
      var name := order[k'];
      StoreLookups(c, r, name, Pend(Lookup(c, name), CallAt(b, order, k', inputs, engine)));
      forall j | k <= j < |order|
        ensures Lookup(r, order[j]) == Lookup(b, order[j])
      {
        assert order[k'] != order[j];
        assert Known(c, order[j]);
      }
    }
  }

  /** Every `project_into` call of a round sees the committed state the
      round started from, and is handed its target area exactly as it was
      before the round: no call observes a commit or another call's write
      to its own target. */
  lemma EveryCallSeesPreRoundState(b: Brain, order: seq<string>, k: nat, inputs: (InputLists, InputLists), engine: Engine)
    requires AllKnown(b, order) && k < |order|
    requires forall i, j :: 0 <= i < j < |order| ==> order[i] != order[j]
    ensures var c := Computed(b, order, k, inputs, engine);
      SameSettled(c, b) && Lookup(c, order[k]) == Lookup(b, order[k]) &&
      CallAt(b, order, k, inputs, engine) == engine(c, Lookup(b, order[k]), Get(inputs.0, order[k]), Get(inputs.1, order[k]))
  {
    ComputeKeepsSettled(b, order, k, inputs, engine);
    UntouchedUntilItsCall(b, order, k, inputs, engine);
  }

  /** One call of the compute loop, seen from the area named `x`: the
      call's own area gets the engine's result as pending state, every
      other area stays as it was. */
  lemma StepLookup(b: Brain, order: seq<string>, k': nat, k: nat, inputs: (InputLists, InputLists), engine: Engine, x: string)
    requires AllKnown(b, order) && k == k' + 1 && k <= |order| && Known(b, x)
    ensures x == order[k'] ==>
      Lookup(Computed(b, order, k, inputs, engine), x) ==
        Pend(Lookup(Computed(b, order, k', inputs, engine), x), CallAt(b, order, k', inputs, engine))
    ensures x != order[k'] ==>
      Lookup(Computed(b, order, k, inputs, engine), x) == Lookup(Computed(b, order, k', inputs, engine), x)
  {
    ComputedStep(b, order, k', inputs, engine);
    var c := Computed(b, order, k', inputs, engine);
    var name := order[k'];
    assert Known(c, x);
    StoreLookups(c, Computed(b, order, k, inputs, engine), name, Pend(Lookup(c, name), CallAt(b, order, k', inputs, engine)));
  }

  /** An area none of the first `k` calls targets is as before the round. */
  lemma {:induction false} UntouchedBefore(b: Brain, order: seq<string>, k: nat, inputs: (InputLists, InputLists), engine: Engine, x: string)
    requires AllKnown(b, order) && k <= |order| && Known(b, x)
    requires forall i :: 0 <= i < k ==> order[i] != x
    ensures Lookup(Computed(b, order, k, inputs, engine), x) == Lookup(b, x)
  {
    if k > 0 {
      var k' := k - 1;
      UntouchedBefore(b, order, k', inputs, engine, x);
      StepLookup(b, order, k', k, inputs, engine, x);
    }
  }

  /** After the first `k` calls, the `j`-th listed area (`j < k`) holds its
      own call's result as pending state on top of its pre-round state. */
  lemma {:induction false} PendingAfterItsCall(b: Brain, order: seq<string>, k: nat, j: nat, inputs: (InputLists, InputLists), engine: Engine)
    requires AllKnown(b, order) && j < k <= |order|
    requires forall i :: 0 <= i < k && i != j ==> order[i] != order[j]
    ensures Lookup(Computed(b, order, k, inputs, engine), order[j]) == Pend(Lookup(b, order[j]), CallAt(b, order, j, inputs, engine))
  {
    var k' := k - 1;
    StepLookup(b, order, k', k, inputs, engine, order[j]);
    if j < k' {
      PendingAfterItsCall(b, order, k', j, inputs, engine);
      assert order[k'] != order[j];
    } else {
      UntouchedBefore(b, order, k', inputs, engine, order[j]);
    }
  }

  /** Absence from a prefix carries over to the shorter prefix and to the
      element that extends it. */
  lemma PrefixGrows<T>(s: seq<T>, k': nat, k: nat, x: T)
    requires k == k' + 1 <= |s| && x !in s[..k]
    ensures x !in s[..k'] && x != s[k']
  {
    assert s[..k] == s[..k'] + [s[k']];
  }

  /** The compute loop leaves every area it does not list untouched. */
  lemma {:induction false} UnlistedUntouched(b: Brain, order: seq<string>, k: nat, inputs: (InputLists, InputLists), engine: Engine)
    requires AllKnown(b, order) && k <= |order|
    ensures forall n :: Known(b, n) && n !in order[..k] ==> Lookup(Computed(b, order, k, inputs, engine), n) == Lookup(b, n)
  {
    if k > 0 {
      var k' := k - 1;
      UnlistedUntouched(b, order, k', inputs, engine);
      ComputedStep(b, order, k', inputs, engine);
      var c := Computed(b, order, k', inputs, engine);
      var r := Computed(b, order, k, inputs, engine);
      var name := order[k'];
      StoreLookups(c, r, name, Pend(Lookup(c, name), CallAt(b, order, k', inputs, engine)));
      forall n | Known(b, n) && n !in order[..k]
        ensures Lookup(r, n) == Lookup(b, n)
      {
        PrefixGrows(order, k', k, n);
        assert Known(c, n);
      }
    }
  }

  /** The first `k` calls of the commit loop. */
  function Commit(c: Brain, order: seq<string>, k: nat): (r: Brain)
    requires AllKnown(c, order) && k <= |order|
    ensures SameFrame(r, c)
    ensures forall n :: Known(c, n) ==> Lookup(r, n) == if n in order[..k] then UpdateWinners(Lookup(c, n)) else Lookup(c, n)
  {
    if k == 0 then c
    else
      var r := Commit(c, order, k - 1);
      var name := order[k - 1];
      assert Known(r, name);
      assert order[..k] == order[..k - 1] + [order[k - 1]];
      StoreSpec(r, name, UpdateWinners(Lookup(r, name)));
      Store(r, name, UpdateWinners(Lookup(r, name)))
  }

  /** `project`: validation first, raising before anything changes; then
      the compute loop over `order`, then the commit loop over `order`. */
  function Project(b: Brain, stimToArea: seq<Edge>, areaToArea: seq<Edge>, order: seq<string>, engine: Engine): (r: Call<Brain, ()>)
    requires Collect(b, stimToArea, areaToArea).Ok? ==> Lists(order, Targeted(Collect(b, stimToArea, areaToArea).value))
    ensures r.Raised? <==> Collect(b, stimToArea, areaToArea).Err?
    ensures r.Raised? ==> r.state == b && r.error == Collect(b, stimToArea, areaToArea).error
    ensures SameFrame(r.state, b)
  {
    match Collect(b, stimToArea, areaToArea)
    case Err(e) => Raised(b, e)
    case Ok(inputs) =>
      TargetedAreKnown(b, stimToArea, areaToArea, order);
      var c := Computed(b, order, |order|, inputs, engine);
      ComputeKeepsSettled(b, order, |order|, inputs, engine);
      Returned(Commit(c, order, |order|), ())
  }

  /** An engine that reads only committed state: brains that differ only
      in pending fields get the same result. */
  ghost predicate ReadsCommitted(engine: Engine) {
    forall b1: Brain, b2: Brain, a: Area, s: seq<string>, t: seq<string> ::
      SameSettled(b1, b2) ==> engine(b1, a, s, t) == engine(b2, a, s, t)
  }

  /** Inputs that `project` accepts, listed in some iteration order. */
  predicate Accepted(b: Brain, stimToArea: seq<Edge>, areaToArea: seq<Edge>, order: seq<string>) {
    Collect(b, stimToArea, areaToArea).Ok? && Lists(order, Targeted(Collect(b, stimToArea, areaToArea).value))
  }

  /** An accepted round returns the committed result of the compute loop. */
  lemma ProjectUnfolds(b: Brain, stimToArea: seq<Edge>, areaToArea: seq<Edge>, order: seq<string>, engine: Engine)
    requires Accepted(b, stimToArea, areaToArea, order)
    ensures AllKnown(b, order)
    ensures var c := Computed(b, order, |order|, Collect(b, stimToArea, areaToArea).value, engine);
      AllKnown(c, order) && Project(b, stimToArea, areaToArea, order, engine) == Returned(Commit(c, order, |order|), ())
  {
    TargetedAreKnown(b, stimToArea, areaToArea, order);
  }

  /** With an engine that reads committed state, the compute loop leaves
      the `j`-th listed area pending with the result of the engine run on
      the pre-round brain. */
  lemma ComputedWithCommittedReads(b: Brain, order: seq<string>, j: nat, inputs: (InputLists, InputLists), engine: Engine)
    requires AllKnown(b, order) && j < |order|
    requires forall i, i' :: 0 <= i < i' < |order| ==> order[i] != order[i']
    requires ReadsCommitted(engine)
    ensures var n := order[j];
      Lookup(Computed(b, order, |order|, inputs, engine), n) == Pend(Lookup(b, n), engine(b, Lookup(b, n), Get(inputs.0, n), Get(inputs.1, n)))
  {
    PendingAfterItsCall(b, order, |order|, j, inputs, engine);
    EveryCallSeesPreRoundState(b, order, j, inputs, engine);
  }

  /** The compute loop followed by the commit loop, seen from one area:
      a listed area gets its own engine result on the pre-round brain,
      committed; an unlisted one is unchanged. */
  lemma RoundLookup(b: Brain, order: seq<string>, inputs: (InputLists, InputLists), engine: Engine, n: string)
    requires AllKnown(b, order) && Known(b, n)
    requires forall i, i' :: 0 <= i < i' < |order| ==> order[i] != order[i']
    requires ReadsCommitted(engine)
    ensures var c := Computed(b, order, |order|, inputs, engine);
      AllKnown(c, order) && Known(c, n) &&
      Lookup(Commit(c, order, |order|), n) ==
        if n in order then UpdateWinners(Pend(Lookup(b, n), engine(b, Lookup(b, n), Get(inputs.0, n), Get(inputs.1, n))))
        else Lookup(b, n)
  {
    var c := Computed(b, order, |order|, inputs, engine);
    assert Known(c, n);
    assert order[..|order|] == order;
    if n in order {
      var j :| 0 <= j < |order| && order[j] == n;
      ComputedWithCommittedReads(b, order, j, inputs, engine);
    } else {
      UnlistedUntouched(b, order, |order|, inputs, engine);
    }
  }

  /** A round is simultaneous: with an engine that reads committed state,
      the area named `n` ends the round as if its projection had been
      computed alone on the brain the round started from, from exactly the
      stimuli and areas the two maps send into it, and then committed; an
      area that receives no input is unchanged. The iteration order of
      the targeted names makes no difference. */
  lemma ProjectIsSimultaneous(b: Brain, stimToArea: seq<Edge>, areaToArea: seq<Edge>, order: seq<string>, engine: Engine, n: string)
    requires Accepted(b, stimToArea, areaToArea, order)
    requires ReadsCommitted(engine)
    requires Known(b, n)
    ensures Project(b, stimToArea, areaToArea, order, engine).Returned?
    ensures Lookup(Project(b, stimToArea, areaToArea, order, engine).state, n) ==
      if Targets(stimToArea, n) || Targets(areaToArea, n) then
        UpdateWinners(Pend(Lookup(b, n), engine(b, Lookup(b, n), SourcesInto(stimToArea, n), SourcesInto(areaToArea, n))))
      else Lookup(b, n)
  {
    var inputs := Collect(b, stimToArea, areaToArea).value;
    CollectSpec(b, stimToArea, areaToArea);
    ProjectUnfolds(b, stimToArea, areaToArea, order, engine);
    RoundLookup(b, order, inputs, engine, n);
    assert n in order <==> n in Targeted(inputs);
  }

  /** `project_into` as this source defines it: it leaves the target's
      pending winners and support size alone and returns 0, which becomes
      `num_first_winners`. */
  function StubEngine(b: Brain, a: Area, fromStimuli: seq<string>, fromAreas: seq<string>): (p: Pending)
    ensures Pend(a, p) == a.(numFirstWinners := 0)
  {
    Pending(a.newWinners, a.newSupportSize, 0)
  }

  /** With the stub engine a round sets `num_first_winners` to 0 in every
      targeted area and commits its pending winners; every other area is
      unchanged. */
  lemma ProjectWithStubEngine(b: Brain, stimToArea: seq<Edge>, areaToArea: seq<Edge>, order: seq<string>, n: string)
    requires Accepted(b, stimToArea, areaToArea, order)
    requires Known(b, n)
    ensures Lookup(Project(b, stimToArea, areaToArea, order, StubEngine).state, n) ==
      if Targets(stimToArea, n) || Targets(areaToArea, n) then UpdateWinners(Lookup(b, n).(numFirstWinners := 0))
      else Lookup(b, n)
  {
    ProjectIsSimultaneous(b, stimToArea, areaToArea, order, StubEngine, n);
  }
}

=== FILE: training_data_set_base.dfy ===
/** `DataSetBase` of learning/training/lib: the shared `__next__` of the
    data sets whose `_next` issues bare output values. It checks that the
    value is boolean and XORs it with a noise bit drawn on every call. */
module TrainingDataSetBase {
  import opened Outcomes
  import opened DataPoints
  import opened Bits

  /** `__next__` of a subclass whose `_next` is `next` and whose
      `current_input_value` is `current`. `noise` is the outcome of
      `np.random.binomial(1, p)`. `__iter__` returns the iterator itself, so
      iterating the data set is calling this repeatedly. */
  function Next<S>(s: S, next: S -> Call<S, int>, current: S -> int, noise: Bit): (r: Call<S, int>)
    ensures r.state == next(s).state
    ensures next(s).Raised? ==> r == Raised(next(s).state, next(s).error)
    ensures next(s).Returned? && !IsBool(next(s).value) ==>
      r == Raised(next(s).state, DataSetValueError(current(next(s).state), IntValue(next(s).value)))
    ensures next(s).Returned? && IsBool(next(s).value) ==>
      r.Returned? && IsBool(r.value) && (r.value == next(s).value <==> noise == 0)
  {
    match next(s)
    case Raised(s', e) => Raised(s', e)
    case Returned(s', v) =>
      if !IsBool(v) then Raised(s', DataSetValueError(current(s'), IntValue(v)))
      else Returned(s', Xor(v, noise))
  }
}

=== FILE: training_set.dfy ===
/** `TrainingSet` of learning/data_set/lib: issues `length` data points of a
    base data set, each at an input drawn uniformly at random and redrawn
    until the mask puts it in the training set. The random draws are the
    model's input: `draws` lists the values `random.randint(0, range_max)`
    returns during one call. */
module TrainingSet {
  import opened Outcomes
  import opened DataPoints
  import opened Bits
  import ExplicitMask
  import BasicDataSetBase

  /** `count_left` is `None` when the set was built without a length. */
  datatype TrainingSet = TrainingSet(mask: ExplicitMask.ExplicitMask, countLeft: Option<int>, rangeMax: int, noiseProbability: real)

  function New(domainSize: nat, mask: ExplicitMask.ExplicitMask, length: Option<int>, noiseProbability: real): (s: TrainingSet)
    ensures s.rangeMax == Pow2(domainSize) - 1 && s.countLeft == length
  {
    TrainingSet(mask, length, Pow2(domainSize) - 1, noiseProbability)
  }

  /** The position of the first draw the mask does not reject (one in the
      training set or one with an invalid mask value), `|draws|` if it
      rejects them all. */
  function FirstDecided(mask: ExplicitMask.ExplicitMask, draws: seq<int>, lo: nat): (k: nat)
    requires lo <= |draws|
    ensures lo <= k <= |draws|
    ensures forall j :: lo <= j < k ==> ExplicitMask.InTrainingSet(mask, draws[j]) == Ok(false)
    ensures k < |draws| ==> ExplicitMask.InTrainingSet(mask, draws[k]) != Ok(false)
    decreases |draws| - lo
  {
    if lo == |draws| || ExplicitMask.InTrainingSet(mask, draws[lo]) != Ok(false) then lo
    else FirstDecided(mask, draws, lo + 1)
  }

  /** The loop `while not mask_value: index = randint(...); mask_value =
      in_training_set(index)` run over `draws`: the first draw in the
      training set, the first mask error, or `None` when every supplied
      draw was rejected and the loop would go on drawing. */
  function Sample(mask: ExplicitMask.ExplicitMask, draws: seq<int>): (r: Option<Result<int>>)
    ensures r.None? <==> forall j :: 0 <= j < |draws| ==> ExplicitMask.InTrainingSet(mask, draws[j]) == Ok(false)
    ensures r.Some? ==>
      exists k :: 0 <= k < |draws|
        && (forall j :: 0 <= j < k ==> ExplicitMask.InTrainingSet(mask, draws[j]) == Ok(false))
        && (if r.value.Ok?
            then draws[k] == r.value.value && ExplicitMask.InTrainingSet(mask, draws[k]) == Ok(true)
            else ExplicitMask.InTrainingSet(mask, draws[k]) == Err(r.value.error))
  {
    var k := FirstDecided(mask, draws, 0);
    if k == |draws| then None
    else match ExplicitMask.InTrainingSet(mask, draws[k])
      case Ok(_) => Some(Ok(draws[k]))
      case Err(e) => Some(Err(e))
  }

  /** Every draw is a value of `random.randint(0, range_max)`. */
  predicate DrawsInRange(rangeMax: int, draws: seq<int>) {
    forall k :: 0 <= k < |draws| ==> 0 <= draws[k] <= rangeMax
  }

  /** `_next`, with `item` the base data set's `__getitem__`. `None` when
      the draws end before the sampling loop stops. */
  function NextPoint(s: TrainingSet, draws: seq<int>, item: int -> Result<int>): (r: Option<Call<TrainingSet, DataPoint>>)
    requires DrawsInRange(s.rangeMax, draws)
    ensures s.countLeft == Some(0) ==> r == Some(Raised(s, StopIteration))
    ensures r.Some? && r.value.Returned? ==>
      && 0 <= r.value.value.input <= s.rangeMax
      && ExplicitMask.InTrainingSet(s.mask, r.value.value.input) == Ok(true)
      && item(r.value.value.input) == Ok(r.value.value.output)
      && s.countLeft.Some? && s.countLeft.value != 0
      && r.value.state == s.(countLeft := Some(s.countLeft.value - 1))
    ensures s.countLeft.None? && r.Some? ==> r.value.Raised?
    ensures r.Some? && r.value.Returned? ==> Sample(s.mask, draws) == Some(Ok(r.value.value.input))
    ensures s.countLeft != Some(0) ==> (r.None? <==> Sample(s.mask, draws).None?)
    ensures s.countLeft != Some(0) && Sample(s.mask, draws).Some? && Sample(s.mask, draws).value.Err? ==>
      r == Some(Raised(s, Sample(s.mask, draws).value.error))
    ensures s.countLeft.None? && Sample(s.mask, draws).Some? && Sample(s.mask, draws).value.Ok? ==>
      r == Some(Raised(s, TypeError))
    ensures (&& s.countLeft.Some? && s.countLeft.value != 0
             && Sample(s.mask, draws).Some? && Sample(s.mask, draws).value.Ok?
             && item(Sample(s.mask, draws).value.value).Err?) ==>
      r == Some(Raised(s.(countLeft := Some(s.countLeft.value - 1)), item(Sample(s.mask, draws).value.value).error))
  {
    if s.countLeft == Some(0) then Some(Raised(s, StopIteration))
    else match Sample(s.mask, draws)
      case None => None
      case Some(Err(e)) => Some(Raised(s, e))
      case Some(Ok(index)) =>
        match s.countLeft
        case None => Some(Raised(s, TypeError))
        case Some(c) =>
          var s' := s.(countLeft := Some(c - 1));
          match item(index)
          case Ok(v) => Some(Returned(s', DataPoint(index, v)))
          case Err(e) => Some(Raised(s', e))
  }

  /** `__next__` (from the base class of the `basic_types` package): the
      sampled point, checked for a boolean output and flipped by the noise
      draw. */
  function Next(s: TrainingSet, draws: seq<int>, item: int -> Result<int>, draw: bool): (r: Option<Call<TrainingSet, DataPoint>>)
    requires DrawsInRange(s.rangeMax, draws)
    ensures r.Some? && r.value.Returned? ==>
      && IsBool(r.value.value.output)
      && ExplicitMask.InTrainingSet(s.mask, r.value.value.input) == Ok(true)
      && s.countLeft.Some? && r.value.state.countLeft == Some(s.countLeft.value - 1)
    ensures r.None? <==> NextPoint(s, draws, item).None?
    ensures NextPoint(s, draws, item).Some? && NextPoint(s, draws, item).value.Raised? ==> r == NextPoint(s, draws, item)
    ensures r.Some? && r.value.Returned? ==>
      && Sample(s.mask, draws) == Some(Ok(r.value.value.input))
      && item(r.value.value.input).Ok?
      && (r.value.value.output != item(r.value.value.input).value <==> s.noiseProbability != 0.0 && draw)
    ensures (&& s.countLeft.Some? && s.countLeft.value != 0
             && Sample(s.mask, draws).Some? && Sample(s.mask, draws).value.Ok?
             && item(Sample(s.mask, draws).value.value).Ok?) ==>
      var i := Sample(s.mask, draws).value.value;
      var s' := s.(countLeft := Some(s.countLeft.value - 1));
      if IsBool(item(i).value) then r.Some? && r.value.Returned? && r.value.state == s' && r.value.value.input == i
      else r == Some(Raised(s', DataSetValueError(i, IntValue(item(i).value))))
  {
    match NextPoint(s, draws, item)
    case None => None
    case Some(c) =>
      Some(BasicDataSetBase.Next(s, (_: TrainingSet) => c,
                                 (t: TrainingSet) => BasicDataSetBase.Base(t.noiseProbability, -1), draw))
  }

  /** The points issued by successive `_next` calls, one list of draws per
      call, up to the first call that does not return a point. */
  function Emitted(s: TrainingSet, drawsPerCall: seq<seq<int>>, item: int -> Result<int>): seq<DataPoint>
    requires forall c :: 0 <= c < |drawsPerCall| ==> DrawsInRange(s.rangeMax, drawsPerCall[c])
    decreases |drawsPerCall|
  {
    if |drawsPerCall| == 0 then []
    else match NextPoint(s, drawsPerCall[0], item)
      case Some(Returned(s', p)) =>
        assert s'.rangeMax == s.rangeMax;
        [p] + Emitted(s', drawsPerCall[1..], item)
      case _ => []
  }

  /** A training set built with `length = n >= 0` issues at most `n`
      points, whatever the draws, and each of them lies in the training set. */
  lemma {:induction false} AtMostLength(s: TrainingSet, drawsPerCall: seq<seq<int>>, item: int -> Result<int>, n: int)
    requires forall c :: 0 <= c < |drawsPerCall| ==> DrawsInRange(s.rangeMax, drawsPerCall[c])
    requires s.countLeft == Some(n) && n >= 0
    ensures |Emitted(s, drawsPerCall, item)| <= n
    ensures forall k :: 0 <= k < |Emitted(s, drawsPerCall, item)| ==>
      ExplicitMask.InTrainingSet(s.mask, Emitted(s, drawsPerCall, item)[k].input) == Ok(true)
    decreases |drawsPerCall|
  {
    if |drawsPerCall| > 0 {
      match NextPoint(s, drawsPerCall[0], item)
      case Some(Returned(s', p)) =>
        assert s'.rangeMax == s.rangeMax && s'.mask == s.mask;
        AtMostLength(s', drawsPerCall[1..], item, n - 1);
      case _ =>
    }
  }
  /** Every call among the first `n` samples an index in the training set
      and the base data set reads a value there. */
  predicate SamplesSucceed(s: TrainingSet, drawsPerCall: seq<seq<int>>, item: int -> Result<int>, n: nat)
    requires n <= |drawsPerCall|
  {
    forall c :: 0 <= c < n ==>
      && Sample(s.mask, drawsPerCall[c]).Some? && Sample(s.mask, drawsPerCall[c]).value.Ok?
      && item(Sample(s.mask, drawsPerCall[c]).value.value).Ok?
  }

  /** The length decides how many points are issued: when each of the
      first `n` calls samples an index and reads its value, a set built
      with `length = n` issues exactly those `n` points, in order, and the
      call after them issues none (its count is 0, so it raises
      `StopIteration`), however many draws are supplied. */
  lemma {:induction false} ExactlyLength(s: TrainingSet, drawsPerCall: seq<seq<int>>, item: int -> Result<int>, n: nat)
    requires forall c :: 0 <= c < |drawsPerCall| ==> DrawsInRange(s.rangeMax, drawsPerCall[c])
    requires s.countLeft == Some(n) && n < |drawsPerCall|
    requires SamplesSucceed(s, drawsPerCall, item, n)
    ensures |Emitted(s, drawsPerCall, item)| == n
    ensures forall k :: 0 <= k < n ==>
      var i := Sample(s.mask, drawsPerCall[k]).value.value;
      Emitted(s, drawsPerCall, item)[k] == DataPoint(i, item(i).value)
    decreases n
  {
    if n == 0 {
      assert NextPoint(s, drawsPerCall[0], item) == Some(Raised(s, StopIteration));
    } else {
      var i := Sample(s.mask, drawsPerCall[0]).value.value;
      var s' := s.(countLeft := Some(n - 1));
      assert NextPoint(s, drawsPerCall[0], item) == Some(Returned(s', DataPoint(i, item(i).value)));
      var rest := drawsPerCall[1..];
      forall c | 0 <= c < n - 1
        ensures && Sample(s'.mask, rest[c]).Some? && Sample(s'.mask, rest[c]).value.Ok?
                && item(Sample(s'.mask, rest[c]).value.value).Ok?
      {
        assert rest[c] == drawsPerCall[c + 1];
      }
      ExactlyLength(s', rest, item, n - 1);
      assert Emitted(s, drawsPerCall, item) == [DataPoint(i, item(i).value)] + Emitted(s', rest, item);
      forall k | 0 <= k < n
        ensures var j := Sample(s.mask, drawsPerCall[k]).value.value;
          Emitted(s, drawsPerCall, item)[k] == DataPoint(j, item(j).value)
      {
        if k > 0 {
          assert rest[k - 1] == drawsPerCall[k];
        }
      }
    }
  }
}

=== FILE: training_set_base.dfy ===
/** `TrainingSetBase` of training/lib: the shared `__next__` of the
    training sets, which checks that the value `_next` issued is boolean
    and returns it as it is. */
module TrainingSetBase {
  import opened Outcomes
  import opened DataPoints
  import opened Bits
  import TrainingDataSetBase

  /** `__init__` as the subclasses reach it through `super().__init__(...)`:
      neither this class nor the abstract `TrainingSet` above it defines
      one, so the call lands on `object.__init__`, which rejects every
      keyword argument of a class that overrides `__init__`. */
  function Init(keywordArguments: seq<string>): (r: Option<Exception>)
    ensures r.None? <==> |keywordArguments| == 0
    ensures r.Some? ==> r.value == TypeError
  {
    if |keywordArguments| == 0 then None else Some(TypeError)
  }

  /** `__next__` of a subclass whose `_next` is `next` and whose
      `current_input_value` is `current`. No noise is applied. `__iter__`
      returns the iterator itself. */
  function Next<S>(s: S, next: S -> Call<S, int>, current: S -> int): (r: Call<S, int>)
    ensures r.state == next(s).state
    ensures next(s).Raised? ==> r == Raised(next(s).state, next(s).error)
    ensures next(s).Returned? && IsBool(next(s).value) ==> r == Returned(next(s).state, next(s).value)
    ensures next(s).Returned? && !IsBool(next(s).value) ==>
      r == Raised(next(s).state, DataSetValueError(current(next(s).state), IntValue(next(s).value)))
  {
    match next(s)
    case Raised(s', e) => Raised(s', e)
    case Returned(s', v) =>
      if !IsBool(v) then Raised(s', DataSetValueError(current(s'), IntValue(v)))
      else Returned(s', v)
  }

  /** The training-set base behaves as the data-set base of
      learning/training/lib whose noise draw came out 0. */
  lemma AgreesWithNoiseFreeDataSetBase<S>(s: S, next: S -> Call<S, int>, current: S -> int)
    ensures Next(s, next, current) == TrainingDataSetBase.Next(s, next, current, 0)
  {
  }
}

=== FILE: training_values_list.dfy ===
/** `ValuesListDataSet` of learning/training/lib: the data set of a boolean
    function given as the list of its outputs, issuing bare output values. */
module TrainingValuesListDataSet {
  import opened Outcomes
  import opened DataPoints
  import opened Bits
  import Cursor
  import TrainingDataSetBase

  datatype ValuesListDataSet = ValuesListDataSet(returnValues: seq<int>, domainSize: nat, noiseProbability: real, value: int)

  /** `_get_domain_size`: `log2(len)` for a power-of-two length,
      `DataSetSizeError` for any other non-empty list, the `ValueError` of
      `math.log(0, 2)` for an empty one. */
  function GetDomainSize(returnValues: seq<int>): (r: Result<nat>)
    ensures r.Ok? <==> |returnValues| > 0 && IsPowerOfTwo(|returnValues|)
    ensures r.Ok? ==> Pow2(r.value) == |returnValues|
    ensures |returnValues| == 0 ==> r == Err(MathDomainError)
    ensures |returnValues| > 0 && r.Err? ==> r.error == DataSetSizeError(|returnValues|)
  {
    Cursor.ListDomainSize(|returnValues|)
  }

  /** The constructor: the cursor starts at -1. */
  function New(returnValues: seq<int>, noiseProbability: real): (r: Result<ValuesListDataSet>)
    ensures r.Ok? <==> GetDomainSize(returnValues).Ok?
    ensures r.Ok? ==> CurrentInputValue(r.value) == -1 && r.value.returnValues == returnValues
    ensures r.Ok? ==> Pow2(r.value.domainSize) == |returnValues|
  {
    var d :- GetDomainSize(returnValues);
    Ok(ValuesListDataSet(returnValues, d, noiseProbability, Cursor.Start))
  }

  function CurrentInputValue(s: ValuesListDataSet): int {
    s.value
  }

  function Moved<V>(s: ValuesListDataSet, c: Call<int, V>): Call<ValuesListDataSet, V> {
    match c
    case Returned(v, x) => Returned(s.(value := v), x)
    case Raised(v, e) => Raised(s.(value := v), e)
  }

  /** `_next`: `StopIteration` once the cursor is on `2^d - 1`, otherwise
      the cursor moves by one and the list is read there. */
  function NextValue(s: ValuesListDataSet): (r: Call<ValuesListDataSet, int>)
    ensures Cursor.AtEnd(s.value, s.domainSize) ==> r == Raised(s, StopIteration)
    ensures !Cursor.AtEnd(s.value, s.domainSize) ==> CurrentInputValue(r.state) == s.value + 1
    ensures !Cursor.AtEnd(s.value, s.domainSize) && 0 <= s.value + 1 < |s.returnValues| ==>
      r == Returned(s.(value := s.value + 1), s.returnValues[s.value + 1])
  {
    Moved(s, Cursor.Step(s.value, s.domainSize, Cursor.ListAt(s.returnValues)))
  }

  /** A fresh data set's `_next` issues the list itself, in order, and then
      raises `StopIteration`; after `k` calls the cursor is `k - 1`. */
  lemma NextValueEnumerates(returnValues: seq<int>, noiseProbability: real, k: nat)
    requires New(returnValues, noiseProbability).Ok?
    requires k <= |returnValues|
    ensures var s := New(returnValues, noiseProbability).value;
      Cursor.Drain(s.value, s.domainSize, Cursor.ListAt(returnValues), |returnValues| + 1) ==
        Cursor.Drained(returnValues, Some(StopIteration), |returnValues| - 1)
    ensures var s := New(returnValues, noiseProbability).value;
      Cursor.Drain(s.value, s.domainSize, Cursor.ListAt(returnValues), k).cursor == k - 1
  {
    var s := New(returnValues, noiseProbability).value;
    Cursor.EnumeratesList(returnValues, s.domainSize);
    Cursor.CursorAfter(s.domainSize, Cursor.ListAt(returnValues), k);
  }

  /** `__next__`: the value `_next` issued, checked and XORed with `noise`. */
  function Next(s: ValuesListDataSet, noise: Bit): (r: Call<ValuesListDataSet, int>)
    ensures r.Returned? ==> IsBool(r.value) && CurrentInputValue(r.state) == s.value + 1
  {
    TrainingDataSetBase.Next(s, NextValue, CurrentInputValue, noise)
  }

  /** What `__next__` reads at input `i` when the noise drawn there is
      `noiseAt(i)`. */
  function OutputAt(values: seq<int>, noiseAt: int -> Bit): int -> Result<int> {
    i => match PyIndex(values, i)
      case Ok(v) => if IsBool(v) then Ok(Xor(v, noiseAt(i))) else Err(DataSetValueError(i, IntValue(v)))
      case Err(e) => Err(e)
  }

  /** One `__next__` is one cursor step reading the checked, noisy output. */
  lemma NextIsCursorStep(s: ValuesListDataSet, noiseAt: int -> Bit)
    ensures Next(s, noiseAt(s.value + 1)) == Moved(s, Cursor.Step(s.value, s.domainSize, OutputAt(s.returnValues, noiseAt)))
  {
  }

  /** A list of booleans is issued as `values[i] XOR noise(i)` in order,
      then `StopIteration`; without noise the list itself is issued. */
  lemma NextIssuesNoisyOutputs(returnValues: seq<int>, noiseProbability: real, noiseAt: int -> Bit)
    requires New(returnValues, noiseProbability).Ok?
    requires forall i :: 0 <= i < |returnValues| ==> IsBool(returnValues[i])
    ensures var s := New(returnValues, noiseProbability).value;
      var run := Cursor.Drain(s.value, s.domainSize, OutputAt(returnValues, noiseAt), |returnValues| + 1);
      && |run.values| == |returnValues|
      && (forall i :: 0 <= i < |returnValues| ==> run.values[i] == Xor(returnValues[i], noiseAt(i)))
      && ((forall i :: 0 <= i < |returnValues| ==> noiseAt(i) == 0) ==> run.values == returnValues)
      && run.stop == Some(StopIteration)
  {
    var s := New(returnValues, noiseProbability).value;
    forall i | 0 <= i < |returnValues| ensures OutputAt(returnValues, noiseAt)(i) == Ok(Xor(returnValues[i], noiseAt(i))) {
      assert PyIndex(returnValues, i) == Ok(returnValues[i]);
    }
    Cursor.EnumeratesDomain(s.domainSize, OutputAt(returnValues, noiseAt));
  }

  /** The first non-boolean value ends the run with `DataSetValueError`
      naming its index, after the values before it were issued. */
  lemma NextRejectsNonBoolean(returnValues: seq<int>, noiseProbability: real, noiseAt: int -> Bit, j: int)
    requires New(returnValues, noiseProbability).Ok?
    requires 0 <= j < |returnValues|
    requires forall i :: 0 <= i < j ==> IsBool(returnValues[i])
    requires !IsBool(returnValues[j])
    ensures var s := New(returnValues, noiseProbability).value;
      var run := Cursor.Drain(s.value, s.domainSize, OutputAt(returnValues, noiseAt), |returnValues| + 1);
      && |run.values| == j
      && run.stop == Some(DataSetValueError(j, IntValue(returnValues[j])))
      && run.cursor == j
  {
    var s := New(returnValues, noiseProbability).value;
    forall i | 0 <= i <= j ensures PyIndex(returnValues, i) == Ok(returnValues[i]) {
    }
    Cursor.StopsAtFirstFailure(s.domainSize, OutputAt(returnValues, noiseAt), j);
  }
}

=== FILE: values_list_data_set.dfy ===
/** `ValuesListDataSet` of learning/data_set/lib: the data set of a boolean
    function given as the list of its outputs, `return_values[i]` being the
    output for input `i`. Its base class `IndexedDataSet` is not part of this
    model; the cursor it keeps is taken to start at -1 like every other
    data set's. */
module ValuesListDataSet {
  import opened Outcomes
  import opened DataPoints
  import opened Bits
  import Cursor

  datatype ValuesListDataSet = ValuesListDataSet(returnValues: seq<int>, domainSize: nat, noiseProbability: real, value: int)

  /** `_get_domain_size`: the base-2 logarithm of the list's length, which
      must be a power of two; `log(0, 2)` of an empty list is a math domain
      error. */
  function GetDomainSize(returnValues: seq<int>): (r: Result<nat>)
    ensures r.Ok? <==> |returnValues| > 0 && IsPowerOfTwo(|returnValues|)
    ensures r.Ok? ==> Pow2(r.value) == |returnValues|
    ensures |returnValues| == 0 ==> r == Err(MathDomainError)
    ensures |returnValues| > 0 && r.Err? ==> r.error == DataSetSizeError(|returnValues|)
  {
    Cursor.ListDomainSize(|returnValues|)
  }

  /** The constructor: fails exactly when `_get_domain_size` does. */
  function New(returnValues: seq<int>, noiseProbability: real): (r: Result<ValuesListDataSet>)
    ensures r.Ok? <==> GetDomainSize(returnValues).Ok?
    ensures r.Ok? ==> Pow2(r.value.domainSize) == |r.value.returnValues| && r.value.value == Cursor.Start
    ensures r.Ok? ==> r.value.returnValues == returnValues
  {
    var d :- GetDomainSize(returnValues);
    Ok(ValuesListDataSet(returnValues, d, noiseProbability, Cursor.Start))
  }

  /** The point at input `i`: `return_values[i]` with Python subscription. */
  function PointAt(values: seq<int>): int -> Result<DataPoint> {
    i => match PyIndex(values, i)
      case Ok(v) => Ok(DataPoint(i, v))
      case Err(e) => Err(e)
  }

  function Moved<V>(s: ValuesListDataSet, c: Call<int, V>): Call<ValuesListDataSet, V> {
    match c
    case Returned(v, x) => Returned(s.(value := v), x)
    case Raised(v, e) => Raised(s.(value := v), e)
  }

  /** `_next`: raises `StopIteration` once the cursor is on `2^d - 1`,
      otherwise moves the cursor and issues `(i, return_values[i])`. */
  function NextPoint(s: ValuesListDataSet): (r: Call<ValuesListDataSet, DataPoint>)
    ensures Cursor.AtEnd(s.value, s.domainSize) ==> r == Raised(s, StopIteration)
    ensures !Cursor.AtEnd(s.value, s.domainSize) ==> r.state == s.(value := s.value + 1)
    ensures !Cursor.AtEnd(s.value, s.domainSize) && 0 <= s.value + 1 < |s.returnValues| ==>
      r == Returned(s.(value := s.value + 1), DataPoint(s.value + 1, s.returnValues[s.value + 1]))
  {
    Moved(s, Cursor.Step(s.value, s.domainSize, PointAt(s.returnValues)))
  }

  /** A freshly built data set issues `(i, return_values[i])` for every
      index of the list in order, `len(return_values)` points in all, and
      then raises `StopIteration` with the cursor on `2^d - 1`. */
  lemma NextPointEnumerates(returnValues: seq<int>, noiseProbability: real)
    requires New(returnValues, noiseProbability).Ok?
    ensures var s := New(returnValues, noiseProbability).value;
      var run := Cursor.Drain(s.value, s.domainSize, PointAt(s.returnValues), |returnValues| + 1);
      && |run.values| == |returnValues|
      && (forall i :: 0 <= i < |returnValues| ==> run.values[i] == DataPoint(i, returnValues[i]))
      && run.stop == Some(StopIteration)
      && run.cursor == Pow2(s.domainSize) - 1
  {
    var s := New(returnValues, noiseProbability).value;
    Cursor.EnumeratesDomain(s.domainSize, PointAt(s.returnValues));
  }

  /** `_get_item`: the point of input `item`, read with Python subscription;
      the cursor is untouched. */
  function GetItemPoint(s: ValuesListDataSet, item: int): (r: Result<DataPoint>)
    ensures 0 <= item < |s.returnValues| ==> r == Ok(DataPoint(item, s.returnValues[item]))
    ensures (item < -|s.returnValues| || |s.returnValues| <= item) ==> r == Err(ListIndexError(item))
  {
    PointAt(s.returnValues)(item)
  }
}

=== FILE: values_list_training_set.dfy ===
/** `ValuesListTrainingSet` of training/lib: the training set of a boolean
    function given as the list of its outputs. The constructor is
    modelled as written by `NewAsWritten`, which always raises; a training
    set is otherwise taken as built by `Fresh`, with its cursor at -1. */
module ValuesListTrainingSet {
  import opened Outcomes
  import opened DataPoints
  import opened Bits
  import Cursor
  import TrainingSetBase

  datatype ValuesListTrainingSet = ValuesListTrainingSet(returnValues: seq<int>, domainSize: nat, value: int)

  /** `_get_domain_size`: `log(len, 2)` when it is whole (the source keeps
      it as a float, which compares equal to the integer used here). */
  function GetDomainSize(returnValues: seq<int>): (r: Result<nat>)
    ensures r.Ok? <==> |returnValues| > 0 && IsPowerOfTwo(|returnValues|)
    ensures r.Ok? ==> Pow2(r.value) == |returnValues|
    ensures |returnValues| == 0 ==> r == Err(MathDomainError)
    ensures |returnValues| > 0 && r.Err? ==> r.error == DataSetSizeError(|returnValues|)
  {
    Cursor.ListDomainSize(|returnValues|)
  }

  /** The state right after construction, when the list's length is valid. */
  function Fresh(returnValues: seq<int>): (r: Result<ValuesListTrainingSet>)
    ensures r.Ok? <==> GetDomainSize(returnValues).Ok?
    ensures r.Ok? ==> CurrentInputValue(r.value) == -1 && Pow2(r.value.domainSize) == |returnValues|
    ensures r.Ok? ==> r.value.returnValues == returnValues
  {
    var d :- GetDomainSize(returnValues);
    Ok(ValuesListTrainingSet(returnValues, d, Cursor.Start))
  }

  /** `__init__` as written: `super().__init__(noise_probability=...)`
      comes first and raises, so nothing after it runs. */
  function NewAsWritten(returnValues: seq<int>, noiseProbability: real): Result<ValuesListTrainingSet> {
    match TrainingSetBase.Init(["noise_probability"])
    case Some(e) => Err(e)
    case None => Fresh(returnValues)
  }

  /** No list and no probability lets the constructor complete; `Fresh` is
      the state it evidently meant to build. */
  lemma NewAsWrittenAlwaysRaises(returnValues: seq<int>, noiseProbability: real)
    ensures NewAsWritten(returnValues, noiseProbability) == Err(TypeError)
    ensures Fresh(returnValues).Ok? ==> NewAsWritten(returnValues, noiseProbability) != Fresh(returnValues)
  {
  }

  function CurrentInputValue(s: ValuesListTrainingSet): int {
    s.value
  }

  function Moved<V>(s: ValuesListTrainingSet, c: Call<int, V>): Call<ValuesListTrainingSet, V> {
    match c
    case Returned(v, x) => Returned(s.(value := v), x)
    case Raised(v, e) => Raised(s.(value := v), e)
  }

  /** `_next`: `StopIteration` once the cursor is on `2^d - 1`, otherwise
      the cursor moves by one and the list is read there. */
  function NextValue(s: ValuesListTrainingSet): (r: Call<ValuesListTrainingSet, int>)
    ensures Cursor.AtEnd(s.value, s.domainSize) ==> r == Raised(s, StopIteration)
    ensures !Cursor.AtEnd(s.value, s.domainSize) ==> CurrentInputValue(r.state) == s.value + 1
    ensures !Cursor.AtEnd(s.value, s.domainSize) && 0 <= s.value + 1 < |s.returnValues| ==>
      r == Returned(s.(value := s.value + 1), s.returnValues[s.value + 1])
  {
    Moved(s, Cursor.Step(s.value, s.domainSize, Cursor.ListAt(s.returnValues)))
  }

  /** From the fresh state, `_next` issues the list in index order and then
      raises `StopIteration` with the cursor on `2^d - 1`; after `k` calls
      the cursor is `k - 1`, never beyond `2^d - 1`. */
  lemma NextValueEnumerates(returnValues: seq<int>, k: nat)
    requires Fresh(returnValues).Ok?
    requires k <= |returnValues|
    ensures var s := Fresh(returnValues).value;
      Cursor.Drain(s.value, s.domainSize, Cursor.ListAt(returnValues), |returnValues| + 1) ==
        Cursor.Drained(returnValues, Some(StopIteration), Pow2(s.domainSize) - 1)
    ensures var s := Fresh(returnValues).value;
      var c := Cursor.Drain(s.value, s.domainSize, Cursor.ListAt(returnValues), k).cursor;
      c == k - 1 && c <= Pow2(s.domainSize) - 1
  {
    var s := Fresh(returnValues).value;
    Cursor.EnumeratesList(returnValues, s.domainSize);
    Cursor.CursorAfter(s.domainSize, Cursor.ListAt(returnValues), k);
  }

  /** `__next__`: the value `_next` issued, if boolean. */
  function Next(s: ValuesListTrainingSet): (r: Call<ValuesListTrainingSet, int>)
    ensures r.Returned? ==> IsBool(r.value) && PyIndex(s.returnValues, s.value + 1) == Ok(r.value)
    ensures Cursor.AtEnd(s.value, s.domainSize) ==> r == Raised(s, StopIteration)
    ensures !Cursor.AtEnd(s.value, s.domainSize) && 0 <= s.value + 1 < |s.returnValues| ==>
      var v := s.returnValues[s.value + 1];
      if IsBool(v) then r == Returned(s.(value := s.value + 1), v)
      else r == Raised(s.(value := s.value + 1), DataSetValueError(s.value + 1, IntValue(v)))
  {
    TrainingSetBase.Next(s, NextValue, CurrentInputValue)
  }

  /** What `__next__` reads at input `i`: the list element, if boolean. */
  function CheckedAt(values: seq<int>): int -> Result<int> {
    i => match PyIndex(values, i)
      case Ok(v) => if IsBool(v) then Ok(v) else Err(DataSetValueError(i, IntValue(v)))
      case Err(e) => Err(e)
  }

  /** One `__next__` is one cursor step reading the checked list element. */
  lemma NextIsCursorStep(s: ValuesListTrainingSet)
    ensures Next(s) == Moved(s, Cursor.Step(s.value, s.domainSize, CheckedAt(s.returnValues)))
  {
  }

  /** On a list of booleans the checked reader reads the list itself. */
  lemma CheckedAtReadsBooleans(returnValues: seq<int>)
    requires forall i :: 0 <= i < |returnValues| ==> IsBool(returnValues[i])
    ensures forall i :: 0 <= i < |returnValues| ==> CheckedAt(returnValues)(i) == Ok(returnValues[i])
  {
    forall i | 0 <= i < |returnValues| ensures CheckedAt(returnValues)(i) == Ok(returnValues[i]) {
      assert PyIndex(returnValues, i) == Ok(returnValues[i]);
    }
  }

  /** From the fresh state, a list of booleans is issued by `__next__` as
      it is, in index order, and then `StopIteration` is raised. */
  lemma IssuesBooleanList(returnValues: seq<int>)
    requires Fresh(returnValues).Ok?
    requires forall i :: 0 <= i < |returnValues| ==> IsBool(returnValues[i])
    ensures var s := Fresh(returnValues).value;
      var run := Cursor.Drain(s.value, s.domainSize, CheckedAt(returnValues), |returnValues| + 1);
      run.values == returnValues && run.stop == Some(StopIteration)
  {
    var s := Fresh(returnValues).value;
    CheckedAtReadsBooleans(returnValues);
    Cursor.EnumeratesDomain(s.domainSize, CheckedAt(returnValues));
    var read := Cursor.Reads(CheckedAt(returnValues), 0, Pow2(s.domainSize));
    assert forall k :: 0 <= k < |read| ==> read[k] == returnValues[k];
    assert read == returnValues;
  }

  /** From the fresh state, a list of booleans is issued by `__next__` as
      it is, in index order, and then `StopIteration` is raised; a
      non-boolean element stops the run with `DataSetValueError` at its
      index. */
  lemma NextIssuesList(returnValues: seq<int>)
    requires Fresh(returnValues).Ok?
    ensures var s := Fresh(returnValues).value;
      var run := Cursor.Drain(s.value, s.domainSize, CheckedAt(returnValues), |returnValues| + 1);
      (forall i :: 0 <= i < |returnValues| ==> IsBool(returnValues[i])) ==>
        run.values == returnValues && run.stop == Some(StopIteration)
    ensures forall i :: 0 <= i < |returnValues| && !IsBool(returnValues[i]) ==>
      CheckedAt(returnValues)(i) == Err(DataSetValueError(i, IntValue(returnValues[i])))
  {
    if forall i :: 0 <= i < |returnValues| ==> IsBool(returnValues[i]) {
      IssuesBooleanList(returnValues);
    }
    forall i | 0 <= i < |returnValues| && !IsBool(returnValues[i])
      ensures CheckedAt(returnValues)(i) == Err(DataSetValueError(i, IntValue(returnValues[i])))
    {
      assert PyIndex(returnValues, i) == Ok(returnValues[i]);
    }
  }
}
